=== FILE: README.md ===
# Shard sync engine of `repodata_tools`

This project models the sync engine of `repodata_tools/anaconda_sync.py` in Dafny,
together with the two helpers from `repodata_tools/utils.py` that it relies on.
The engine keeps a git repository of per-package "shards" in step with the
conda-forge channel on anaconda.org. The model states its rules as contracts
and proves them.

`update_shards` walks every label and, for each label, the platform subdirs
that the rank owns. For each subdir it fetches the package listing and goes
through the sorted package names in chunks of 64. Each package gets exactly
one of three treatments:

- **Migrated.** A shard file in one of the two legacy layouts is moved to the
  current layout, or deleted when the current file already exists.
- **Built.** A package with no record is built from its download URL.
- **Reconciled.** A package with a record has the label merged into the
  record and, on the main label, its URL canonicalised.

Changed keys are collected in a dirty set. After each chunk a checkpoint
decides two things:

- It commits the dirty shards in one batch and pushes when more than 64 keys
  are dirty or time is up.
- It returns "time is up" when the deadline has passed.

A trailing batch commits whatever is still dirty at the end.

`upload_packages` re-hosts the records that this rank owns and that still
point at anaconda.org. Each such record is written, committed and pushed, up
to a cap. `main` orders the labels by package count, largest first, with ties
kept in name order.

The model is laid out in these files:

| File | Contents |
|---|---|
| `wrappers.dfy` | `Option` / `Result` |
| `arith.dfy` | integer division facts |
| `text.dfy` | Python's `in` on strings, string ordering, `sorted()` of a set of names, `str.split`, `str.rsplit(sep, 1)`, decimal rendering |
| `utils.dfy` | `split_pkg` and `chunk_iterable` |
| `shards.dfy` | the shard record, keys, symbolic shard paths, git events, the download URL, the label merge and the URL canonicalisation |
| `partition.dfy` | how subdirs and uploads are split between ranks |
| `policy.dfy` | the worker-count clamp, the chunk count and the checkpoint decision |
| `labels.dfy` | the label order of `main` |
| `sync.dfy` | the class `ShardSync` |

`ShardSync` has these fields:

- the record map;
- the dirty set;
- the working tree, as a map from shard path to record;
- the git log;
- the clock and push counters;
- the loop variables that the trailing batch reads.

Its methods are `update_shards`, `_write_shards` and `upload_packages`, split
along the source's loops.

What `update_shards` reads from outside comes in as a `World` value:

- the HTTP listing;
- the shard builder;
- the clock readings;
- whether each push got through.

`upload_packages` takes the same `World` for its pushes. It also takes two
function parameters of its own: `digest0`, the first byte of a key's SHA-1
digest, and `rehost`, the outcome of `_make_release`.

Git commands are appended to the log as `Move`, `Remove`, `Add`, `Commit` and
`Push` events.

`UpdateShards` and the methods under it take a flag `corrected`:

- With `corrected == false` the engine is the code as written. Each
  checkpoint consumes two clock readings, one for the flush and one for
  the stop. The commit messages announce `len // 64 + 1` chunks.
- With `corrected == true` the engine uses the corrections listed under
  "Findings". One clock reading decides both, and `ceil(len / 64)` chunks
  are announced.

Every contract holds for both values. Where the two differ, the contract
says how: `Decide` for the checkpoint, and `TimeStopped` for what a time
stop leaves behind.

Three more facts run from `ProcessChunk` up to `UpdateShards`:

- `Paced`: the run stops exactly at the first checkpoint whose stop
  reading is past the limit. A run that does not stop on time had every
  checkpoint's stop reading within the limit (`InTime`).
- `Clocked`: a run that carries on ran exactly one checkpoint per chunk
  of every listing it fetched, each within the limit. It therefore
  consumed that many times `Readings(corrected)` clock readings
  (`PairCheckpoints`, `LabelCheckpoints`, `RunCheckpoints` count them).
  So with a time limit of 0, the first checkpoint stops the run.
- A failure has a cause. Some visited listing holds a package whose build
  raises, or a package of size 0 (`FailedAt`, `FailedIn`).

Two facts are carried through the whole engine:

- **Nothing changed is lost.** The ghost field `loaded` holds the records
  as `update_shards` found them. The class invariant `Valid` says two
  things: every dirty key has a record, and every record that differs from
  `loaded` is still dirty or is in its current file with that content.
  `UpdateShards` ends with this invariant, and a completed run ends with
  nothing dirty.
- **Records keep their labels.** The builder lives in `shards.py` and is
  only a parameter here. The predicate `WellBuilt` names what it is there
  for: each built record has the key of the package it was built for, and
  it carries the label. Under that hypothesis, `Kept` says that a record
  that no legacy copy can replace keeps its labels as a prefix. `OnRecord`
  then says that a processed package's record carries the label.
  Without the hypothesis, `OnRecord` still says that the package is on
  record.

## Model

| member | source | states |
|---|---|---|
| Shards.DownloadUrlShape | repodata_tools/anaconda_sync.py:30-41 | The URL a build downloads from always contains the upstream host, so a fresh build is a re-hosting candidate. On the main label it is the canonical URL. On the main label, canonicalisation maps every download URL to that canonical URL. |
| Shards.CanonicalUrl | repodata_tools/anaconda_sync.py:176-186 | The URL is rewritten exactly when all three hold: the label is `main`, the URL is not the canonical one, and it contains `conda.anaconda.org`. It is then rewritten to the canonical `https://conda.anaconda.org/conda-forge/{subdir}/{pkg}`. A URL without that host, such as a re-hosted asset, is never changed. |
| Shards.CanonicalUrlIdempotent | repodata_tools/anaconda_sync.py:176-186 | Canonicalising twice gives the same URL as canonicalising once. |
| Shards.MergeLabel | repodata_tools/anaconda_sync.py:172-174 | After the merge the label is present, and nothing else was added. The old labels keep their order as a prefix. The list grows by one exactly when the label was absent. |
| Shards.MergeLabelNoDuplicates | repodata_tools/anaconda_sync.py:172-174 | Merging a label into a list without duplicates leaves it without duplicates. |
| Shards.Reconcile | repodata_tools/anaconda_sync.py:172-186 | Afterwards the label is in the record. The old labels are kept in order, with at most the new label after them, and are unchanged when the label was already there. The URL is kept, or becomes the canonical one. It is always kept off the main label or off the upstream host, and on the main label an upstream URL always becomes canonical. No other field changes. |
| Shards.MarksDirtyIffChanged | repodata_tools/anaconda_sync.py:172-186 | The key is added to `shards_to_write` exactly when the record changes. |
| Shards.ReconcileIdempotent | repodata_tools/anaconda_sync.py:172-186 | Reconciling again with the same label changes nothing and marks nothing dirty. |
| Shards.ReconcileKeepsLabels | repodata_tools/anaconda_sync.py:172-174 | Every existing label stays in place at its index. |
| Partition.SubdirOwner | repodata_tools/anaconda_sync.py:97-102 | Every subdir index has an owning rank in `0..n_ranks-1`, and no other rank processes it. |
| Partition.SubdirsPartitioned | repodata_tools/anaconda_sync.py:97-102 | For `n_ranks >= 1`, each of the seven subdirs is processed by exactly one rank: the shares cover the list and are pairwise disjoint. |
| Partition.SubdirShareSize | repodata_tools/anaconda_sync.py:97-102 | A rank below both `n_ranks` and 7 processes its own index. A rank of 7 or more processes nothing. |
| Partition.UploadPartitioned | repodata_tools/anaconda_sync.py:312-313 | Each key is offered to exactly one rank in `0..n_ranks-1`. Ranks 4 and above are never offered a key. |
| Policy.NJobs | repodata_tools/anaconda_sync.py:189-190 | For a positive maximum size the worker count lies in `[1, 16]`. A zero maximum size is the division by zero. |
| Policy.NJobsMonotone | repodata_tools/anaconda_sync.py:189-190 | Larger packages never get more workers. Up to 1/16 GB all 16 workers run, and above half a GB a single worker runs. |
| Policy.TotalChunksCountsChunks | repodata_tools/anaconda_sync.py:124-126 | `ceil(len / 64)` is the number of chunks `chunk_iterable(all_pkgs, 64)` yields. |
| Policy.TotalChunksAsWrittenOverCounts | repodata_tools/anaconda_sync.py:124 | `len // 64 + 1` over-counts by one exactly when `len` is a multiple of 64. For 64 packages it announces 2 chunks where there is 1. |
| Policy.CheckpointAsWrittenStopsWithoutFlush | repodata_tools/anaconda_sync.py:203-220 | With the two clock readings of the source, a deadline that passes between them returns "time is up" without flushing the dirty key. |
| Policy.Checkpoint | repodata_tools/anaconda_sync.py:203-220 | With one clock reading, the checkpoint stops exactly when time is up, stopping always comes with a flush, and a checkpoint that does not flush leaves at most 64 dirty keys. |
| Policy.CheckpointAsWrittenAgrees | repodata_tools/anaconda_sync.py:203-220 | The two-reading and the one-reading checkpoints agree when both readings are equal. They differ exactly when the deadline falls between the two readings. |
| Labels.KeepPlain | repodata_tools/anaconda_sync.py:371-375 | The kept labels are exactly the labels whose name has no `/`. |
| Labels.KeepPlainDistinct | repodata_tools/anaconda_sync.py:366-375 | The label listing is a JSON object, so its names are distinct, and filtering keeps them distinct. |
| Labels.InsertByNameSorts | repodata_tools/anaconda_sync.py:371-375 | Inserting by name into a name-ordered list keeps it ordered. |
| Labels.InsertByNamePerm | repodata_tools/anaconda_sync.py:371-375 | Inserting adds exactly one copy of the element. |
| Labels.SortByNameSorts | repodata_tools/anaconda_sync.py:371-375 | `sorted()` over distinct names yields a strictly name-ordered list. |
| Labels.SortByNamePerm | repodata_tools/anaconda_sync.py:371-375 | `sorted()` over names is a permutation of its input. |
| Labels.InsertByCountSorts | repodata_tools/anaconda_sync.py:376-377 | Stable insertion by count, in front of every entry with a count no larger, keeps the list ordered by count, largest first, then by name. |
| Labels.InsertByCountPerm | repodata_tools/anaconda_sync.py:376-377 | Inserting by count adds exactly one copy of the element. |
| Labels.SortByCountSorts | repodata_tools/anaconda_sync.py:376-377 | Stable-sorting a name-ordered list by count, descending, gives count order with ties in name order. |
| Labels.SortByCountPerm | repodata_tools/anaconda_sync.py:376-377 | The stable sort by count is a permutation of its input. |
| Labels.OrderLabels | repodata_tools/anaconda_sync.py:371-377 | The labels handed to `update_shards` are a permutation of the labels without `/`. They are in processing order: more packages first, equal counts alphabetically. |
| Utils.SplitPkg | repodata_tools/utils.py:6-15 | It raises the extension error exactly when the name does not end in `.tar.bz2`. A success returns well-formed parts that join back to the input: no separator anywhere, and no `-` in the version or the build. |
| Utils.SplitStem | repodata_tools/utils.py:11-15 | After the extension is cut off, a success returns well-formed parts that join back to the stem plus the extension. The failures are the three unpacking errors: the path split, the build split and the version split. |
| Utils.SplitPkgJoin | repodata_tools/utils.py:6-15 | Splitting the name built from well-formed parts returns those parts. |
| Utils.SplitStemJoin | repodata_tools/utils.py:11-15 | The same round trip without the extension. |
| Utils.SplitPkgSucceedsIff | repodata_tools/utils.py:6-15 | `split_pkg` returns given parts exactly when they are well-formed and join to the input, so the parts of a name are unique. |
| Utils.ChunkIterable | repodata_tools/utils.py:29-46 | The yielded chunks are `Chunks(items, max(chunk_size, 1))`. A `chunk_size <= 0` behaves like 1. |
| Utils.ChunksFlatten | repodata_tools/utils.py:36-46 | Concatenating the chunks gives back the input in order. |
| Utils.ChunksShape | repodata_tools/utils.py:34-45 | Every chunk is non-empty and holds at most `k` items, and every chunk but the last holds exactly `k`. |
| Utils.ChunksMembers | repodata_tools/utils.py:36-46 | An item is in the input exactly when it is in some chunk. |
| Utils.ChunksCount | repodata_tools/utils.py:37-46 | There are `ceil(L / k)` chunks, so an empty input yields none. |
| Text.ContainsAt | repodata_tools/anaconda_sync.py:183 | Python's substring test holds exactly when the substring occurs at some position. |
| Text.SortedSet | repodata_tools/anaconda_sync.py:122 | `sorted(list(names))` is strictly ordered and holds exactly the names, once each. |
| Text.Split | repodata_tools/utils.py:12 | `str.split(sep)` yields at least one part. Joining the parts with the separator gives the input, and no part contains the separator. |
| Text.RSplitOnce | repodata_tools/utils.py:13-14 | `str.rsplit(sep, 1)` yields one part, the input, when the separator is absent. Otherwise it yields two parts around the last separator. |
| Text.SplitTwo | repodata_tools/utils.py:12 | Two separator-free parts joined by the separator split back into exactly those two parts. |
| Text.RSplitOnceJoin | repodata_tools/utils.py:13-14 | A head and a separator-free tail joined by the separator rsplit back into exactly those two parts. |
| Sync.LegacyCopy | repodata_tools/anaconda_sync.py:137-143 | The copy found is the first existing legacy path, in probe order: the old layout before the four-directory layout. It is never the current path. There is none exactly when neither legacy path exists. |
| Sync.MigratedTreeSpec | repodata_tools/anaconda_sync.py:137-164 | After migration no legacy copy can replace the key's record. Files of other keys are untouched, and an existing current file stays as it was. A move puts the legacy copy's content into the current file. |
| Sync.PlannedRecordSpec | repodata_tools/anaconda_sync.py:132-186 | A package is built exactly when it has no record and no legacy copy is moved into place; a copy that is only deleted does not count. Any other package ends its turn with the label in its record. A known record of a settled key keeps its labels as a prefix. The key is marked dirty exactly on a move, or when reconciling changes the known record. |
| Sync.MergeBuilt | repodata_tools/anaconda_sync.py:198-201 | After the builds are stored, the keys are the old keys plus the built records' keys. Each built key holds a record built for it, and every other record is unchanged. |
| Sync.WithFilesSpec | repodata_tools/anaconda_sync.py:59-69 | Writing the dirty shards gives every written key with a record its current file, holding that record. No other path changes. |
| Sync.SavedByWrite | repodata_tools/anaconda_sync.py:59-69 | Once every dirty key is written, every changed record is in its current file, so the dirty set can be emptied without losing a change. |
| Sync.PlanKept | repodata_tools/anaconda_sync.py:130-186 | The package loop of a chunk loses no record. A key with no legacy copy left stays that way, and its record keeps its labels as a prefix. |
| Sync.BuildKept | repodata_tools/anaconda_sync.py:197-201 | Storing a chunk's builds loses no record. With a well-behaved builder it overwrites none, because each build lands under its job's key, which had no record. |
| Sync.ChunksSorted | repodata_tools/anaconda_sync.py:122-126 | Each chunk of a strictly sorted listing is itself strictly sorted, so its package names are distinct. |
| Sync.ChunkListing | repodata_tools/anaconda_sync.py:122-129 | The chunks of a listing concatenate to a strictly sorted list, and there are `ceil(len / 64)` of them. Each chunk is non-empty, strictly sorted and holds at most 64 names, and every chunk but the last holds exactly 64. A name is in some chunk exactly when it is listed. |
| Sync.Decide | repodata_tools/anaconda_sync.py:203-220 | The checkpoint flushes exactly when more than 64 keys are dirty or the first clock reading is past the limit. It stops exactly when the last reading is past the limit: the second of the source's two readings, or the only one when corrected. A corrected stop always comes with a flush. |
| Sync.ClockedInTime | repodata_tools/anaconda_sync.py:203-220 | `n` whole checkpoints in time consume exactly `n` times one checkpoint's readings (two as written, one when corrected), and every one of them had its last reading within the limit. |
| Sync.ClockedFirstInTime | repodata_tools/anaconda_sync.py:203-220 | A run of one or more whole checkpoints in time never starts with a checkpoint whose last reading is past the limit. |
| Sync.FirstLateCheckpointStops | repodata_tools/anaconda_sync.py:203-220 | When the first checkpoint of a paced run has its last reading past the limit, the run stops for time right there, after that checkpoint's readings. |
| Sync.RunClock | repodata_tools/anaconda_sync.py:125-220 | A completed run of `n` checkpoints consumed exactly their readings, and with `n > 0` its first checkpoint was within the limit. A time stop after a late first checkpoint happened at that checkpoint. |
| Sync.UploadOneMore | repodata_tools/anaconda_sync.py:317-323 | Uploading one more key re-hosts its record and writes it to its current file. A `git add`, a release commit and one push follow, and nothing else changes. |
| Sync.ReplaySpec | repodata_tools/anaconda_sync.py:311-327 | Uploading distinct keys one after the other gives the state that `AfterUploads` describes in closed form. |
| Sync.UploadKey | repodata_tools/anaconda_sync.py:312-323 | For one key, it reports whether the rank owns the key's digest slot. The record is written exactly when it is selected and its re-hosting gives a URL. The release fails exactly when it is selected and the re-hosting raises. The new state is one more upload. |
| Sync.UploadNext | repodata_tools/anaconda_sync.py:311-327 | One turn of the upload loop keeps the loop's progress invariant: what was written, what the cap allows, and why an error stopped the loop. |
| Sync.UploadLoop | repodata_tools/anaconda_sync.py:309-327 | The upload loop writes distinct uploadable keys, at most `max(max_write, 1)` of them. Without an error and below the cap, every selected key is written. An error names a selected key whose release failed. |
| Sync.ShardSync.constructor | repodata_tools/anaconda_sync.py:355-362 | The engine starts from the records and files read from disk, with nothing dirty and an empty log. |
| Sync.ShardSync.Migrate | repodata_tools/anaconda_sync.py:137-164 | Migration takes at most one action, on the first existing legacy path only. Without the current file it is a `git mv` that loads the record and marks the key dirty. Otherwise it is a `git rm` that leaves the record map and the dirty set alone. |
| Sync.ShardSync.ReconcileExisting | repodata_tools/anaconda_sync.py:172-186 | A known record is replaced by its reconciliation, and the key is marked dirty exactly when the record changes. |
| Sync.ShardSync.PlanPackage | repodata_tools/anaconda_sync.py:132-186 | A build is scheduled exactly when the package's turn leaves it without a record. Otherwise its record becomes the reconciliation of the legacy copy just moved, or of the known record; this includes a known record whose stale legacy copy is deleted. The key is marked dirty as the turn says. The tree is migrated, and the log grows by exactly the migration's `git mv` or `git rm`. |
| Sync.ShardSync.PlanChunk | repodata_tools/anaconda_sync.py:130-186 | Every package of the chunk gets the record and the dirty flag of its turn, measured against the state before the loop. The builds are exactly the packages left without a record, once each and drawn from the chunk. `maxBytes` is the largest of their sizes, or 0. Records, dirty flags and files of other keys are unchanged. |
| Sync.ShardSync.BuildAll | repodata_tools/anaconda_sync.py:197 | Either every job's build succeeded and the results are in job order, or a job whose build raised is reported. |
| Sync.ShardSync.MergeAll | repodata_tools/anaconda_sync.py:198-201 | The built records are stored under their own keys, and exactly those keys are added to the dirty set. |
| Sync.ShardSync.BuildChunk | repodata_tools/anaconda_sync.py:188-201 | A zero maximum size raises the division by zero. A failing build raises and leaves the state untouched. Otherwise every job is built and merged. |
| Sync.ShardSync.WriteShards | repodata_tools/anaconda_sync.py:56-80 | Every dirty key is staged exactly once. Files are written only for dirty keys that have a record. Exactly one commit follows, with message `chunk {i+1} of {total} {label}/{subdir} …`. |
| Sync.ShardSync.PushRepo | repodata_tools/anaconda_sync.py:83-90 | A push is attempted once, and its outcome is recorded but does not stop the caller. |
| Sync.ShardSync.Flush | repodata_tools/anaconda_sync.py:203-217 | A batch writes and stages each dirty key once, commits once and pushes. The dirty set is then empty, and every changed record is in its current file. |
| Sync.ShardSync.RunChunk | repodata_tools/anaconda_sync.py:130-201 | The builds are exactly the packages whose turn leaves them without a record. No record is lost, and settled records keep their labels. Unless a build raised: every build succeeded in job order; a package not built, whose key no build overwrote, holds the record of its turn, which carries the label; a built key holds a record built for it and is dirty; and every package of the chunk is on record, with the label when the builder is well-behaved. Every key its turn marks dirty is dirty afterwards. It raises only when there are builds: with a division by zero exactly when every build has size 0, and otherwise naming a build of the chunk that raises. When some build has a positive size and every build succeeds, it does not raise. |
| Sync.ShardSync.AfterChunk | repodata_tools/anaconda_sync.py:203-220 | The checkpoint consumes two clock readings as written, or one when corrected. The checkpoint flushes and stops as `Decide` says. A flush stages every dirty key once, commits and pushes, and empties the dirty set. Without a flush the tree, the log, the dirty set and the pushes are unchanged. The records never change. |
| Sync.ShardSync.ChunkCheckpoint | repodata_tools/anaconda_sync.py:203-220 | After a chunk that ran through, the checkpoint consumes its readings. The chunk stops on time exactly when the last reading is past the limit, and a stop leaves what `TimeStopped` says. The chunk's packages stay on record, no record is lost, and the records never change. |
| Sync.ShardSync.ProcessChunk | repodata_tools/anaconda_sync.py:130-220 | One chunk either completes with its packages on record and at most 64 dirty keys, or stops on a raised build or on time. A failure reads no clock and names a package of the chunk whose build raises or whose size is 0. Otherwise the checkpoint consumes its readings, and the chunk stops on time exactly when the last reading is past the limit. A time stop leaves what `TimeStopped` says. No record is lost and settled records keep their labels. |
| Sync.ShardSync.ClockedChunk | repodata_tools/anaconda_sync.py:130-220 | One turn of the chunk loop after `ci` checkpoints in time: the run stays `Paced`, and a chunk that carries on makes them `ci + 1` checkpoints in time (`Clocked`). It keeps what `ProcessChunk` states about records, failures and time stops. |
| Sync.ShardSync.ProcessChunks | repodata_tools/anaconda_sync.py:125-220 | Completing the chunk loop puts every package of every chunk on record. It then ran exactly one checkpoint per chunk, each within the limit (`Clocked`), and consumed `|chunks|` times one checkpoint's readings. It stops at the first checkpoint whose last reading is past the limit, and no earlier (`Paced`). A failure names a listed package whose build raises or whose size is 0. No record is lost, and a time stop leaves what `TimeStopped` says. |
| Sync.ShardSync.ProcessSubdir | repodata_tools/anaconda_sync.py:104-220 | A non-200 listing is skipped without any change. Otherwise the chunk count is `len // 64 + 1` as written, or `ceil(len / 64)` when corrected, and completing the subdir puts every listed package on record. Completing it ran exactly one checkpoint per chunk of the listing, none for a skipped listing (`PairCheckpoints`), and consumed their readings. It stops on time exactly at the first late checkpoint (`Paced`). It fails only when the listing holds a package whose build raises or whose size is 0 (`FailedAt`). |
| Sync.ShardSync.VisitSubdir | repodata_tools/anaconda_sync.py:104-220 | An owned subdir after `n` checkpoints in time: the run stays `Paced`, and a subdir that carries on adds its own checkpoints (`PairCheckpoints`) to `n`. No record is lost, and the listings of the subdirs visited before stay on record. A failure comes from this subdir's listing (`FailedAt`). |
| Sync.ShardSync.LabelStep | repodata_tools/anaconda_sync.py:97-220 | One turn of the subdir loop: a subdir the rank does not own is skipped with no change, and an owned one is visited. The visited subdirs are then exactly the owned ones up to this one. Carrying on, the checkpoints run are those of the owned subdirs so far (`LabelCheckpoints`). |
| Sync.ShardSync.ProcessLabel | repodata_tools/anaconda_sync.py:97-220 | The subdirs visited are exactly the ones this rank owns. Completing the label puts every package they list on record, and runs exactly the checkpoints of their listings (`LabelCheckpoints`). It stops on time exactly at the first late checkpoint. A failure comes from the listing of a visited subdir. |
| Sync.ShardSync.ProcessLabels | repodata_tools/anaconda_sync.py:95-220 | The (label, subdir) pairs visited are owned by the rank. A completed loop has visited all of them and put every package they list on record, and ran exactly the checkpoints of their listings (`RunCheckpoints`). It stops on time exactly at the first late checkpoint. A failure comes from the listing of a visited pair (`FailedIn`). |
| Sync.ShardSync.FinalBatch | repodata_tools/anaconda_sync.py:222-235 | With nothing dirty, no commit and no push is made. Otherwise the dirty keys are written, staged once each, committed and pushed. The commit message uses the loop variables as the loops left them: the last label, the last subdir of the list, and the last chunk index and count. Afterwards nothing is dirty. |
| Sync.ShardSync.TimedLabels | repodata_tools/anaconda_sync.py:95-220 | The label loop as `update_shards` runs it. Completed, it consumed exactly `RunCheckpoints` checkpoints' readings, and when it ran any, the first one's last reading was within the limit. A time stop whose first checkpoint's last reading is past the limit stopped at that first checkpoint. Records, visits and failures are as `ProcessLabels` states. |
| Sync.ShardSync.CompleteRun | repodata_tools/anaconda_sync.py:222-235 | The trailing batch of a completed run leaves nothing dirty and the records unchanged. Every package on record for the visited pairs stays on record, and nothing is lost since the start. |
| Sync.ShardSync.UpdateShards | repodata_tools/anaconda_sync.py:93-237 | Every record that differs from the records at the start is still dirty or is in its current file. No record is lost, and settled records keep their labels. A completed run has visited exactly the owned (label, subdir) pairs, has put every package they list on record, and leaves nothing dirty. A time stop leaves what `TimeStopped` says: its last reading is past the limit and at most 64 keys are dirty; when its first reading is past the limit too, nothing is dirty and the log ends with a commit and a push. It returns "time is up" exactly at the first checkpoint whose last reading is past the limit. A run that completes or fails had every checkpoint's stop reading within the limit (`Paced`). A completed run consumed exactly the readings of `RunCheckpoints` checkpoints, and when it ran any, its first checkpoint was within the limit. A time stop whose first checkpoint's last reading is past the limit stopped there, after one checkpoint's readings. So with a time limit of 0 and a positive elapsed time, a run with any listing to process stops at its first checkpoint. A failure needs a visited listing with a package whose build raises or whose size is 0 (`FailedIn`). |
| Sync.ShardSync.UploadPackages | repodata_tools/anaconda_sync.py:309-327 | Only selected records whose release succeeded are re-hosted, written, committed and pushed, once each and at most `max(max_write, 1)` of them. Skipped keys never count toward the cap. Below the cap with no error, every selected record was uploaded, and an error names the failed key. |

## Left out

- HTTP, git, the file system and the clock are not executed. Each is a field of `World`, or an event appended to the log. `tqdm` and `print` are not modelled.
- `shards.py` is not part of this model. That covers the shard path functions, `make_repodata_shard_noretry` and `read_subdir_shards`:
  - Paths are symbolic `(layout, key)` pairs, so the legacy paths always differ from the current one.
  - The builder is `World.build`.
  - The records read at start-up are the constructor's arguments.
- `_make_release`, `_download_package`, `get_or_make_release` and `upload_asset` are the function `rehost`. It gives the new URL, or `None` when the release raises.
- `hashlib.sha1` is the function `digest0`, which gives the digest's first byte.
- `_make_release` sets `shard["url"]` before it uploads the JSON asset. A failure after that leaves a changed but unwritten record in memory. The model treats a release as all or nothing.
- The float division of the worker-count heuristic is modelled in integers.
- `joblib.Parallel` runs the builds in parallel. The model runs them as a map over the jobs and collects the results in job order, as `joblib` returns them. When builds raise, `BuildChunk` names some failing job. The model does not say which, since under parallel execution the one that surfaces first is not fixed. The worker count has no effect on the results.
- The retries of `_push_repo` collapse into one recorded outcome per push.
- A `git commit` in `_write_shards` or `_write_shard` that raises, for example with nothing to commit, is not modelled; commits always succeed.
- A missing `size` or `packages` entry in a listing, which raises a `KeyError`, is not modelled.
- Every member that takes `n_ranks` requires it to be at least 1. The source divides by `n_ranks` and raises `ZeroDivisionError` for 0. A negative `n_ranks` is excluded too. The source would accept it: Python's `%` then gives a non-positive remainder, so only ranks `n_ranks + 1 .. 0` own subdirs.
- `os.path.sep` and `os.path.join` are taken to be `/` (`repodata_tools/utils.py:12`, `repodata_tools/anaconda_sync.py:133`), as on the Linux runners the tool is built for.
- The iteration order of `all_shards` in `upload_packages` and of `shards_to_write` in `_write_shards` is an arbitrary choice. The contracts hold for every order, and the order taken is returned as a ghost value.
- `main`:
  - The record loading, the label listing request and `sys.exit` are not modelled.
  - The orchestration is not modelled; only its label order is (`Labels.OrderLabels`).
  - The call to `upload_packages` is commented out in `main`, but the function is modelled.
- Sync.ShardSync.AfterChunk: as written it consumes two clock readings at every checkpoint. When more than 64 keys are dirty, the source's `or` short-circuits and reads the clock only once. The skipped reading is consumed unused. Each reading is an arbitrary value of `World.clock`, so the possible behaviours are the same.
- Sync.ShardSync.UpdateShards: does not give the whole log of a run. It gives the log of each batch at the batch itself (`AfterChunk`, `FinalBatch`), and at the top only that the log grows and how a time stop ends.
- That a processed package's record carries the label (`OnRecord`, `Kept`) is proved only under `WellBuilt`. The builder is in `shards.py`, which is not part of this model.

## Findings

| source | as written | input that shows it | evidently intended | confidence | as-written member | corrected member |
|---|---|---|---|---|---|---|
| repodata_tools/anaconda_sync.py:124 | `total_chunks = len(rd["packages"]) // 64 + 1` | a listing of 64 packages: one chunk, committed as "chunk 1 of 2" | the number of chunks `chunk_iterable` yields, `ceil(len / 64)` | not executed | Policy.TotalChunksAsWrittenOverCounts | Policy.TotalChunksCountsChunks |
| repodata_tools/anaconda_sync.py:203-220 | the clock is read once to decide the flush and again to decide whether to return | one dirty key, time limit 3300, readings 3300 then 3301: no flush, but the run returns "time is up", and `main` exits with the key unwritten | one reading decides both, so stopping always follows a flush | not executed | Policy.CheckpointAsWrittenStopsWithoutFlush | Policy.Checkpoint |

The engine runs either way. With `corrected == false`, `ProcessSubdir` announces `TotalChunksAsWritten` and `Decide` uses `CheckpointAsWritten` on two clock readings. With `corrected == true` they use `TotalChunks` and `Checkpoint` on one reading.

=== FILE: arith.dfy ===
/** Integer facts the solver does not find by itself: division by a variable
    divisor and monotonicity of multiplication. */
module Arith {

  function Min(a: int, b: int): int
  {
    if a < b then a else b
  }

  function Max(a: int, b: int): int
  {
    if a < b then b else a
  }

  /** `(x + k) / k == x / k + 1`, spelled out for the solver. */
  lemma DivStep(x: nat, k: nat)
    requires k >= 1
    ensures (x + k) / k == x / k + 1
  {
    var q, r := x / k, x % k;
    var q', r' := (x + k) / k, (x + k) % k;
    assert x == q * k + r && 0 <= r < k;
    assert x + k == q' * k + r' && 0 <= r' < k;
    MulDistributes(q', q + 1, k);
    MulDistributes(q + 1, q, k);
    var d := q' - (q + 1);
    assert d * k == r - r';
    if d >= 1 {
      MulAtLeast(d, k);
    } else if d <= -1 {
      MulAtLeast(-d, k);
      MulDistributes(0, d, k);
    }
  }

  lemma MulAtLeast(a: int, k: int)
    requires a >= 1 && k >= 1
    ensures a * k >= k
  {
  }

  lemma MulDistributes(a: int, b: int, k: int)
    ensures (a - b) * k == a * k - b * k
  {
  }

  lemma MulMonotone(p: nat, q: nat, a: nat)
    requires p <= q
    ensures p * a <= q * a
  {
  }

  lemma MulLeftMonotone(q: nat, a: nat, b: nat)
    requires a <= b
    ensures q * a <= q * b
  {
  }

  lemma MulStep(q: nat, a: nat)
    ensures (q + 1) * a == q * a + a
  {
  }

  /** `q * a <= x` bounds `q` by `x / a`. */
  lemma DivLowerBound(x: nat, a: nat, q: nat)
    requires a > 0 && q * a <= x
    ensures q <= x / a
  {
    var d := x / a;
    assert x == d * a + x % a && x % a < a;
    if q > d {
      MulMonotone(d + 1, q, a);
      MulStep(d, a);
    }
  }

  /** Dividing by a larger number gives a smaller quotient. */
  lemma DivMonotone(x: nat, a: nat, b: nat)
    requires 0 < a <= b
    ensures x / b <= x / a
  {
    var qb := x / b;
    assert qb * b + x % b == x;
    MulLeftMonotone(qb, a, b);
    DivLowerBound(x, a, qb);
  }
}

=== FILE: labels.dfy ===
/** The label order of `main`: labels whose name contains '/' are dropped, the
    rest are sorted by name, then stably sorted by upstream package count,
    largest first, so that labels with equal counts stay in name order. */
module Labels {
  import opened Text

  /** One entry of the channel's label listing: a label and its package count. */
  datatype LabelCount = LabelCount(name: string, count: int)

  /** The listing is a JSON object, so its label names are distinct. */
  predicate DistinctNames(info: seq<LabelCount>)
  {
    forall i, j | 0 <= i < j < |info| :: info[i].name != info[j].name
  }

  /** The processing order: more packages first, ties by name. */
  predicate Before(a: LabelCount, b: LabelCount)
  {
    a.count > b.count || (a.count == b.count && StrLt(a.name, b.name))
  }

  predicate OrderedByCount(s: seq<LabelCount>)
  {
    forall i, j | 0 <= i < j < |s| :: Before(s[i], s[j])
  }

  predicate OrderedByName(s: seq<LabelCount>)
  {
    forall i, j | 0 <= i < j < |s| :: StrLt(s[i].name, s[j].name)
  }

  /** `label for label in label_info if "/" not in label`. */
  function KeepPlain(info: seq<LabelCount>): (r: seq<LabelCount>)
    ensures forall x :: x in r <==> x in info && '/' !in x.name
    ensures multiset(r) <= multiset(info)
  {
    if info == [] then []
    else
      var rest := KeepPlain(info[1..]);
      assert info == [info[0]] + info[1..];
      if '/' in info[0].name then rest else [info[0]] + rest
  }

  /** Python's `sorted()` over the names, as an insertion sort. */
  function SortByName(s: seq<LabelCount>): seq<LabelCount>
  {
    if s == [] then [] else InsertByName(s[0], SortByName(s[1..]))
  }

  function InsertByName(x: LabelCount, s: seq<LabelCount>): seq<LabelCount>
  {
    if s == [] || StrLt(x.name, s[0].name) then [x] + s
    else [s[0]] + InsertByName(x, s[1..])
  }

  /** `sorted(labels, key=lambda x: counts[x], reverse=True)`: a stable sort,
      so an element goes in front of the elements with a count no larger. */
  function SortByCount(s: seq<LabelCount>): seq<LabelCount>
  {
    if s == [] then [] else InsertByCount(s[0], SortByCount(s[1..]))
  }

  function InsertByCount(x: LabelCount, s: seq<LabelCount>): seq<LabelCount>
  {
    if s == [] || x.count >= s[0].count then [x] + s
    else [s[0]] + InsertByCount(x, s[1..])
  }

  /** The labels `main` hands to `update_shards`, in order, with their counts. */
  function OrderLabels(info: seq<LabelCount>): (r: seq<LabelCount>)
    requires DistinctNames(info)
    ensures multiset(r) == multiset(KeepPlain(info))
    ensures forall x :: x in r <==> x in info && '/' !in x.name
    ensures OrderedByCount(r)
  {
    var plain := KeepPlain(info);
    KeepPlainDistinct(info);
    var byName := SortByName(plain);
    SortByNameSorts(plain);
    SortByNamePerm(plain);
    SortByCountSorts(byName);
    SortByCountPerm(byName);
    var r := SortByCount(byName);
    assert forall x :: x in r <==> x in multiset(r);
    assert forall x :: x in plain <==> x in multiset(plain);
    r
  }

  // ---------------------------------------------------------------------
  // Proofs

  lemma {:induction false} KeepPlainDistinct(info: seq<LabelCount>)
    requires DistinctNames(info)
    ensures DistinctNames(KeepPlain(info))
  {
    if info != [] {
      KeepPlainDistinct(info[1..]);
      var rest := KeepPlain(info[1..]);
      forall y | y in rest ensures y.name != info[0].name {
        var j :| 0 <= j < |info[1..]| && info[1..][j] == y;
        assert info[j + 1] == y;
      }
    }
  }

  /** Inserting adds exactly one copy of the element. */
  lemma {:induction false} InsertByNamePerm(x: LabelCount, s: seq<LabelCount>)
    ensures multiset(InsertByName(x, s)) == multiset(s) + multiset{x}
  {
    if s != [] && !StrLt(x.name, s[0].name) {
      InsertByNamePerm(x, s[1..]);
      assert InsertByName(x, s) == [s[0]] + InsertByName(x, s[1..]);
      assert s == [s[0]] + s[1..];
    }
  }

  lemma {:induction false} InsertByCountPerm(x: LabelCount, s: seq<LabelCount>)
    ensures multiset(InsertByCount(x, s)) == multiset(s) + multiset{x}
  {
    if s != [] && x.count < s[0].count {
      InsertByCountPerm(x, s[1..]);
      assert InsertByCount(x, s) == [s[0]] + InsertByCount(x, s[1..]);
      assert s == [s[0]] + s[1..];
    }
  }

  /** In a name-ordered sequence the head's name is below every later name. */
  lemma HeadFirstByName(s: seq<LabelCount>)
    requires s != [] && OrderedByName(s)
    ensures forall y | y in s[1..] :: StrLt(s[0].name, y.name)
  {
    forall y | y in s[1..] ensures StrLt(s[0].name, y.name) {
      var j :| 0 <= j < |s[1..]| && s[1..][j] == y;
      assert s[j + 1] == y;
    }
  }

  lemma HeadFirstByCount(s: seq<LabelCount>)
    requires s != [] && OrderedByCount(s)
    ensures forall y | y in s[1..] :: Before(s[0], y)
  {
    forall y | y in s[1..] ensures Before(s[0], y) {
      var j :| 0 <= j < |s[1..]| && s[1..][j] == y;
      assert s[j + 1] == y;
    }
  }

  /** An element whose name is below every name of an ordered sequence can
      go in front of it. */
  lemma ConsByName(h: LabelCount, t: seq<LabelCount>)
    requires OrderedByName(t)
    requires forall y | y in t :: StrLt(h.name, y.name)
    ensures OrderedByName([h] + t)
  {
    var r := [h] + t;
    forall i, j | 0 <= i < j < |r| ensures StrLt(r[i].name, r[j].name) {
      assert r[j] == t[j - 1];
      if i > 0 {
        assert r[i] == t[i - 1];
      }
    }
  }

  lemma ConsByCount(h: LabelCount, t: seq<LabelCount>)
    requires OrderedByCount(t)
    requires forall y | y in t :: Before(h, y)
    ensures OrderedByCount([h] + t)
  {
    var r := [h] + t;
    forall i, j | 0 <= i < j < |r| ensures Before(r[i], r[j]) {
      assert r[j] == t[j - 1];
      if i > 0 {
        assert r[i] == t[i - 1];
      }
    }
  }

  /** Inserting by name into a name-ordered sequence keeps it ordered. */
  lemma {:induction false} InsertByNameSorts(x: LabelCount, s: seq<LabelCount>)
    requires OrderedByName(s)
    requires forall y | y in s :: y.name != x.name
    ensures OrderedByName(InsertByName(x, s))
  {
    if s == [] {
    } else if StrLt(x.name, s[0].name) {
      HeadFirstByName(s);
      forall y | y in s ensures StrLt(x.name, y.name) {
        if y != s[0] {
          assert y in s[1..] by { assert s == [s[0]] + s[1..]; }
          StrLtTransitive(x.name, s[0].name, y.name);
        }
      }
      ConsByName(x, s);
    } else {
      StrLtTotal(x.name, s[0].name);
      assert s == [s[0]] + s[1..];
      InsertByNameSorts(x, s[1..]);
      InsertByNamePerm(x, s[1..]);
      HeadFirstByName(s);
      var t := InsertByName(x, s[1..]);
      forall y | y in t ensures StrLt(s[0].name, y.name) {
        assert y in multiset(t);
      }
      ConsByName(s[0], t);
    }
  }

  /** Sorting keeps the elements. */
  lemma {:induction false} SortByNamePerm(s: seq<LabelCount>)
    ensures multiset(SortByName(s)) == multiset(s)
  {
    if s != [] {
      SortByNamePerm(s[1..]);
      InsertByNamePerm(s[0], SortByName(s[1..]));
      assert s == [s[0]] + s[1..];
    }
  }

  lemma {:induction false} SortByCountPerm(s: seq<LabelCount>)
    ensures multiset(SortByCount(s)) == multiset(s)
  {
    if s != [] {
      SortByCountPerm(s[1..]);
      InsertByCountPerm(s[0], SortByCount(s[1..]));
      assert s == [s[0]] + s[1..];
    }
  }

  lemma {:induction false} SortByNameSorts(s: seq<LabelCount>)
    requires DistinctNames(s)
    ensures OrderedByName(SortByName(s))
  {
    if s != [] {
      SortByNameSorts(s[1..]);
      SortByNamePerm(s[1..]);
      var t := SortByName(s[1..]);
      forall y | y in t ensures y.name != s[0].name {
        assert y in multiset(s[1..]);
        var j :| 0 <= j < |s[1..]| && s[1..][j] == y;
        assert s[j + 1] == y;
      }
      InsertByNameSorts(s[0], t);
    }
  }

  /** Stable insertion by count into a sequence whose every name comes after
      `x`'s keeps the sequence in processing order. */
  lemma {:induction false} InsertByCountSorts(x: LabelCount, s: seq<LabelCount>)
    requires OrderedByCount(s)
    requires forall y | y in s :: StrLt(x.name, y.name)
    ensures OrderedByCount(InsertByCount(x, s))
  {
    if s == [] {
    } else if x.count >= s[0].count {
      HeadFirstByCount(s);
      forall y | y in s ensures Before(x, y) {
        if y != s[0] {
          assert y in s[1..] by { assert s == [s[0]] + s[1..]; }
        }
      }
      ConsByCount(x, s);
    } else {
      assert s == [s[0]] + s[1..];
      InsertByCountSorts(x, s[1..]);
      InsertByCountPerm(x, s[1..]);
      HeadFirstByCount(s);
      var t := InsertByCount(x, s[1..]);
      forall y | y in t ensures Before(s[0], y) {
        assert y in multiset(t);
      }
      ConsByCount(s[0], t);
    }
  }

  /** The stable sort by count of a name-ordered sequence is in processing order. */
  lemma {:induction false} SortByCountSorts(s: seq<LabelCount>)
    requires OrderedByName(s)
    ensures OrderedByCount(SortByCount(s))
  {
    if s != [] {
      assert OrderedByName(s[1..]);
      SortByCountSorts(s[1..]);
      SortByCountPerm(s[1..]);
      HeadFirstByName(s);
      var t := SortByCount(s[1..]);
      forall y | y in t ensures StrLt(s[0].name, y.name) {
        assert y in multiset(s[1..]);
      }
      InsertByCountSorts(s[0], t);
    }
  }
}

=== FILE: partition.dfy ===
/** How work is split between ranks: `update_shards` gives each rank the
    subdirs whose list index is congruent to the rank, and `upload_packages`
    gives it the shards whose digest byte, reduced mod 4, is congruent to it. */
module Partition {

  /** The subdirs `update_shards` walks, in its order. */
  const Subdirs: seq<string> :=
    ["linux-64", "osx-64", "win-64", "noarch", "linux-aarch64", "linux-ppc64le", "osx-arm64"]

  /** `loop_index % n_ranks == rank`: the rank processes this subdir. */
  predicate OwnsSubdir(index: nat, rank: int, nRanks: nat)
    requires nRanks >= 1
  {
    index % nRanks == rank
  }

  /** The one rank in `0..nRanks-1` that owns a subdir index. */
  function SubdirOwner(index: nat, nRanks: nat): (r: nat)
    requires nRanks >= 1
    ensures r < nRanks && OwnsSubdir(index, r, nRanks)
    ensures forall rank: int :: OwnsSubdir(index, rank, nRanks) ==> rank == r
  {
    index % nRanks
  }

  /** The subdir indices a rank processes. */
  function OwnedSubdirs(rank: int, nRanks: nat): set<nat>
    requires nRanks >= 1
  {
    set i: nat | i < |Subdirs| && OwnsSubdir(i, rank, nRanks)
  }

  /** For any number of ranks, every subdir is processed by exactly one rank
      in `0..nRanks-1`: the ranks' shares cover the list and do not overlap. */
  lemma SubdirsPartitioned(nRanks: nat)
    requires nRanks >= 1
    ensures forall i: nat | i < |Subdirs| :: SubdirOwner(i, nRanks) < nRanks && i in OwnedSubdirs(SubdirOwner(i, nRanks), nRanks)
    ensures forall r1, r2 | r1 != r2 :: OwnedSubdirs(r1, nRanks) !! OwnedSubdirs(r2, nRanks)
  {
  }

  /** A rank below both the rank count and the number of subdirs gets work;
      a rank at or beyond the number of subdirs gets none. */
  lemma SubdirShareSize(rank: nat, nRanks: nat)
    requires nRanks >= 1
    ensures rank < nRanks && rank < |Subdirs| ==> rank in OwnedSubdirs(rank, nRanks)
    ensures rank >= |Subdirs| ==> OwnedSubdirs(rank, nRanks) == {}
  {
    if rank >= |Subdirs| {
      forall i: nat | i < |Subdirs| ensures !OwnsSubdir(i, rank, nRanks) {
        assert i % nRanks <= i;
      }
    }
  }

  // ---------------------------------------------------------------------
  // upload_packages

  /** `(sha1(key).digest()[0] % 4) % n_ranks == rank`, for the first digest byte `digest0`. */
  predicate OwnsUpload(digest0: nat, rank: int, nRanks: nat)
    requires nRanks >= 1
  {
    (digest0 % 4) % nRanks == rank
  }

  /** Every key is offered to exactly one rank in `0..nRanks-1`; with more
      than four ranks, ranks 4 and above are never offered anything. */
  lemma UploadPartitioned(digest0: nat, nRanks: nat)
    requires nRanks >= 1
    ensures (digest0 % 4) % nRanks < nRanks && OwnsUpload(digest0, (digest0 % 4) % nRanks, nRanks)
    ensures forall rank: int :: OwnsUpload(digest0, rank, nRanks) ==> rank == (digest0 % 4) % nRanks
    ensures forall rank: int :: rank >= 4 ==> !OwnsUpload(digest0, rank, nRanks)
  {
    assert (digest0 % 4) % nRanks <= digest0 % 4 < 4;
  }
}

=== FILE: policy.dfy ===
/** The numeric policies of `update_shards`: the worker-count heuristic for a
    chunk's builds, the chunk count written into commit messages, and the
    checkpoint decision (flush? stop?). The last two are given twice: as the
    source writes them, with the input that shows the discrepancy, and as
    evidently intended. The sync engine runs either version, chosen by its
    `corrected` flag. */
module Policy {
  import opened Wrappers
  import opened Arith
  import opened Utils

  /** Packages per chunk, and the dirty-set size above which a chunk flushes. */
  const ChunkSize: nat := 64
  const FlushThreshold: nat := 64

  const BytesPerGB: nat := 1_000_000_000
  const MaxJobs: nat := 16

  // ---------------------------------------------------------------------
  // n_jobs

  /** `min(max(int(1.0 / (max_bytes / 1000**3)), 1), 16)` in integers, where
      `maxBytes` is the largest package size among the chunk's builds. `None`
      is the `ZeroDivisionError` the source raises when that size is 0. */
  function NJobs(maxBytes: nat): (r: Option<nat>)
    ensures r.Some? <==> maxBytes > 0
    ensures r.Some? ==> 1 <= r.value <= MaxJobs
  {
    if maxBytes == 0 then None else Some(Min(Max(BytesPerGB / maxBytes, 1), MaxJobs))
  }

  /** Bigger packages never get more workers; up to 1/16 GB all 16 run, and
      above half a GB a single worker does. */
  lemma NJobsMonotone(a: nat, b: nat)
    requires 0 < a <= b
    ensures NJobs(b).value <= NJobs(a).value
    ensures b <= BytesPerGB / MaxJobs ==> NJobs(b).value == MaxJobs
    ensures a > BytesPerGB / 2 ==> NJobs(a).value == 1
  {
    DivMonotone(BytesPerGB, a, b);
    if b <= BytesPerGB / MaxJobs {
      assert MaxJobs * b <= BytesPerGB;
      DivLowerBound(BytesPerGB, b, MaxJobs);
    }
  }

  // ---------------------------------------------------------------------
  // total_chunks

  /** `len(rd["packages"]) // 64 + 1`, as the source computes it. */
  function TotalChunksAsWritten(count: nat): nat
  {
    count / ChunkSize + 1
  }

  /** The number of chunks `chunk_iterable(all_pkgs, 64)` actually yields. */
  function TotalChunks(count: nat): nat
  {
    (count + ChunkSize - 1) / ChunkSize
  }

  lemma TotalChunksCountsChunks<T>(pkgs: seq<T>)
    ensures TotalChunks(|pkgs|) == |Chunks(pkgs, ChunkSize)|
  {
    ChunksCount(pkgs, ChunkSize);
  }

  /** The source's count is one too many exactly when the package count is a
      multiple of 64 (64 packages make one chunk, announced as "of 2"). */
  lemma TotalChunksAsWrittenOverCounts(count: nat)
    ensures count % ChunkSize == 0 ==> TotalChunksAsWritten(count) == TotalChunks(count) + 1
    ensures count % ChunkSize != 0 ==> TotalChunksAsWritten(count) == TotalChunks(count)
    ensures TotalChunksAsWritten(64) == 2 && TotalChunks(64) == 1
  {
    var q, r := count / ChunkSize, count % ChunkSize;
    assert count == q * ChunkSize + r;
    if r == 0 {
      DivLowerBound(count + ChunkSize - 1, ChunkSize, q);
    } else {
      assert count + ChunkSize - 1 == (q + 1) * ChunkSize + (r - 1);
    }
  }

  // ---------------------------------------------------------------------
  // The checkpoint after each chunk

  datatype Decision = Decision(flush: bool, stop: bool)

  /** Lines 203 and 219 as written: the clock is read once to decide the flush
      and again to decide whether to return. */
  function CheckpointAsWritten(dirtyCount: nat, firstElapsed: int, secondElapsed: int, timeLimit: int): Decision
  {
    Decision(dirtyCount > FlushThreshold || firstElapsed > timeLimit, secondElapsed > timeLimit)
  }

  /** When the deadline passes between the two readings, the run returns
      "time is up" without flushing: here one dirty key is left unwritten. */
  lemma CheckpointAsWrittenStopsWithoutFlush()
    ensures var d := CheckpointAsWritten(1, 3300, 3301, 3300); d.stop && !d.flush
  {
  }

  /** The checkpoint with a single clock reading: stopping always follows a
      flush, and a chunk that does not flush leaves at most 64 dirty keys. */
  function Checkpoint(dirtyCount: nat, elapsed: int, timeLimit: int): (d: Decision)
    ensures d.stop <==> elapsed > timeLimit
    ensures d.stop ==> d.flush
    ensures !d.flush ==> dirtyCount <= FlushThreshold
  {
    Decision(dirtyCount > FlushThreshold || elapsed > timeLimit, elapsed > timeLimit)
  }

  /** The two agree whenever both readings see the same elapsed time, and
      differ only when the deadline falls between the readings. */
  lemma CheckpointAsWrittenAgrees(dirtyCount: nat, first: int, second: int, timeLimit: int)
    requires first <= second
    ensures first == second ==> CheckpointAsWritten(dirtyCount, first, second, timeLimit) == Checkpoint(dirtyCount, first, timeLimit)
    ensures CheckpointAsWritten(dirtyCount, first, second, timeLimit) != Checkpoint(dirtyCount, first, timeLimit)
      <==> first <= timeLimit < second
  {
  }
}

=== FILE: shards.dfy ===
/** The data model of the shard store and the pure per-shard rules of
    `repodata_tools/anaconda_sync.py`: the download URL a build uses, the label
    merge, and the canonicalisation of a mirror URL. */
module Shards {
  import opened Text

  /** A shard's identity: the platform subdir and the package file name. The
      source keys its dictionaries by `os.path.join(subdir, pkg)`, see KeyString. */
  datatype Key = Key(subdir: string, pkg: string)

  function KeyString(k: Key): string
  {
    k.subdir + "/" + k.pkg
  }

  /** One package's shard record. Only the fields the sync engine reads or
      writes are modelled; the rest of the upstream metadata is `md5`. */
  datatype Shard = Shard(subdir: string, package: string, labels: seq<string>, url: string, md5: string)

  function KeyOf(s: Shard): Key
  {
    Key(s.subdir, s.package)
  }

  /** The three on-disk layouts of a shard file: the current one
      (`get_shard_path(subdir, pkg)`), and the two legacy ones kept only as
      migration sources (`get_old_shard_path`, `get_shard_path(..., n_dirs=4)`).
      The path functions live in `shards.py`, which is not part of this model,
      so a path is the pair of its layout and the key; distinct layouts give
      distinct paths. */
  datatype Layout = Current | Legacy | FourDirs

  datatype ShardPath = ShardPath(layout: Layout, key: Key)

  function NewPath(k: Key): ShardPath
  {
    ShardPath(Current, k)
  }

  /** The git operations the engine runs, in the order it runs them. A push
      records whether it got through; a failed push is swallowed by the source. */
  datatype GitEvent =
    | Move(src: ShardPath, dst: ShardPath)  // git mv
    | Remove(path: ShardPath)               // git rm -f
    | Add(path: ShardPath)                  // git add
    | Commit(message: string)               // git commit -m
    | Push(delivered: bool)                 // git pull --rebase && git push

  const Host := "conda.anaconda.org"
  const Channel := "https://" + Host + "/conda-forge"

  // ---------------------------------------------------------------------
  // URLs

  /** The canonical per-subdir URL of a package on the main label. */
  function MainUrl(k: Key): string
  {
    Channel + "/" + KeyString(k)
  }

  /** The URL `_build_shard` downloads the package from. */
  function DownloadUrl(subdir: string, pkg: string, labelName: string): string
  {
    if labelName == "main" then Channel + "/" + KeyString(Key(subdir, pkg))
    else Channel + "/label/" + labelName + "/" + KeyString(Key(subdir, pkg))
  }

  lemma HostInChannel(rest: string)
    ensures Contains(Channel + rest, Host)
  {
    assert Host[..|Host|] == Host;
    ContainsInfix("https://", Host, "/conda-forge" + rest, Host);
    assert "https://" + Host + ("/conda-forge" + rest) == Channel + rest;
  }

  /** A download URL always points at the upstream host (so a freshly built
      shard is a candidate for re-hosting), for the main label it is the
      canonical URL, and on the main label every download URL canonicalises to it. */
  lemma DownloadUrlShape(subdir: string, pkg: string, labelName: string)
    ensures Contains(DownloadUrl(subdir, pkg, labelName), Host)
    ensures labelName == "main" ==> DownloadUrl(subdir, pkg, labelName) == MainUrl(Key(subdir, pkg))
    ensures CanonicalUrl(DownloadUrl(subdir, pkg, labelName), "main", Key(subdir, pkg)) == MainUrl(Key(subdir, pkg))
  {
    var tail := if labelName == "main" then "/" + KeyString(Key(subdir, pkg))
                else "/label/" + labelName + "/" + KeyString(Key(subdir, pkg));
    assert DownloadUrl(subdir, pkg, labelName) == Channel + tail;
    HostInChannel(tail);
  }

  /** The URL rewrite of `update_shards`: on the main label, a URL on the
      upstream host that is not the canonical one becomes the canonical one. */
  function CanonicalUrl(url: string, labelName: string, k: Key): (r: string)
    ensures r == url || r == MainUrl(k)
    ensures r != url <==> labelName == "main" && url != MainUrl(k) && Contains(url, Host)
    ensures !Contains(url, Host) ==> r == url
    ensures labelName != "main" ==> r == url
  {
    if labelName == "main" && url != MainUrl(k) && Contains(url, Host) then MainUrl(k) else url
  }

  lemma CanonicalUrlIdempotent(url: string, labelName: string, k: Key)
    ensures CanonicalUrl(CanonicalUrl(url, labelName, k), labelName, k) == CanonicalUrl(url, labelName, k)
  {
  }

  // ---------------------------------------------------------------------
  // Labels

  predicate NoDuplicates(s: seq<string>)
  {
    forall i, j | 0 <= i < j < |s| :: s[i] != s[j]
  }

  /** `if label not in labels: labels.append(label)`. */
  function MergeLabel(labels: seq<string>, labelName: string): (r: seq<string>)
    ensures labelName in r
    ensures forall x :: x in r <==> x in labels || x == labelName
    ensures |r| >= |labels| && r[..|labels|] == labels
    ensures |r| == if labelName in labels then |labels| else |labels| + 1
  {
    if labelName in labels then labels else labels + [labelName]
  }

  /** Merging never introduces a duplicate. */
  lemma MergeLabelNoDuplicates(labels: seq<string>, labelName: string)
    requires NoDuplicates(labels)
    ensures NoDuplicates(MergeLabel(labels, labelName))
  {
  }

  // ---------------------------------------------------------------------
  // Reconciling an existing shard with the label being processed

  /** What `update_shards` does to an existing shard: merge the label, then
      canonicalise the URL. Afterwards the label is there, the old labels are
      kept in order with at most the label after them, the URL is either kept
      or becomes the canonical one (always kept off the main label or off the
      upstream host), and nothing else in the record changes. */
  function Reconcile(s: Shard, labelName: string, k: Key): (r: Shard)
    ensures labelName in r.labels
    ensures |s.labels| <= |r.labels| <= |s.labels| + 1 && r.labels[..|s.labels|] == s.labels
    ensures labelName in s.labels ==> r.labels == s.labels
    ensures forall x :: x in r.labels <==> x in s.labels || x == labelName
    ensures r.url == s.url || r.url == MainUrl(k)
    ensures labelName != "main" || !Contains(s.url, Host) ==> r.url == s.url
    ensures labelName == "main" && Contains(s.url, Host) ==> r.url == MainUrl(k)
    ensures r.subdir == s.subdir && r.package == s.package && r.md5 == s.md5
  {
    s.(labels := MergeLabel(s.labels, labelName), url := CanonicalUrl(s.url, labelName, k))
  }

  /** The condition under which `update_shards` adds the key to the dirty set:
      the label is new, or the URL gets rewritten. */
  predicate MarksDirty(s: Shard, labelName: string, k: Key)
  {
    labelName !in s.labels || CanonicalUrl(s.url, labelName, k) != s.url
  }

  /** The key is marked dirty exactly when the shard record changes. */
  lemma {:induction false} MarksDirtyIffChanged(s: Shard, labelName: string, k: Key)
    ensures MarksDirty(s, labelName, k) <==> Reconcile(s, labelName, k) != s
  {
    if labelName !in s.labels {
      assert |Reconcile(s, labelName, k).labels| != |s.labels|;
    }
  }

  /** Reconciling twice with the same label changes nothing the second time
      and marks nothing dirty. */
  lemma ReconcileIdempotent(s: Shard, labelName: string, k: Key)
    ensures Reconcile(Reconcile(s, labelName, k), labelName, k) == Reconcile(s, labelName, k)
    ensures !MarksDirty(Reconcile(s, labelName, k), labelName, k)
  {
    CanonicalUrlIdempotent(s.url, labelName, k);
  }

  /** Labels only grow: every label the shard had is still there, in the same place. */
  lemma ReconcileKeepsLabels(s: Shard, labelName: string, k: Key)
    ensures |Reconcile(s, labelName, k).labels| >= |s.labels|
    ensures forall i | 0 <= i < |s.labels| :: Reconcile(s, labelName, k).labels[i] == s.labels[i]
  {
    var r := Reconcile(s, labelName, k).labels;
    assert r[..|s.labels|] == s.labels;
    forall i | 0 <= i < |s.labels| ensures r[i] == s.labels[i] {
      assert r[..|s.labels|][i] == r[i];
    }
  }
}

=== FILE: sync.dfy ===
/** The sync engine of `repodata_tools/anaconda_sync.py`: `update_shards`, which
    walks every label and subdir assigned to this rank, migrates legacy shard
    files, reconciles known shards with the label, builds the unknown ones and
    commits the changed shards in batches under a deadline; and
    `upload_packages`, which re-hosts a capped number of shards.

    The repository's working tree, the git history and the outside world
    (HTTP, the shard builder, the clock, the remote) are explicit: the tree is
    a map from shard paths to records, git commands are appended to a log, and
    everything read from outside comes from a `World` value. */
module Sync {
  import opened Wrappers
  import opened Text
  import opened Arith
  import opened Utils
  import opened Shards
  import opened Partition
  import opened Policy

  /** What `update_shards` reads from outside; `upload_packages` uses
      `push` too. `fetch(label, subdir)` is the
      channel's listing, package file name to size, or `None` when the HTTP
      status is not 200. `build(subdir, pkg, label, url)` is the record
      `make_repodata_shard_noretry` produces, `None` when it raises.
      `clock(n)` is the elapsed time since the start at the n-th reading,
      and `push(n)` whether the n-th `_push_repo` got through. */
  datatype World = World(
    fetch: (string, string) -> Option<map<string, nat>>,
    build: (string, string, string, string) -> Option<Shard>,
    clock: nat -> int,
    push: nat -> bool)

  /** The exceptions that escape the engine. */
  datatype SyncError =
    | ZeroDivision                         // every package of a chunk's builds has size 0
    | BuildFailed(subdir: string, pkg: string)
    | ReleaseFailed(key: Key)             // download, checksum or upload failed in `_make_release`

  datatype Outcome = Completed | TimeUp | Failed(error: SyncError)

  /** The loop variables a batch commit message is made from. */
  datatype FlushContext = FlushContext(chunkIndex: nat, totalChunks: nat, labelName: string, subdir: string)

  const SkipTags := " [ci skip]  [cf admin skip] ***NO_CI***"

  function CommitMessage(ctx: FlushContext): string
  {
    "chunk " + NatToString(ctx.chunkIndex + 1) + " of " + NatToString(ctx.totalChunks) + " "
      + ctx.labelName + "/" + ctx.subdir + SkipTags
  }

  function ReleaseMessage(k: Key): string
  {
    "release update " + KeyString(k) + SkipTags
  }

  /** `_build_shard`: the record built from the package's download URL. */
  function BuildShard(world: World, subdir: string, pkg: string, labelName: string): Option<Shard>
  {
    world.build(subdir, pkg, labelName, DownloadUrl(subdir, pkg, labelName))
  }

  /** The first legacy copy of a shard, in the order the source probes them. */
  function LegacyCopy(tree: map<ShardPath, Shard>, k: Key): (p: Option<ShardPath>)
    ensures p.Some? ==> p.value in tree && p.value.key == k && p.value.layout != Current
    ensures ShardPath(Legacy, k) in tree ==> p == Some(ShardPath(Legacy, k))
    ensures ShardPath(Legacy, k) !in tree && ShardPath(FourDirs, k) in tree ==> p == Some(ShardPath(FourDirs, k))
    ensures p.None? <==> ShardPath(Legacy, k) !in tree && ShardPath(FourDirs, k) !in tree
  {
    if ShardPath(Legacy, k) in tree then Some(ShardPath(Legacy, k))
    else if ShardPath(FourDirs, k) in tree then Some(ShardPath(FourDirs, k))
    else None
  }

  /** The keys of a sequence of built records. */
  function BuiltKeys(built: seq<Shard>): set<Key>
  {
    set b | b in built :: KeyOf(b)
  }

  /** Storing built records one after the other under their own keys, as
      `all_shards[subdir_pkg] = shard` does: every built key ends up holding
      one of the built records for that key, and nothing else changes. */
  function MergeBuilt(m: map<Key, Shard>, built: seq<Shard>): (r: map<Key, Shard>)
    ensures r.Keys == m.Keys + BuiltKeys(built)
    ensures forall k | k in BuiltKeys(built) :: r[k] in built && KeyOf(r[k]) == k
    ensures forall k | k in m && k !in BuiltKeys(built) :: r[k] == m[k]
  {
    if built == [] then m
    else
      var init := built[..|built| - 1];
      var last := built[|built| - 1];
      assert built == init + [last];
      assert BuiltKeys(built) == BuiltKeys(init) + {KeyOf(last)};
      MergeBuilt(m, init)[KeyOf(last) := last]
  }

  /** Storing one more built record. */
  lemma MergeBuiltStep(m: map<Key, Shard>, built: seq<Shard>, i: nat)
    requires i < |built|
    ensures MergeBuilt(m, built[..i + 1]) == MergeBuilt(m, built[..i])[KeyOf(built[i]) := built[i]]
    ensures BuiltKeys(built[..i + 1]) == BuiltKeys(built[..i]) + {KeyOf(built[i])}
  {
    assert built[..i + 1][..i] == built[..i];
    assert built[..i + 1] == built[..i] + [built[i]];
  }

  /** A listed package is on record: under its own key, or under the key of
      the record built for it. */
  predicate Recorded(shards: map<Key, Shard>, world: World, labelName: string, subdir: string, pkg: string)
  {
    Key(subdir, pkg) in shards
    || (BuildShard(world, subdir, pkg, labelName).Some? && KeyOf(BuildShard(world, subdir, pkg, labelName).value) in shards)
  }

  /** The filter of `upload_packages`: the rank owns the key's digest slot
      and the record still points at the upstream host. */
  predicate Selected(k: Key, shard: Shard, rank: int, nRanks: nat, digest0: Key -> nat)
    requires nRanks >= 1
  {
    OwnsUpload(digest0(k), rank, nRanks) && Contains(shard.url, Host)
  }

  /** `chunk_iterable(sorted(list(rd["packages"])), 64)`: the listing's
      package names in order, cut into `ceil(len / 64)` chunks, each of 64
      names but the last, which holds the rest; a name is listed exactly when
      it is in one of the chunks. */
  method ChunkListing(sizes: map<string, nat>) returns (chunks: seq<seq<string>>)
    ensures StrictlySorted(Flatten(chunks))
    ensures |chunks| == TotalChunks(|sizes|)
    ensures forall j | 0 <= j < |chunks| :: 0 < |chunks[j]| <= ChunkSize && StrictlySorted(chunks[j])
    ensures forall j | 0 <= j < |chunks| - 1 :: |chunks[j]| == ChunkSize
    ensures forall j, p | 0 <= j < |chunks| && p in chunks[j] :: p in sizes
    ensures forall p | p in sizes :: exists j :: 0 <= j < |chunks| && p in chunks[j]
  {
    var allPkgs := SortedSet(sizes.Keys);
    chunks := ChunkIterable(allPkgs, ChunkSize);
    ChunksMembers(allPkgs, ChunkSize);
    ChunksFlatten(allPkgs, ChunkSize);
    ChunksShape(allPkgs, ChunkSize);
    ChunksSorted(allPkgs, ChunkSize);
    TotalChunksCountsChunks(allPkgs);
    assert |sizes.Keys| == |sizes|;
  }

  /** The chunks of a strictly sorted list are strictly sorted. */
  lemma {:induction false} ChunksSorted(s: seq<string>, k: nat)
    requires k >= 1 && StrictlySorted(s)
    ensures forall j | 0 <= j < |Chunks(s, k)| :: StrictlySorted(Chunks(s, k)[j])
    decreases |s|
  {
    if |s| > k {
      ChunksSorted(s[k..], k);
      var r := Chunks(s, k);
      assert forall j | 1 <= j < |r| :: r[j] == Chunks(s[k..], k)[j - 1];
    }
  }

  /** A strictly sorted list has no duplicates. */
  lemma SortedNoDuplicates(s: seq<string>)
    requires StrictlySorted(s)
    ensures NoDuplicates(s)
  {
    forall i, j | 0 <= i < j < |s| ensures s[i] != s[j] {
      if s[i] == s[j] {
        StrLtIrreflexive(s[i]);
      }
    }
  }

  predicate Distinct(keys: seq<Key>)
  {
    forall i, j | 0 <= i < j < |keys| :: keys[i] != keys[j]
  }

  /** The `git add` of the current file of each key, in order. */
  function Adds(keys: seq<Key>): (r: seq<GitEvent>)
    ensures |r| == |keys|
  {
    seq(|keys|, i requires 0 <= i < |keys| => Add(NewPath(keys[i])))
  }

  /** The tree after the current file of each key with a record is written,
      in order. */
  function WithFiles(files: map<ShardPath, Shard>, shards: map<Key, Shard>, keys: seq<Key>): map<ShardPath, Shard>
  {
    if keys == [] then files
    else
      var k := keys[|keys| - 1];
      var before := WithFiles(files, shards, keys[..|keys| - 1]);
      if k in shards then before[NewPath(k) := shards[k]] else before
  }

  /** Writing files touches only the current files of the written keys, and
      each of those then holds the key's record. */
  lemma {:induction false} WithFilesSpec(files: map<ShardPath, Shard>, shards: map<Key, Shard>, keys: seq<Key>)
    ensures forall k | k in keys && k in shards ::
      NewPath(k) in WithFiles(files, shards, keys) && WithFiles(files, shards, keys)[NewPath(k)] == shards[k]
    ensures forall p: ShardPath | !(p.layout == Current && p.key in keys && p.key in shards) ::
      (p in WithFiles(files, shards, keys) <==> p in files)
      && (p in WithFiles(files, shards, keys) ==> WithFiles(files, shards, keys)[p] == files[p])
  {
    if keys != [] {
      var init := keys[..|keys| - 1];
      WithFilesSpec(files, shards, init);
      assert keys == init + [keys[|keys| - 1]];
    }
  }

  /** A selected record whose re-hosting succeeds: what `upload_packages`
      writes. */
  predicate Uploadable(k: Key, records: map<Key, Shard>, rank: int, nRanks: nat, digest0: Key -> nat,
                       rehost: (Key, Shard) -> Option<string>)
    requires nRanks >= 1
  {
    k in records && Selected(k, records[k], rank, nRanks, digest0) && rehost(k, records[k]).Some?
  }

  /** The records after re-hosting the given keys: the record of each of
      them for which `rehost` gives a URL now carries that URL. */
  function Rehosted(records: map<Key, Shard>, keys: seq<Key>, rehost: (Key, Shard) -> Option<string>): (r: map<Key, Shard>)
    ensures r.Keys == records.Keys
  {
    map k | k in records :: if k in keys && rehost(k, records[k]).Some? then records[k].(url := rehost(k, records[k]).value) else records[k]
  }

  /** The git commands of the uploads: for each key its `git add`, its
      release commit and a push, the pushes numbered from `pushes0`. */
  function UploadEvents(keys: seq<Key>, pushes0: nat, world: World): (r: seq<GitEvent>)
    ensures |r| == 3 * |keys|
  {
    if keys == [] then []
    else
      var k := keys[|keys| - 1];
      UploadEvents(keys[..|keys| - 1], pushes0, world)
        + [Add(NewPath(k)), Commit(ReleaseMessage(k)), Push(world.push(pushes0 + |keys| - 1))]
  }

  /** Writing the files of keys other than `k` does not depend on `k`'s
      record. */
  lemma {:induction false} WithFilesOther(files: map<ShardPath, Shard>, shards: map<Key, Shard>, keys: seq<Key>, k: Key, shard: Shard)
    requires k !in keys
    ensures WithFiles(files, shards[k := shard], keys) == WithFiles(files, shards, keys)
  {
    if keys != [] {
      WithFilesOther(files, shards, keys[..|keys| - 1], k, shard);
    }
  }

  /** The part of the state `upload_packages` changes: the records, the
      files, the git commands run and the number of pushes so far. */
  datatype Written = Written(records: map<Key, Shard>, files: map<ShardPath, Shard>, events: seq<GitEvent>, pushes: nat)

  /** That state after the given keys have been uploaded, one after the
      other, from `start`. */
  function AfterUploads(start: Written, order: seq<Key>, rehost: (Key, Shard) -> Option<string>, world: World): Written
  {
    var records := Rehosted(start.records, order, rehost);
    Written(records, WithFiles(start.files, records, order),
            start.events + UploadEvents(order, start.pushes, world), start.pushes + |order|)
  }

  /** Uploading one more key: its record is re-hosted and written to its
      current file, and a `git add`, a release commit and a push follow. */
  lemma UploadOneMore(start: Written, order: seq<Key>, k: Key, rehost: (Key, Shard) -> Option<string>, world: World)
    requires k !in order && k in start.records && rehost(k, start.records[k]).Some?
    ensures var st := AfterUploads(start, order, rehost, world);
      var shard := start.records[k].(url := rehost(k, start.records[k]).value);
      AfterUploads(start, order + [k], rehost, world)
        == Written(st.records[k := shard], st.files[NewPath(k) := shard],
                   st.events + [Add(NewPath(k)), Commit(ReleaseMessage(k)), Push(world.push(st.pushes))],
                   st.pushes + 1)
  {
    var r := Rehosted(start.records, order, rehost);
    var shard := start.records[k].(url := rehost(k, start.records[k]).value);
    RehostedOneMore(start.records, order, k, rehost);
    UploadEventsOneMore(order, k, start.pushes, world);
    WithFilesOneMore(start.files, r, order, k, shard);
    var st := AfterUploads(start, order, rehost, world);
    var st2 := AfterUploads(start, order + [k], rehost, world);
    assert st2.records == st.records[k := shard];
    assert st2.files == st.files[NewPath(k) := shard];
    assert st2.events == st.events + [Add(NewPath(k)), Commit(ReleaseMessage(k)), Push(world.push(st.pushes))];
  }

  /** Writing the files of one more key, whose record has just been set. */
  lemma WithFilesOneMore(files: map<ShardPath, Shard>, shards: map<Key, Shard>, order: seq<Key>, k: Key, shard: Shard)
    requires k !in order
    ensures WithFiles(files, shards[k := shard], order + [k]) == WithFiles(files, shards, order)[NewPath(k) := shard]
  {
    WithFilesOther(files, shards, order, k, shard);
    assert (order + [k])[..|order|] == order;
  }

  lemma RehostedOneMore(records: map<Key, Shard>, order: seq<Key>, k: Key, rehost: (Key, Shard) -> Option<string>)
    requires k in records && rehost(k, records[k]).Some?
    ensures Rehosted(records, order + [k], rehost)
      == Rehosted(records, order, rehost)[k := records[k].(url := rehost(k, records[k]).value)]
  {
    var r := Rehosted(records, order, rehost);
    var r2 := Rehosted(records, order + [k], rehost);
    forall j | j in r2 ensures r2[j] == r[k := records[k].(url := rehost(k, records[k]).value)][j] {
      assert j in order + [k] <==> j in order || j == k;
    }
  }

  lemma UploadEventsOneMore(order: seq<Key>, k: Key, pushes0: nat, world: World)
    ensures UploadEvents(order + [k], pushes0, world)
      == UploadEvents(order, pushes0, world) + [Add(NewPath(k)), Commit(ReleaseMessage(k)), Push(world.push(pushes0 + |order|))]
  {
    assert (order + [k])[..|order|] == order;
  }

  /** One upload: the record is stored and written to its current file, and
      a `git add`, a release commit and a push follow. */
  function UploadOne(st: Written, k: Key, shard: Shard, world: World): Written
  {
    Written(st.records[k := shard], st.files[NewPath(k) := shard],
            st.events + [Add(NewPath(k)), Commit(ReleaseMessage(k)), Push(world.push(st.pushes))], st.pushes + 1)
  }

  /** The uploads of `order` replayed one after the other from `start`. */
  function Replay(start: Written, order: seq<Key>, rehost: (Key, Shard) -> Option<string>, world: World): Written
  {
    if order == [] then start
    else
      var k := order[|order| - 1];
      var st := Replay(start, order[..|order| - 1], rehost, world);
      if k in start.records && rehost(k, start.records[k]).Some?
      then UploadOne(st, k, start.records[k].(url := rehost(k, start.records[k]).value), world)
      else st
  }

  /** A key not uploaded yet keeps its original record. */
  lemma {:induction false} ReplayOther(start: Written, order: seq<Key>, rehost: (Key, Shard) -> Option<string>, world: World, k: Key)
    requires k !in order
    ensures var st := Replay(start, order, rehost, world);
      (k in st.records <==> k in start.records) && (k in start.records ==> st.records[k] == start.records[k])
  {
    if order != [] {
      ReplayOther(start, order[..|order| - 1], rehost, world, k);
    }
  }

  /** Replaying distinct uploads, each with a new URL, gives the state that
      `AfterUploads` describes. */
  lemma {:induction false} ReplaySpec(start: Written, order: seq<Key>, rehost: (Key, Shard) -> Option<string>, world: World)
    requires Distinct(order)
    requires forall i | 0 <= i < |order| :: order[i] in start.records && rehost(order[i], start.records[order[i]]).Some?
    ensures Replay(start, order, rehost, world) == AfterUploads(start, order, rehost, world)
  {
    if order != [] {
      var init := order[..|order| - 1];
      var k := order[|order| - 1];
      assert order == init + [k];
      assert Distinct(init) && k !in init;
      ReplaySpec(start, init, rehost, world);
      UploadOneMore(start, init, k, rehost, world);
    }
  }

  /** One key of the loop of `upload_packages`: when the record is selected,
      re-host it, write its current file, commit and push. `owned` tells
      whether the rank owns the key, `wrote` whether the record was
      written, `failed` whether the re-hosting raised. */
  method UploadKey(k: Key, start: Written, st: Written, ghost order: seq<Key>, rank: int, nRanks: nat,
                   digest0: Key -> nat, rehost: (Key, Shard) -> Option<string>, world: World)
    returns (next: Written, owned: bool, wrote: bool, failed: bool)
    requires nRanks >= 1
    requires k in start.records && k !in order
    requires st == Replay(start, order, rehost, world)
    ensures owned <==> OwnsUpload(digest0(k), rank, nRanks)
    ensures wrote <==> Uploadable(k, start.records, rank, nRanks, digest0, rehost)
    ensures failed <==> Selected(k, start.records[k], rank, nRanks, digest0) && rehost(k, start.records[k]).None?
    ensures next == Replay(start, if wrote then order + [k] else order, rehost, world)
  {
    next, wrote, failed := st, false, false;
    owned := OwnsUpload(digest0(k), rank, nRanks);
    ReplayOther(start, order, rehost, world, k);
    var shard := st.records[k];
    if owned && Contains(shard.url, Host) {
      var url := rehost(k, shard);
      if url.None? {
        failed := true;
      } else {
        shard := shard.(url := url.value);
        var path := NewPath(k);
        next := next.(records := next.records[k := shard], files := next.files[path := shard]);  // _write_shard
        next := next.(events := next.events + [Add(path), Commit(ReleaseMessage(k))]);
        next := next.(events := next.events + [Push(world.push(next.pushes))], pushes := next.pushes + 1);  // _push_repo
        wrote := true;
        assert (order + [k])[..|order|] == order;
      }
    }
  }

  /** What the loop of `upload_packages` knows after visiting every key not in
      `rest`: the keys it wrote, in order, are distinct and uploadable, every
      selected key visited so far was written unless an error stopped the loop,
      and an error names the selected key whose release failed. */
  predicate UploadProgress(start: Written, rest: set<Key>, order: seq<Key>, numWritten: nat, done: bool,
                           err: Option<SyncError>, rank: int, nRanks: nat, maxWrite: int,
                           digest0: Key -> nat, rehost: (Key, Shard) -> Option<string>)
    requires nRanks >= 1
  {
    && rest <= start.records.Keys && Distinct(order)
    && (forall k | k in order :: k !in rest)
    && |order| == numWritten <= Max(maxWrite, 1)
    && (forall i | 0 <= i < |order| :: Uploadable(order[i], start.records, rank, nRanks, digest0, rehost))
    && (!done ==> err.None? && (numWritten == 0 || numWritten < maxWrite))
    && (done && err.None? ==> numWritten >= maxWrite)
    && (err.None? ==>
          forall k | k in start.records && k !in rest && Selected(k, start.records[k], rank, nRanks, digest0) :: k in order)
    && (err.Some? ==> (err.value.ReleaseFailed? && err.value.key !in order
          && err.value.key in start.records && Selected(err.value.key, start.records[err.value.key], rank, nRanks, digest0)
          && rehost(err.value.key, start.records[err.value.key]).None?))
  }

  /** One turn of the loop of `upload_packages`: take a key, upload it if it
      is selected, and stop on a failed release or, after an owned key, once
      `maxWrite` are written. */
  method UploadNext(start: Written, st: Written, rest: set<Key>, ghost order: seq<Key>, numWritten: nat,
                    rank: int, nRanks: nat, maxWrite: int, digest0: Key -> nat,
                    rehost: (Key, Shard) -> Option<string>, world: World)
    returns (st': Written, rest': set<Key>, ghost order': seq<Key>, numWritten': nat, done: bool, err: Option<SyncError>)
    requires nRanks >= 1 && rest != {}
    requires UploadProgress(start, rest, order, numWritten, false, None, rank, nRanks, maxWrite, digest0, rehost)
    requires st == Replay(start, order, rehost, world)
    ensures rest' < rest
    ensures UploadProgress(start, rest', order', numWritten', done, err, rank, nRanks, maxWrite, digest0, rehost)
    ensures st' == Replay(start, order', rehost, world)
  {
    var k :| k in rest;
    rest' := rest - {k};
    var owned, wrote, failed;
    st', owned, wrote, failed := UploadKey(k, start, st, order, rank, nRanks, digest0, rehost, world);
    order', numWritten', done, err := order, numWritten, false, None;
    if failed {
      err := Some(ReleaseFailed(k));
      done := true;
      ProgressFailed(start, rest, order, numWritten, k, rank, nRanks, maxWrite, digest0, rehost);
    } else if owned {
      if wrote {
        numWritten' := numWritten + 1;
        order' := order + [k];
        ProgressWrote(start, rest, order, numWritten, k, rank, nRanks, maxWrite, digest0, rehost);
      } else {
        ProgressSkipped(start, rest, order, numWritten, k, true, rank, nRanks, maxWrite, digest0, rehost);
      }
      done := numWritten' >= maxWrite;
    } else {
      ProgressSkipped(start, rest, order, numWritten, k, false, rank, nRanks, maxWrite, digest0, rehost);
    }
  }

  /** A failed release stops the loop with that key's error. */
  lemma ProgressFailed(start: Written, rest: set<Key>, order: seq<Key>, numWritten: nat, k: Key,
                       rank: int, nRanks: nat, maxWrite: int, digest0: Key -> nat, rehost: (Key, Shard) -> Option<string>)
    requires nRanks >= 1 && k in rest
    requires UploadProgress(start, rest, order, numWritten, false, None, rank, nRanks, maxWrite, digest0, rehost)
    requires Selected(k, start.records[k], rank, nRanks, digest0) && rehost(k, start.records[k]).None?
    ensures UploadProgress(start, rest - {k}, order, numWritten, true, Some(ReleaseFailed(k)), rank, nRanks, maxWrite, digest0, rehost)
  {
  }

  /** Writing a key appends it to the order and counts it. */
  lemma ProgressWrote(start: Written, rest: set<Key>, order: seq<Key>, numWritten: nat, k: Key,
                      rank: int, nRanks: nat, maxWrite: int, digest0: Key -> nat, rehost: (Key, Shard) -> Option<string>)
    requires nRanks >= 1 && k in rest
    requires UploadProgress(start, rest, order, numWritten, false, None, rank, nRanks, maxWrite, digest0, rehost)
    requires Uploadable(k, start.records, rank, nRanks, digest0, rehost)
    ensures UploadProgress(start, rest - {k}, order + [k], numWritten + 1, numWritten + 1 >= maxWrite, None,
                           rank, nRanks, maxWrite, digest0, rehost)
  {
    var order' := order + [k];
    assert forall i | 0 <= i < |order| :: order'[i] == order[i];
  }

  /** A key that is not selected is passed over; after an owned one the loop
      stops once `maxWrite` keys are written. */
  lemma ProgressSkipped(start: Written, rest: set<Key>, order: seq<Key>, numWritten: nat, k: Key, owned: bool,
                        rank: int, nRanks: nat, maxWrite: int, digest0: Key -> nat, rehost: (Key, Shard) -> Option<string>)
    requires nRanks >= 1 && k in rest
    requires UploadProgress(start, rest, order, numWritten, false, None, rank, nRanks, maxWrite, digest0, rehost)
    requires !Selected(k, start.records[k], rank, nRanks, digest0)
    ensures UploadProgress(start, rest - {k}, order, numWritten, owned && numWritten >= maxWrite, None,
                           rank, nRanks, maxWrite, digest0, rehost)
  {
  }

  /** The loop of `upload_packages` from the state `start`; returns the state
      as the loop leaves it. */
  method UploadLoop(start: Written, rank: int, nRanks: nat, maxWrite: int, digest0: Key -> nat,
                    rehost: (Key, Shard) -> Option<string>, world: World)
    returns (st: Written, numWritten: nat, err: Option<SyncError>, ghost order: seq<Key>)
    requires nRanks >= 1
    ensures Distinct(order) && |order| == numWritten <= Max(maxWrite, 1)
    ensures forall i | 0 <= i < |order| :: Uploadable(order[i], start.records, rank, nRanks, digest0, rehost)
    ensures st == Replay(start, order, rehost, world)
    ensures err.None? && numWritten < maxWrite ==>
      forall k | k in start.records && Selected(k, start.records[k], rank, nRanks, digest0) :: k in order
    ensures err.Some? ==> (err.value.ReleaseFailed? && err.value.key !in order
      && err.value.key in start.records && Selected(err.value.key, start.records[err.value.key], rank, nRanks, digest0)
      && rehost(err.value.key, start.records[err.value.key]).None?)
  {
    st := start;
    numWritten := 0;
    err := None;
    order := [];
    var rest := start.records.Keys;
    var done := false;  // a raised error, or the `break` after an owned key once `maxWrite` are written
    while rest != {} && !done
      invariant UploadProgress(start, rest, order, numWritten, done, err, rank, nRanks, maxWrite, digest0, rehost)
      invariant st == Replay(start, order, rehost, world)
      decreases rest
    {
      st, rest, order, numWritten, done, err :=
        UploadNext(start, st, rest, order, numWritten, rank, nRanks, maxWrite, digest0, rehost, world);
    }
  }

  /** `m` is the largest size among `jobs`, and 0 when there are none. */
  predicate IsMaxSize(jobs: seq<string>, sizes: map<string, nat>, m: nat)
  {
    && (forall p | p in jobs :: p in sizes && sizes[p] <= m)
    && (jobs == [] ==> m == 0)
    && (jobs != [] ==> exists p | p in jobs && p in sizes :: sizes[p] == m)
  }

  /** `max_bytes = max(max_bytes, size)` as a job is appended keeps the maximum. */
  lemma MaxSizeAppend(jobs: seq<string>, sizes: map<string, nat>, m: nat, pkg: string)
    requires IsMaxSize(jobs, sizes, m) && pkg in sizes
    ensures IsMaxSize(jobs + [pkg], sizes, Max(m, sizes[pkg]))
  {
    var jobs' := jobs + [pkg];
    assert pkg in jobs';
    assert forall p | p in jobs' :: p in jobs || p == pkg;
    if jobs != [] && sizes[pkg] <= m {
      var q :| q in jobs && q in sizes && sizes[q] == m;
      assert q in jobs';
    }
  }

  /** A record, once there, stays there while keys only grow. */
  lemma RecordedGrows(m1: map<Key, Shard>, m2: map<Key, Shard>, world: World)
    requires m1.Keys <= m2.Keys
    ensures forall l, s, p | Recorded(m1, world, l, s, p) :: Recorded(m2, world, l, s, p)
  {
  }

  // ---------------------------------------------------------------------
  // One package's turn in the package loop of `update_shards`

  /** Whether migrating `k` moves its first legacy copy into place and loads
      the record from it, rather than deleting the copy or finding none. */
  predicate Moves(tree: map<ShardPath, Shard>, k: Key)
  {
    LegacyCopy(tree, k).Some? && NewPath(k) !in tree
  }

  /** The working tree after the migration of `k`. */
  function MigratedTree(tree: map<ShardPath, Shard>, k: Key): map<ShardPath, Shard>
  {
    match LegacyCopy(tree, k)
    case None => tree
    case Some(p) => if NewPath(k) in tree then tree - {p} else (tree - {p})[NewPath(k) := tree[p]]
  }

  /** The git command the migration of `k` runs, if any. */
  function MigrationEvents(tree: map<ShardPath, Shard>, k: Key): seq<GitEvent>
  {
    match LegacyCopy(tree, k)
    case None => []
    case Some(p) => if NewPath(k) in tree then [Remove(p)] else [Move(p, NewPath(k))]
  }

  /** No legacy copy of `k` is left that a later migration would load over
      its record. */
  predicate Settled(tree: map<ShardPath, Shard>, k: Key)
  {
    LegacyCopy(tree, k).None? || NewPath(k) in tree
  }

  /** Migration touches only files of `k` and leaves `k` settled; an existing
      current file stays as it is, and a move puts the legacy copy's record
      in the current file. */
  lemma MigratedTreeSpec(tree: map<ShardPath, Shard>, k: Key)
    ensures Settled(MigratedTree(tree, k), k)
    ensures forall p: ShardPath | p.key != k ::
      (p in MigratedTree(tree, k) <==> p in tree) && (p in tree ==> MigratedTree(tree, k)[p] == tree[p])
    ensures NewPath(k) in tree ==> NewPath(k) in MigratedTree(tree, k) && MigratedTree(tree, k)[NewPath(k)] == tree[NewPath(k)]
    ensures Moves(tree, k) ==> MigratedTree(tree, k)[NewPath(k)] == tree[LegacyCopy(tree, k).value]
  {
  }

  /** The record `k` ends its turn with: the legacy copy just moved into
      place, or else its known record, reconciled with the label; `None` when
      there is neither, and the package is built instead. */
  function PlannedRecord(shards: map<Key, Shard>, tree: map<ShardPath, Shard>, k: Key, labelName: string): Option<Shard>
  {
    if Moves(tree, k) then Some(Reconcile(tree[LegacyCopy(tree, k).value], labelName, k))
    else if k in shards then Some(Reconcile(shards[k], labelName, k))
    else None
  }

  /** Whether the turn marks `k` dirty: on a move, or when reconciling
      changes the known record. */
  predicate PlannedDirty(shards: map<Key, Shard>, tree: map<ShardPath, Shard>, k: Key, labelName: string)
  {
    Moves(tree, k) || (k in shards && MarksDirty(shards[k], labelName, k))
  }

  /** A package is built exactly when it has no record and no legacy copy is
      moved into place (a copy that is only deleted does not count). Any
      other package ends with the label in its record, and a known record of
      a settled key keeps its labels as a prefix. The key is marked dirty
      exactly on a move or when the known record changes. */
  lemma PlannedRecordSpec(shards: map<Key, Shard>, tree: map<ShardPath, Shard>, k: Key, labelName: string)
    ensures PlannedRecord(shards, tree, k, labelName).None? <==> k !in shards && !Moves(tree, k)
    ensures PlannedRecord(shards, tree, k, labelName).Some? ==> labelName in PlannedRecord(shards, tree, k, labelName).value.labels
    ensures k in shards && Settled(tree, k) ==>
      PlannedRecord(shards, tree, k, labelName).Some? && shards[k].labels <= PlannedRecord(shards, tree, k, labelName).value.labels
    ensures PlannedDirty(shards, tree, k, labelName) <==>
      Moves(tree, k) || (k in shards && Reconcile(shards[k], labelName, k) != shards[k])
  {
    if k in shards {
      MarksDirtyIffChanged(shards[k], labelName, k);
    }
  }

  /** Outside the keys `ks`, the records, the dirty flags and the shard files
      are as they were. */
  ghost predicate Untouched(s1: map<Key, Shard>, t1: map<ShardPath, Shard>, d1: set<Key>,
                      s2: map<Key, Shard>, t2: map<ShardPath, Shard>, d2: set<Key>, ks: set<Key>)
  {
    && (forall k | k !in ks :: (k in s2 <==> k in s1) && (k in s1 ==> s2[k] == s1[k]) && (k in d2 <==> k in d1))
    && (forall p: ShardPath | p.key !in ks :: (p in t2 <==> p in t1) && (p in t1 ==> t2[p] == t1[p]))
  }

  /** The keys of a chunk's packages. */
  function ChunkKeys(subdir: string, chunk: seq<string>): set<Key>
  {
    set p | p in chunk :: Key(subdir, p)
  }

  /** A key the package loop has not reached yet has the same turn ahead of
      it as at the start of the loop. */
  lemma PlannedLocal(s0: map<Key, Shard>, t0: map<ShardPath, Shard>, d0: set<Key>,
                     s1: map<Key, Shard>, t1: map<ShardPath, Shard>, d1: set<Key>, ks: set<Key>, k: Key, labelName: string)
    requires Untouched(s0, t0, d0, s1, t1, d1, ks) && k !in ks
    ensures PlannedRecord(s1, t1, k, labelName) == PlannedRecord(s0, t0, k, labelName)
    ensures PlannedDirty(s1, t1, k, labelName) == PlannedDirty(s0, t0, k, labelName)
    ensures k in d1 <==> k in d0
  {
    assert ShardPath(Legacy, k).key !in ks && ShardPath(FourDirs, k).key !in ks && NewPath(k).key !in ks;
  }

  /** After the package loop, `pkg` has the record and the dirty flag its
      turn gives it against the state before the loop (`s0`, `t0`, `d0`): it
      is a build job exactly when it is left without a record, and it is
      settled. */
  predicate PlanDone(s0: map<Key, Shard>, t0: map<ShardPath, Shard>, d0: set<Key>,
                     s: map<Key, Shard>, t: map<ShardPath, Shard>, d: set<Key>,
                     subdir: string, labelName: string, pkg: string, jobs: seq<string>)
  {
    var k := Key(subdir, pkg);
    var r := PlannedRecord(s0, t0, k, labelName);
    && (r.Some? ==> k in s && s[k] == r.value && pkg !in jobs)
    && (r.None? ==> k !in s && pkg in jobs)
    && (k in d <==> k in d0 || PlannedDirty(s0, t0, k, labelName))
    && Settled(t, k)
  }

  /** The package loop after its first `i` packages. */
  ghost predicate PlanProgress(s0: map<Key, Shard>, t0: map<ShardPath, Shard>, d0: set<Key>,
                         s: map<Key, Shard>, t: map<ShardPath, Shard>, d: set<Key>,
                         subdir: string, labelName: string, chunk: seq<string>, i: nat, jobs: seq<string>)
  {
    && i <= |chunk|
    && Untouched(s0, t0, d0, s, t, d, ChunkKeys(subdir, chunk[..i]))
    && AllDone(s0, t0, d0, s, t, d, subdir, labelName, chunk, i, jobs)
    && JobsWithin(jobs, chunk, i)
  }

  /** The first `i` packages of the chunk have had their turn. */
  ghost predicate AllDone(s0: map<Key, Shard>, t0: map<ShardPath, Shard>, d0: set<Key>,
                          s: map<Key, Shard>, t: map<ShardPath, Shard>, d: set<Key>,
                          subdir: string, labelName: string, chunk: seq<string>, i: nat, jobs: seq<string>)
    requires i <= |chunk|
  {
    forall j | 0 <= j < i :: PlanDone(s0, t0, d0, s, t, d, subdir, labelName, chunk[j], jobs)
  }

  /** The build jobs so far: distinct packages among the first `i`. */
  predicate JobsWithin(jobs: seq<string>, chunk: seq<string>, i: nat)
    requires i <= |chunk|
  {
    NoDuplicates(jobs) && forall p | p in jobs :: p in chunk[..i]
  }

  /** One package's turn, from (`s1`, `t1`, `d1`) to (`s2`, `t2`, `d2`):
      the record of its turn is stored, the key marked dirty when the turn
      does so, the tree migrated, and the package appended to the build
      jobs when it is left without a record. */
  ghost predicate Turn(s1: map<Key, Shard>, t1: map<ShardPath, Shard>, d1: set<Key>,
                       s2: map<Key, Shard>, t2: map<ShardPath, Shard>, d2: set<Key>,
                       subdir: string, labelName: string, pkg: string, jobs: seq<string>, jobs2: seq<string>)
  {
    var k := Key(subdir, pkg);
    var r := PlannedRecord(s1, t1, k, labelName);
    && s2 == (if r.Some? then s1[k := r.value] else s1)
    && d2 == (if PlannedDirty(s1, t1, k, labelName) then d1 + {k} else d1)
    && t2 == MigratedTree(t1, k)
    && jobs2 == (if r.None? then jobs + [pkg] else jobs)
  }

  /** A turn changes nothing outside its own key. */
  lemma UntouchedStep(s0: map<Key, Shard>, t0: map<ShardPath, Shard>, d0: set<Key>,
                      s1: map<Key, Shard>, t1: map<ShardPath, Shard>, d1: set<Key>,
                      s2: map<Key, Shard>, t2: map<ShardPath, Shard>, d2: set<Key>,
                      subdir: string, labelName: string, pkg: string, jobs: seq<string>, jobs2: seq<string>, ks: set<Key>)
    requires Untouched(s0, t0, d0, s1, t1, d1, ks)
    requires Turn(s1, t1, d1, s2, t2, d2, subdir, labelName, pkg, jobs, jobs2)
    ensures Untouched(s0, t0, d0, s2, t2, d2, ks + {Key(subdir, pkg)})
  {
    MigratedTreeSpec(t1, Key(subdir, pkg));
  }

  /** The turn of a package the loop has not reached before gives it the
      outcome of its turn against the state before the loop. */
  lemma PlanDoneHere(s0: map<Key, Shard>, t0: map<ShardPath, Shard>, d0: set<Key>,
                     s1: map<Key, Shard>, t1: map<ShardPath, Shard>, d1: set<Key>,
                     s2: map<Key, Shard>, t2: map<ShardPath, Shard>, d2: set<Key>,
                     subdir: string, labelName: string, pkg: string, jobs: seq<string>, jobs2: seq<string>, ks: set<Key>)
    requires Untouched(s0, t0, d0, s1, t1, d1, ks) && Key(subdir, pkg) !in ks && pkg !in jobs
    requires Turn(s1, t1, d1, s2, t2, d2, subdir, labelName, pkg, jobs, jobs2)
    ensures PlanDone(s0, t0, d0, s2, t2, d2, subdir, labelName, pkg, jobs2)
  {
    PlannedLocal(s0, t0, d0, s1, t1, d1, ks, Key(subdir, pkg), labelName);
    MigratedTreeSpec(t1, Key(subdir, pkg));
  }

  /** One more package's turn extends the progress of the package loop. */
  lemma PlanStep(s0: map<Key, Shard>, t0: map<ShardPath, Shard>, d0: set<Key>,
                 s1: map<Key, Shard>, t1: map<ShardPath, Shard>, d1: set<Key>,
                 s2: map<Key, Shard>, t2: map<ShardPath, Shard>, d2: set<Key>,
                 subdir: string, labelName: string, chunk: seq<string>, i: nat, jobs: seq<string>, jobs2: seq<string>)
    requires NoDuplicates(chunk) && i < |chunk|
    requires PlanProgress(s0, t0, d0, s1, t1, d1, subdir, labelName, chunk, i, jobs)
    requires Turn(s1, t1, d1, s2, t2, d2, subdir, labelName, chunk[i], jobs, jobs2)
    ensures PlanProgress(s0, t0, d0, s2, t2, d2, subdir, labelName, chunk, i + 1, jobs2)
  {
    var before := ChunkKeys(subdir, chunk[..i]);
    ChunkKeysStep(subdir, chunk, i);
    JobsStep(chunk, i, jobs, jobs2);
    UntouchedStep(s0, t0, d0, s1, t1, d1, s2, t2, d2, subdir, labelName, chunk[i], jobs, jobs2, before);
    PlanDoneHere(s0, t0, d0, s1, t1, d1, s2, t2, d2, subdir, labelName, chunk[i], jobs, jobs2, before);
    AllDoneStep(s0, t0, d0, s1, t1, d1, s2, t2, d2, subdir, labelName, chunk, i, jobs, jobs2);
  }

  /** The turn of package `i` leaves the outcomes of the packages before it
      as they were, and adds its own. */
  lemma AllDoneStep(s0: map<Key, Shard>, t0: map<ShardPath, Shard>, d0: set<Key>,
                        s1: map<Key, Shard>, t1: map<ShardPath, Shard>, d1: set<Key>,
                        s2: map<Key, Shard>, t2: map<ShardPath, Shard>, d2: set<Key>,
                        subdir: string, labelName: string, chunk: seq<string>, i: nat, jobs: seq<string>, jobs2: seq<string>)
    requires NoDuplicates(chunk) && i < |chunk|
    requires AllDone(s0, t0, d0, s1, t1, d1, subdir, labelName, chunk, i, jobs)
    requires Turn(s1, t1, d1, s2, t2, d2, subdir, labelName, chunk[i], jobs, jobs2)
    requires PlanDone(s0, t0, d0, s2, t2, d2, subdir, labelName, chunk[i], jobs2)
    ensures AllDone(s0, t0, d0, s2, t2, d2, subdir, labelName, chunk, i + 1, jobs2)
  {
    forall j | 0 <= j < i ensures PlanDone(s0, t0, d0, s2, t2, d2, subdir, labelName, chunk[j], jobs2) {
      assert chunk[j] != chunk[i];
      PlanDoneOther(s0, t0, d0, s1, t1, d1, s2, t2, d2, subdir, labelName, chunk[j], chunk[i], jobs, jobs2);
    }
  }

  /** The keys of a chunk's first `i + 1` packages are those of the first
      `i` and, new among them, the key of package `i`. */
  lemma ChunkKeysStep(subdir: string, chunk: seq<string>, i: nat)
    requires NoDuplicates(chunk) && i < |chunk|
    ensures Key(subdir, chunk[i]) !in ChunkKeys(subdir, chunk[..i])
    ensures ChunkKeys(subdir, chunk[..i + 1]) == ChunkKeys(subdir, chunk[..i]) + {Key(subdir, chunk[i])}
  {
    forall p | p in chunk[..i] ensures p != chunk[i] {
      var j :| 0 <= j < i && chunk[j] == p;
    }
    assert chunk[..i + 1] == chunk[..i] + [chunk[i]];
  }

  /** Appending package `i` to jobs drawn from the first `i` keeps them
      distinct and drawn from the first `i + 1`. */
  lemma JobsStep(chunk: seq<string>, i: nat, jobs: seq<string>, jobs2: seq<string>)
    requires NoDuplicates(chunk) && i < |chunk|
    requires JobsWithin(jobs, chunk, i)
    requires jobs2 == jobs || jobs2 == jobs + [chunk[i]]
    ensures chunk[i] !in jobs
    ensures JobsWithin(jobs2, chunk, i + 1)
  {
    forall p | p in chunk[..i] ensures p != chunk[i] {
      var j :| 0 <= j < i && chunk[j] == p;
    }
    assert chunk[..i + 1] == chunk[..i] + [chunk[i]];
  }

  /** The turn of `pkg2` leaves the outcome of an earlier, different `pkg`
      as it was. */
  lemma PlanDoneOther(s0: map<Key, Shard>, t0: map<ShardPath, Shard>, d0: set<Key>,
                      s1: map<Key, Shard>, t1: map<ShardPath, Shard>, d1: set<Key>,
                      s2: map<Key, Shard>, t2: map<ShardPath, Shard>, d2: set<Key>,
                      subdir: string, labelName: string, pkg: string, pkg2: string, jobs: seq<string>, jobs2: seq<string>)
    requires pkg != pkg2
    requires PlanDone(s0, t0, d0, s1, t1, d1, subdir, labelName, pkg, jobs)
    requires Turn(s1, t1, d1, s2, t2, d2, subdir, labelName, pkg2, jobs, jobs2)
    ensures PlanDone(s0, t0, d0, s2, t2, d2, subdir, labelName, pkg, jobs2)
  {
    MigratedTreeSpec(t1, Key(subdir, pkg2));
    var k := Key(subdir, pkg);
    assert ShardPath(Legacy, k).key != Key(subdir, pkg2) && ShardPath(FourDirs, k).key != Key(subdir, pkg2);
  }

  // ---------------------------------------------------------------------
  // What update_shards keeps

  /** A builder that does what `make_repodata_shard_noretry` is there for:
      the record it returns is the record of the package it was asked about
      and carries the label. */
  ghost predicate WellBuilt(world: World)
  {
    forall s, p, l, u | world.build(s, p, l, u).Some? ::
      KeyOf(world.build(s, p, l, u).value) == Key(s, p) && l in world.build(s, p, l, u).value.labels
  }

  /** The package's record carries the label, and no legacy copy can
      replace it. */
  predicate Holds(shards: map<Key, Shard>, tree: map<ShardPath, Shard>, labelName: string, subdir: string, pkg: string)
  {
    Key(subdir, pkg) in shards && labelName in shards[Key(subdir, pkg)].labels && Settled(tree, Key(subdir, pkg))
  }

  /** A listed package is on record, and, with a well-behaved builder, its
      record carries the label. */
  ghost predicate OnRecord(shards: map<Key, Shard>, tree: map<ShardPath, Shard>, world: World,
                     labelName: string, subdir: string, pkg: string)
  {
    Recorded(shards, world, labelName, subdir, pkg) && (WellBuilt(world) ==> Holds(shards, tree, labelName, subdir, pkg))
  }

  /** From (`s1`, `t1`) to (`s2`, `t2`) no record is lost, and, with a
      well-behaved builder, a settled record stays settled and keeps its
      labels as a prefix. */
  ghost predicate Kept(s1: map<Key, Shard>, t1: map<ShardPath, Shard>, s2: map<Key, Shard>, t2: map<ShardPath, Shard>, world: World)
  {
    && s1.Keys <= s2.Keys
    && (WellBuilt(world) ==> forall k | k in s1 && Settled(t1, k) :: Settled(t2, k) && s1[k].labels <= s2[k].labels)
  }

  lemma KeptTrans(s1: map<Key, Shard>, t1: map<ShardPath, Shard>, s2: map<Key, Shard>, t2: map<ShardPath, Shard>,
                  s3: map<Key, Shard>, t3: map<ShardPath, Shard>, world: World)
    requires Kept(s1, t1, s2, t2, world) && Kept(s2, t2, s3, t3, world)
    ensures Kept(s1, t1, s3, t3, world)
  {
  }

  lemma PrefixIn<T>(x: T, a: seq<T>, b: seq<T>)
    requires x in a && a <= b
    ensures x in b
  {
    var i :| 0 <= i < |a| && a[i] == x;
    assert b[i] == x;
  }

  /** What is on record stays on record. */
  lemma KeptOnRecord(s1: map<Key, Shard>, t1: map<ShardPath, Shard>, s2: map<Key, Shard>, t2: map<ShardPath, Shard>, world: World)
    requires Kept(s1, t1, s2, t2, world)
    ensures forall l, sd, p | OnRecord(s1, t1, world, l, sd, p) :: OnRecord(s2, t2, world, l, sd, p)
  {
    forall l, sd, p | OnRecord(s1, t1, world, l, sd, p) ensures OnRecord(s2, t2, world, l, sd, p) {
      RecordedGrows(s1, s2, world);
      if WellBuilt(world) {
        PrefixIn(l, s1[Key(sd, p)].labels, s2[Key(sd, p)].labels);
      }
    }
  }

  /** Writing shard files loses no record and unsettles no key. */
  lemma KeptByWrite(shards: map<Key, Shard>, tree: map<ShardPath, Shard>, order: seq<Key>, world: World)
    ensures Kept(shards, tree, shards, WithFiles(tree, shards, order), world)
  {
    WithFilesSpec(tree, shards, order);
    forall k | k in shards && Settled(tree, k) ensures Settled(WithFiles(tree, shards, order), k) {
      assert ShardPath(Legacy, k).layout != Current && ShardPath(FourDirs, k).layout != Current;
    }
  }

  /** Every record that differs from `base` is still dirty or has been
      written to its current file. */
  predicate Saved(base: map<Key, Shard>, shards: map<Key, Shard>, tree: map<ShardPath, Shard>, dirty: set<Key>)
  {
    forall k | k in shards && k !in dirty && (k !in base || shards[k] != base[k]) ::
      NewPath(k) in tree && tree[NewPath(k)] == shards[k]
  }

  /** The package loop of a chunk loses no record, leaves every key settled
      that was, and only adds labels to settled records. */
  lemma PlanKept(s0: map<Key, Shard>, t0: map<ShardPath, Shard>, d0: set<Key>,
                 s: map<Key, Shard>, t: map<ShardPath, Shard>, d: set<Key>,
                 subdir: string, labelName: string, chunk: seq<string>, jobs: seq<string>, world: World)
    requires forall p | p in chunk :: PlanDone(s0, t0, d0, s, t, d, subdir, labelName, p, jobs)
    requires Untouched(s0, t0, d0, s, t, d, ChunkKeys(subdir, chunk))
    ensures Kept(s0, t0, s, t, world)
  {
    forall k | k in s0
      ensures k in s
      ensures Settled(t0, k) ==> Settled(t, k) && s0[k].labels <= s[k].labels
    {
      if k in ChunkKeys(subdir, chunk) {
        var p :| p in chunk && Key(subdir, p) == k;
        PlannedRecordSpec(s0, t0, k, labelName);
      } else {
        assert ShardPath(Legacy, k).key == k && ShardPath(FourDirs, k).key == k && NewPath(k).key == k;
      }
    }
  }

  /** Storing a chunk's builds loses no record and, with a well-behaved
      builder, overwrites none: each build lands under the key of its job,
      which had no record. */
  lemma BuildKept(planned: map<Key, Shard>, tree: map<ShardPath, Shard>, subdir: string, labelName: string,
                  jobs: seq<string>, built: seq<Shard>, world: World)
    requires forall p | p in jobs :: Key(subdir, p) !in planned
    requires |built| == |jobs| && forall i | 0 <= i < |jobs| :: BuildShard(world, subdir, jobs[i], labelName) == Some(built[i])
    ensures Kept(planned, tree, MergeBuilt(planned, built), tree, world)
  {
    if WellBuilt(world) {
      forall k | k in BuiltKeys(built) ensures k !in planned {
        var b :| b in built && KeyOf(b) == k;
        var i :| 0 <= i < |built| && built[i] == b;
        assert jobs[i] in jobs;
      }
    }
  }

  /** After the builds of a chunk, a package that was not built and whose
      key no build overwrote holds the record of its turn, which carries the
      label. */
  lemma RunChunkPlanned(s0: map<Key, Shard>, t0: map<ShardPath, Shard>, d0: set<Key>,
                        planned: map<Key, Shard>, tree: map<ShardPath, Shard>, dp: set<Key>, shards: map<Key, Shard>,
                        subdir: string, labelName: string, chunk: seq<string>, jobs: seq<string>, built: seq<Shard>)
    requires forall p | p in chunk :: PlanDone(s0, t0, d0, planned, tree, dp, subdir, labelName, p, jobs)
    requires shards == MergeBuilt(planned, built)
    ensures forall p | p in chunk && p !in jobs && Key(subdir, p) !in BuiltKeys(built) ::
      PlannedRecord(s0, t0, Key(subdir, p), labelName).Some? && Key(subdir, p) in shards
      && shards[Key(subdir, p)] == PlannedRecord(s0, t0, Key(subdir, p), labelName).value
    ensures forall p | p in chunk && p !in jobs && Key(subdir, p) !in BuiltKeys(built) ::
      Key(subdir, p) in shards && labelName in shards[Key(subdir, p)].labels
  {
    forall p | p in chunk && p !in jobs && Key(subdir, p) !in BuiltKeys(built)
      ensures PlannedRecord(s0, t0, Key(subdir, p), labelName).Some? && Key(subdir, p) in shards
      ensures labelName in shards[Key(subdir, p)].labels
    {
      PlannedRecordSpec(s0, t0, Key(subdir, p), labelName);
    }
  }

  /** After the builds of a chunk, every package of the chunk is on record. */
  lemma RunChunkOnRecord(s0: map<Key, Shard>, t0: map<ShardPath, Shard>, d0: set<Key>,
                         planned: map<Key, Shard>, tree: map<ShardPath, Shard>, dp: set<Key>, shards: map<Key, Shard>,
                         subdir: string, labelName: string, chunk: seq<string>, jobs: seq<string>, built: seq<Shard>, world: World)
    requires forall p | p in chunk :: PlanDone(s0, t0, d0, planned, tree, dp, subdir, labelName, p, jobs)
    requires |built| == |jobs| && forall i | 0 <= i < |jobs| :: BuildShard(world, subdir, jobs[i], labelName) == Some(built[i])
    requires shards == MergeBuilt(planned, built)
    ensures forall p | p in chunk :: OnRecord(shards, tree, world, labelName, subdir, p)
  {
    forall p | p in chunk ensures OnRecord(shards, tree, world, labelName, subdir, p) {
      var k := Key(subdir, p);
      PlannedRecordSpec(s0, t0, k, labelName);
      if p in jobs {
        var i :| 0 <= i < |jobs| && jobs[i] == p;
        assert built[i] in built;
      }
      if WellBuilt(world) && k in BuiltKeys(built) {
        var m :| 0 <= m < |built| && built[m] == shards[k];
        assert KeyOf(built[m]) == Key(subdir, jobs[m]);
      }
    }
  }

  /** Writing the current file of every dirty key saves every changed
      record, so nothing needs to stay dirty. */
  lemma SavedByWrite(base: map<Key, Shard>, shards: map<Key, Shard>, tree: map<ShardPath, Shard>, dirty: set<Key>, order: seq<Key>)
    requires Saved(base, shards, tree, dirty) && dirty <= shards.Keys
    requires forall k :: k in order <==> k in dirty
    ensures Saved(base, shards, WithFiles(tree, shards, order), {})
  {
    WithFilesSpec(tree, shards, order);
  }

  /** Every dirty key has a record, and every record that differs from
      `base` is dirty or written to its current file. */
  ghost predicate Consistent(base: map<Key, Shard>, shards: map<Key, Shard>, tree: map<ShardPath, Shard>, dirty: set<Key>)
  {
    dirty <= shards.Keys && Saved(base, shards, tree, dirty)
  }

  /** Storing a record under its key and marking the key dirty keeps the
      state consistent. */
  lemma MarkConsistent(base: map<Key, Shard>, shards: map<Key, Shard>, tree: map<ShardPath, Shard>, dirty: set<Key>, shard: Shard)
    requires Consistent(base, shards, tree, dirty)
    ensures Consistent(base, shards[KeyOf(shard) := shard], tree, dirty + {KeyOf(shard)})
  {
  }

  /** Storing built records keeps the state consistent. */
  lemma {:induction false} MergeConsistent(base: map<Key, Shard>, shards: map<Key, Shard>, tree: map<ShardPath, Shard>,
                                           dirty: set<Key>, built: seq<Shard>)
    requires Consistent(base, shards, tree, dirty)
    ensures Consistent(base, MergeBuilt(shards, built), tree, dirty + BuiltKeys(built))
    decreases |built|
  {
    if built != [] {
      var init := built[..|built| - 1];
      var last := built[|built| - 1];
      MergeConsistent(base, shards, tree, dirty, init);
      MarkConsistent(base, MergeBuilt(shards, init), tree, dirty + BuiltKeys(init), last);
      assert built == init + [last];
      assert BuiltKeys(built) == BuiltKeys(init) + {KeyOf(last)};
    }
  }

  /** How many clock readings a checkpoint consumes: two as the source is
      written (it reads the clock at most twice; when more than 64 keys are
      dirty the flush test short-circuits before its reading, which is then
      consumed unused), one when corrected. */
  function Readings(corrected: bool): nat
  {
    if corrected then 1 else 2
  }

  /** The checkpoint decision from the clock readings from the `n`-th on:
      the source's two readings, or the corrected single one. It flushes
      when more than 64 keys are dirty or the first reading is past the
      limit, and stops when the last reading is; a corrected stop always
      comes with a flush. */
  function Decide(dirtyCount: nat, world: World, n: nat, timeLimit: int, corrected: bool): (d: Decision)
    ensures d.flush <==> dirtyCount > FlushThreshold || world.clock(n) > timeLimit
    ensures d.stop <==> world.clock(n + Readings(corrected) - 1) > timeLimit
    ensures corrected && d.stop ==> d.flush
  {
    if corrected then Checkpoint(dirtyCount, world.clock(n), timeLimit)
    else CheckpointAsWritten(dirtyCount, world.clock(n), world.clock(n + 1), timeLimit)
  }

  /** What a checkpoint that returned "time is up" leaves: its last clock
      reading is past the limit, at most 64 keys are dirty, and when its
      first reading is past the limit too (always so with one reading) it
      flushed, so nothing is dirty and the log ends with the batch's commit
      and push. */
  predicate TimeStopped(world: World, count: nat, timeLimit: int, corrected: bool, dirty: set<Key>, log: seq<GitEvent>)
  {
    && count >= Readings(corrected) && world.clock(count - 1) > timeLimit
    && |dirty| <= FlushThreshold
    && (world.clock(count - Readings(corrected)) > timeLimit ==>
          dirty == {} && |log| >= 2 && log[|log| - 2].Commit? && log[|log| - 1].Push?)
  }

  /** The readings `from` up to `to` are whole checkpoints, `Readings(corrected)`
      each, and every one of them found its last reading within the limit. */
  predicate InTime(world: World, from: nat, to: nat, timeLimit: int, corrected: bool)
    decreases to - from
  {
    if from >= to then from == to
    else
      && from + Readings(corrected) <= to
      && world.clock(from + Readings(corrected) - 1) <= timeLimit
      && InTime(world, from + Readings(corrected), to, timeLimit, corrected)
  }

  /** The checkpoints that consumed the readings `from` up to `to`: when
      `timeUp`, the last of them is the first whose last reading is past the
      limit; otherwise none of them is. */
  predicate Paced(world: World, from: nat, to: nat, timeLimit: int, corrected: bool, timeUp: bool)
  {
    if timeUp then
      && from + Readings(corrected) <= to
      && InTime(world, from, to - Readings(corrected), timeLimit, corrected)
      && world.clock(to - 1) > timeLimit
    else InTime(world, from, to, timeLimit, corrected)
  }

  /** Checkpoints in time one after another are in time together. */
  lemma {:induction false} InTimeTrans(world: World, a: nat, b: nat, c: nat, timeLimit: int, corrected: bool)
    requires InTime(world, a, b, timeLimit, corrected) && InTime(world, b, c, timeLimit, corrected)
    ensures InTime(world, a, c, timeLimit, corrected)
    decreases b - a
  {
    if a < b {
      InTimeTrans(world, a + Readings(corrected), b, c, timeLimit, corrected);
    }
  }

  /** Checkpoints in time followed by a run of checkpoints make one run. */
  lemma PacedTrans(world: World, a: nat, b: nat, c: nat, timeLimit: int, corrected: bool, timeUp: bool)
    requires InTime(world, a, b, timeLimit, corrected) && Paced(world, b, c, timeLimit, corrected, timeUp)
    ensures Paced(world, a, c, timeLimit, corrected, timeUp)
  {
    if timeUp {
      InTimeTrans(world, a, b, c - Readings(corrected), timeLimit, corrected);
    } else {
      InTimeTrans(world, a, b, c, timeLimit, corrected);
    }
  }

  /** One checkpoint is a run of its own, stopping exactly when its last
      reading is past the limit. */
  lemma CheckpointPaced(world: World, n: nat, timeLimit: int, corrected: bool)
    ensures Paced(world, n, n + Readings(corrected), timeLimit, corrected,
                  world.clock(n + Readings(corrected) - 1) > timeLimit)
  {
    assert InTime(world, n + Readings(corrected), n + Readings(corrected), timeLimit, corrected);
  }

  /** The package `p` of the listing `sizes` of (label, subdir) can raise `e`:
      a size of 0 makes the worker count divide by zero, and a build that
      raises is reported with its subdir and name. */
  predicate Raises(world: World, labelName: string, subdir: string, sizes: map<string, nat>, p: string, e: SyncError)
  {
    && p in sizes
    && match e
       case ZeroDivision => sizes[p] == 0
       case BuildFailed(s, pkg) => s == subdir && pkg == p && BuildShard(world, subdir, p, labelName).None?
       case ReleaseFailed(_) => false
  }

  /** A chunk that raised as `RunChunk` says has a package that can raise. */
  lemma RaisedInChunk(world: World, labelName: string, subdir: string, sizes: map<string, nat>,
                      chunk: seq<string>, jobs: seq<string>, e: SyncError)
    requires forall p | p in jobs :: p in chunk
    requires forall p | p in chunk :: p in sizes
    requires jobs != []
    requires e == ZeroDivision ==> forall p | p in jobs :: sizes[p] == 0
    requires e != ZeroDivision ==>
      e.BuildFailed? && e.subdir == subdir && e.pkg in jobs && BuildShard(world, subdir, e.pkg, labelName).None?
    ensures exists p | p in chunk :: Raises(world, labelName, subdir, sizes, p, e)
  {
    if e == ZeroDivision {
      assert Raises(world, labelName, subdir, sizes, jobs[0], e);
    } else {
      assert Raises(world, labelName, subdir, sizes, e.pkg, e);
    }
  }

  /** The listing of (label, subdir) was fetched and holds a package that can raise `e`. */
  ghost predicate FailedAt(world: World, labelName: string, subdir: string, e: SyncError)
  {
    && world.fetch(labelName, subdir).Some?
    && exists p :: Raises(world, labelName, subdir, world.fetch(labelName, subdir).value, p, e)
  }

  /** The checkpoints one (label, subdir) pair runs: one per chunk of its
      listing, none when the fetch fails. */
  function PairCheckpoints(world: World, labelName: string, subdir: string): nat
  {
    if world.fetch(labelName, subdir).Some? then TotalChunks(|world.fetch(labelName, subdir).value|) else 0
  }

  /** The clock readings `n` checkpoints consume, `Readings(corrected)` each. */
  function CheckpointsReadings(n: nat, corrected: bool): nat
  {
    if n == 0 then 0 else CheckpointsReadings(n - 1, corrected) + Readings(corrected)
  }

  /** `n` whole checkpoints ran from reading `start` up to `now`, each with
      its last reading within the limit. */
  predicate Clocked(world: World, start: nat, now: nat, n: nat, timeLimit: int, corrected: bool)
    decreases n
  {
    if n == 0 then now == start
    else
      && start + Readings(corrected) <= now
      && world.clock(now - 1) <= timeLimit
      && Clocked(world, start, now - Readings(corrected), n - 1, timeLimit, corrected)
  }

  /** `n` whole checkpoints consume exactly `n` times `Readings(corrected)`
      readings, all of them in time. */
  lemma {:induction false} ClockedInTime(world: World, start: nat, now: nat, n: nat, timeLimit: int, corrected: bool)
    requires Clocked(world, start, now, n, timeLimit, corrected)
    ensures now == start + CheckpointsReadings(n, corrected)
    ensures InTime(world, start, now, timeLimit, corrected)
    decreases n
  {
    if n > 0 {
      var mid := now - Readings(corrected);
      ClockedInTime(world, start, mid, n - 1, timeLimit, corrected);
      assert InTime(world, mid + Readings(corrected), now, timeLimit, corrected);
      InTimeTrans(world, start, mid, now, timeLimit, corrected);
    }
  }

  /** Two runs of whole checkpoints one after the other are one run. */
  lemma {:induction false} ClockedJoin(world: World, a: nat, b: nat, c: nat, n: nat, k: nat, timeLimit: int, corrected: bool)
    requires Clocked(world, a, b, n, timeLimit, corrected) && Clocked(world, b, c, k, timeLimit, corrected)
    ensures Clocked(world, a, c, n + k, timeLimit, corrected)
    decreases k
  {
    if k > 0 {
      ClockedJoin(world, a, b, c - Readings(corrected), n, k - 1, timeLimit, corrected);
      ClockedInTime(world, a, c - Readings(corrected), n + k - 1, timeLimit, corrected);
    }
  }

  /** One more checkpoint after `n` in time: together they are paced, and
      when it is in time too they are `n + 1`. */
  lemma ClockedStep(world: World, start: nat, mid: nat, now: nat, n: nat, timeLimit: int, corrected: bool,
                     timeUp: bool, complete: bool)
    requires Clocked(world, start, mid, n, timeLimit, corrected) && Paced(world, mid, now, timeLimit, corrected, timeUp)
    requires complete ==> !timeUp && now == mid + Readings(corrected)
    ensures Paced(world, start, now, timeLimit, corrected, timeUp)
    ensures complete ==> Clocked(world, start, now, n + 1, timeLimit, corrected)
  {
    ClockedInTime(world, start, mid, n, timeLimit, corrected);
    PacedTrans(world, start, mid, now, timeLimit, corrected, timeUp);
  }

  /** A run of checkpoints after `n` in time: together they are paced, and
      when the run was `k` whole checkpoints they are `total`, that is
      `n + k`. */
  lemma ClockedRun(world: World, start: nat, mid: nat, now: nat, n: nat, k: nat, total: nat, timeLimit: int, corrected: bool,
                    timeUp: bool, complete: bool)
    requires Clocked(world, start, mid, n, timeLimit, corrected) && Paced(world, mid, now, timeLimit, corrected, timeUp)
    requires complete ==> !timeUp && Clocked(world, mid, now, k, timeLimit, corrected)
    requires total == n + k
    ensures Paced(world, start, now, timeLimit, corrected, timeUp)
    ensures complete ==> Clocked(world, start, now, total, timeLimit, corrected)
  {
    ClockedInTime(world, start, mid, n, timeLimit, corrected);
    PacedTrans(world, start, mid, now, timeLimit, corrected, timeUp);
    if complete {
      ClockedJoin(world, start, mid, now, n, k, timeLimit, corrected);
    }
  }

  /** The checkpoints of one label over the subdirs before `upTo` that the rank owns. */
  function LabelCheckpoints(world: World, labelName: string, rank: int, nRanks: nat, upTo: nat): nat
    requires nRanks >= 1 && upTo <= |Subdirs|
  {
    if upTo == 0 then 0
    else
      LabelCheckpoints(world, labelName, rank, nRanks, upTo - 1)
      + (if OwnsSubdir(upTo - 1, rank, nRanks) then PairCheckpoints(world, labelName, Subdirs[upTo - 1]) else 0)
  }

  /** The checkpoints of the labels `ls`, each over every subdir the rank owns. */
  function RunCheckpoints(world: World, ls: seq<string>, rank: int, nRanks: nat): nat
    requires nRanks >= 1
  {
    if ls == [] then 0
    else RunCheckpoints(world, ls[..|ls| - 1], rank, nRanks) + LabelCheckpoints(world, ls[|ls| - 1], rank, nRanks, |Subdirs|)
  }

  /** When the first of a run of checkpoints finds its last reading past the
      limit, the run stops right there: with a time limit of 0 and a positive
      elapsed time, the first checkpoint stops the run. */
  lemma FirstLateCheckpointStops(world: World, from: nat, to: nat, timeLimit: int, corrected: bool, timeUp: bool)
    requires Paced(world, from, to, timeLimit, corrected, timeUp)
    requires from < to && world.clock(from + Readings(corrected) - 1) > timeLimit
    ensures timeUp && to == from + Readings(corrected)
  {
    if timeUp {
      assert InTime(world, from, to - Readings(corrected), timeLimit, corrected);
    }
  }

  /** A run of whole checkpoints in time never begins with a checkpoint
      whose last reading is past the limit. */
  lemma {:induction false} ClockedFirstInTime(world: World, from: nat, to: nat, n: nat, timeLimit: int, corrected: bool)
    requires Clocked(world, from, to, n, timeLimit, corrected) && n > 0
    ensures world.clock(from + Readings(corrected) - 1) <= timeLimit
    decreases n
  {
    if n > 1 {
      ClockedFirstInTime(world, from, to - Readings(corrected), n - 1, timeLimit, corrected);
    }
  }

  /** What a run of `n` checkpoints from reading `from` to `to` tells about
      the clock: completed, it consumed exactly `n` checkpoints' readings
      and, when `n > 0`, its first checkpoint's last reading was within the
      limit; stopped for time after a first checkpoint whose last reading
      was past the limit, it stopped at that first checkpoint. */
  lemma RunClock(world: World, from: nat, to: nat, n: nat, timeLimit: int, corrected: bool, timeUp: bool, complete: bool)
    requires Paced(world, from, to, timeLimit, corrected, timeUp)
    requires complete ==> !timeUp && Clocked(world, from, to, n, timeLimit, corrected)
    ensures complete ==> to == from + CheckpointsReadings(n, corrected)
    ensures complete && n > 0 ==> world.clock(from + Readings(corrected) - 1) <= timeLimit
    ensures timeUp && world.clock(from + Readings(corrected) - 1) > timeLimit ==> to == from + Readings(corrected)
  {
    if complete {
      ClockedInTime(world, from, to, n, timeLimit, corrected);
      if n > 0 {
        ClockedFirstInTime(world, from, to, n, timeLimit, corrected);
      }
    } else if timeUp && world.clock(from + Readings(corrected) - 1) > timeLimit {
      FirstLateCheckpointStops(world, from, to, timeLimit, corrected, true);
    }
  }

  /** Some visited (label, subdir index) pair has a listing that can raise `e`. */
  ghost predicate FailedIn(world: World, visited: set<(string, nat)>, e: SyncError)
  {
    exists v | v in visited :: v.1 < |Subdirs| && FailedAt(world, v.0, Subdirs[v.1], e)
  }

  /** `indices` are exactly the subdirs before `index` that the rank owns. */
  ghost predicate SubdirsVisited(indices: set<nat>, index: nat, rank: int, nRanks: nat)
    requires nRanks >= 1
  {
    && (forall i | i in indices :: i < index && OwnsSubdir(i, rank, nRanks))
    && (forall i | 0 <= i < index && OwnsSubdir(i, rank, nRanks) :: i in indices)
  }

  lemma SubdirsVisitedStep(indices: set<nat>, index: nat, rank: int, nRanks: nat)
    requires nRanks >= 1 && SubdirsVisited(indices, index, rank, nRanks)
    ensures SubdirsVisited(if OwnsSubdir(index, rank, nRanks) then indices + {index} else indices, index + 1, rank, nRanks)
  {
  }

  /** Every package listed for a visited subdir of the label is on record. */
  ghost predicate SubdirsOnRecord(indices: set<nat>, labelName: string, shards: map<Key, Shard>, tree: map<ShardPath, Shard>, world: World)
  {
    forall i, p | i in indices && i < |Subdirs| && world.fetch(labelName, Subdirs[i]).Some?
                  && p in world.fetch(labelName, Subdirs[i]).value ::
      OnRecord(shards, tree, world, labelName, Subdirs[i], p)
  }

  lemma SubdirsOnRecordStep(indices: set<nat>, index: nat, labelName: string, s1: map<Key, Shard>, t1: map<ShardPath, Shard>,
                            s2: map<Key, Shard>, t2: map<ShardPath, Shard>, world: World)
    requires SubdirsOnRecord(indices, labelName, s1, t1, world) && Kept(s1, t1, s2, t2, world)
    requires index < |Subdirs|
    requires world.fetch(labelName, Subdirs[index]).Some? ==>
      forall p | p in world.fetch(labelName, Subdirs[index]).value :: OnRecord(s2, t2, world, labelName, Subdirs[index], p)
    ensures SubdirsOnRecord(indices + {index}, labelName, s2, t2, world)
  {
    KeptOnRecord(s1, t1, s2, t2, world);
  }

  /** Every visited (label, subdir index) pair has a label of `ls` and a
      subdir the rank owns. */
  ghost predicate VisitedWithin(visited: set<(string, nat)>, ls: seq<string>, rank: int, nRanks: nat)
    requires nRanks >= 1
  {
    forall e | e in visited :: e.0 in ls && e.1 < |Subdirs| && OwnsSubdir(e.1, rank, nRanks)
  }

  /** Every label of `ls` has been visited with every subdir the rank owns. */
  ghost predicate VisitedAll(visited: set<(string, nat)>, ls: seq<string>, rank: int, nRanks: nat)
    requires nRanks >= 1
  {
    forall l, i | l in ls && 0 <= i < |Subdirs| && OwnsSubdir(i, rank, nRanks) :: (l, i) in visited
  }

  /** Every package listed for a visited pair is on record. */
  ghost predicate VisitedOnRecord(visited: set<(string, nat)>, shards: map<Key, Shard>, tree: map<ShardPath, Shard>, world: World)
  {
    forall e, p | e in visited && e.1 < |Subdirs| && world.fetch(e.0, Subdirs[e.1]).Some?
                  && p in world.fetch(e.0, Subdirs[e.1]).value ::
      OnRecord(shards, tree, world, e.0, Subdirs[e.1], p)
  }

  lemma VisitedWithinGrows(visited: set<(string, nat)>, ls1: seq<string>, ls2: seq<string>, rank: int, nRanks: nat)
    requires nRanks >= 1 && VisitedWithin(visited, ls1, rank, nRanks) && forall l | l in ls1 :: l in ls2
    ensures VisitedWithin(visited, ls2, rank, nRanks)
  {
  }

  /** What is on record for the visited pairs stays on record. */
  lemma VisitedOnRecordKept(visited: set<(string, nat)>, s1: map<Key, Shard>, t1: map<ShardPath, Shard>,
                            s2: map<Key, Shard>, t2: map<ShardPath, Shard>, world: World)
    requires VisitedOnRecord(visited, s1, t1, world) && Kept(s1, t1, s2, t2, world)
    ensures VisitedOnRecord(visited, s2, t2, world)
  {
    KeptOnRecord(s1, t1, s2, t2, world);
  }

  /** The subdirs one label visited extend the visited pairs of the labels
      before it. */
  lemma VisitedStep(visited: set<(string, nat)>, labels: seq<string>, li: nat, indices: set<nat>, rank: int, nRanks: nat,
                    world: World, s1: map<Key, Shard>, t1: map<ShardPath, Shard>, s2: map<Key, Shard>, t2: map<ShardPath, Shard>,
                    complete: bool)
    requires nRanks >= 1 && li < |labels|
    requires VisitedWithin(visited, labels[..li], rank, nRanks) && VisitedAll(visited, labels[..li], rank, nRanks)
    requires VisitedOnRecord(visited, s1, t1, world) && Kept(s1, t1, s2, t2, world)
    requires forall i | i in indices :: i < |Subdirs| && OwnsSubdir(i, rank, nRanks)
    requires complete ==> forall i | 0 <= i < |Subdirs| && OwnsSubdir(i, rank, nRanks) :: i in indices
    requires complete ==>
      forall i, p | i in indices && i < |Subdirs| && world.fetch(labels[li], Subdirs[i]).Some?
                    && p in world.fetch(labels[li], Subdirs[i]).value ::
        OnRecord(s2, t2, world, labels[li], Subdirs[i], p)
    ensures var visited2 := visited + set i | i in indices :: (labels[li], i);
      && VisitedWithin(visited2, labels[..li + 1], rank, nRanks)
      && (complete ==> VisitedAll(visited2, labels[..li + 1], rank, nRanks) && VisitedOnRecord(visited2, s2, t2, world))
  {
    assert labels[..li + 1] == labels[..li] + [labels[li]];
    if complete {
      KeptOnRecord(s1, t1, s2, t2, world);
    }
  }

  /** The state `update_shards` and `upload_packages` work on. */
  class ShardSync {
    /** `all_shards`: every known shard record, by key. */
    var allShards: map<Key, Shard>
    /** `shards_to_write`: the keys changed since the last batch commit. */
    var dirty: set<Key>
    /** The shard files in the working tree. */
    var tree: map<ShardPath, Shard>
    /** The git commands run so far. */
    var log: seq<GitEvent>
    /** How often the clock has been read and the remote pushed to. */
    var clockReads: nat
    var pushes: nat
    /** The loop variables `chunk_index` and `total_chunks`, which the final
        batch reads after its loops are over; `None` until first assigned. */
    var chunkIndex: Option<nat>
    var totalChunks: Option<nat>
    /** The records as they were loaded, or as they were when the current
        `update_shards` began. */
    ghost var loaded: map<Key, Shard>

    /** Every dirty key has a record, and every record changed since
        `loaded` is dirty or written to its current file. */
    ghost predicate Valid()
      reads this
    {
      Consistent(loaded, allShards, tree, dirty)
    }

    /** A dirty key exists only once the loop variables the next commit
        message needs have been assigned. */
    ghost predicate ContextSet()
      reads this
    {
      dirty != {} ==> chunkIndex.Some? && totalChunks.Some?
    }

    /** `main` reads the stored shards into `all_shards`; the reading lives in
        `shards.py`, so the records and the tree are given. */
    constructor (shards: map<Key, Shard>, files: map<ShardPath, Shard>)
      ensures allShards == shards && tree == files && log == []
      ensures dirty == {} && clockReads == 0 && pushes == 0
      ensures chunkIndex == None && totalChunks == None
      ensures loaded == shards && Valid()
    {
      allShards := shards;
      dirty := {};
      tree := files;
      log := [];
      clockReads := 0;
      pushes := 0;
      chunkIndex := None;
      totalChunks := None;
      loaded := shards;
    }

    /** Moves the first legacy copy of a shard to the current layout and
        takes its record from the file, or deletes that copy when the
        current file already exists. */
    method Migrate(k: Key)
      requires Valid()
      modifies this`allShards, this`dirty, this`tree, this`log
      ensures Valid()
      ensures LegacyCopy(old(tree), k).None? ==>
        allShards == old(allShards) && dirty == old(dirty) && tree == old(tree) && log == old(log)
      ensures LegacyCopy(old(tree), k).Some? && NewPath(k) !in old(tree) ==>
        var p := LegacyCopy(old(tree), k).value;
        allShards == old(allShards)[k := old(tree)[p]] && dirty == old(dirty) + {k}
        && tree == (old(tree) - {p})[NewPath(k) := old(tree)[p]] && log == old(log) + [Move(p, NewPath(k))]
      ensures LegacyCopy(old(tree), k).Some? && NewPath(k) in old(tree) ==>
        var p := LegacyCopy(old(tree), k).value;
        allShards == old(allShards) && dirty == old(dirty)
        && tree == old(tree) - {p} && log == old(log) + [Remove(p)]
    {
      var newPath := NewPath(k);
      var candidates := [ShardPath(Legacy, k), ShardPath(FourDirs, k)];
      for i := 0 to |candidates|
        invariant forall j | 0 <= j < i :: candidates[j] !in tree
        invariant allShards == old(allShards) && dirty == old(dirty) && tree == old(tree) && log == old(log)
      {
        var oldPath := candidates[i];
        if oldPath in tree {
          if i == 1 {
            assert candidates[0] !in tree;
          }
          assert LegacyCopy(tree, k) == Some(oldPath);
          if newPath !in tree {
            var moved := tree[oldPath];
            tree := (tree - {oldPath})[newPath := moved];
            log := log + [Move(oldPath, newPath)];
            dirty := dirty + {k};
            allShards := allShards[k := tree[newPath]];
          } else {
            tree := tree - {oldPath};
            log := log + [Remove(oldPath)];
          }
          return;
        }
      }
      assert candidates[0] !in tree && candidates[1] !in tree;
    }

    /** Merges the label into a known shard and canonicalises its URL,
        marking the key dirty when the record changes. */
    method ReconcileExisting(k: Key, labelName: string)
      requires Valid()
      requires k in allShards
      modifies this`allShards, this`dirty
      ensures Valid()
      ensures allShards == old(allShards)[k := Reconcile(old(allShards)[k], labelName, k)]
      ensures dirty == if MarksDirty(old(allShards)[k], labelName, k) then old(dirty) + {k} else old(dirty)
    {
      var shard := allShards[k];
      if labelName !in shard.labels {
        shard := shard.(labels := shard.labels + [labelName]);
        allShards := allShards[k := shard];
        dirty := dirty + {k};
      }
      var mainUrl := MainUrl(k);
      if labelName == "main" && shard.url != mainUrl && Contains(shard.url, Host) {
        shard := shard.(url := mainUrl);
        allShards := allShards[k := shard];
        dirty := dirty + {k};
      }
    }

    /** One package of a chunk: migrate, then either schedule a build (no
        record) or reconcile the record. */
    method PlanPackage(subdir: string, labelName: string, pkg: string) returns (scheduled: bool)
      requires Valid()
      modifies this`allShards, this`dirty, this`tree, this`log
      ensures Valid()
      ensures scheduled <==> PlannedRecord(old(allShards), old(tree), Key(subdir, pkg), labelName).None?
      ensures var r := PlannedRecord(old(allShards), old(tree), Key(subdir, pkg), labelName);
        allShards == if r.Some? then old(allShards)[Key(subdir, pkg) := r.value] else old(allShards)
      ensures dirty == if PlannedDirty(old(allShards), old(tree), Key(subdir, pkg), labelName)
                       then old(dirty) + {Key(subdir, pkg)} else old(dirty)
      ensures tree == MigratedTree(old(tree), Key(subdir, pkg))
      ensures log == old(log) + MigrationEvents(old(tree), Key(subdir, pkg))
    {
      var k := Key(subdir, pkg);
      Migrate(k);
      if k !in allShards {
        scheduled := true;
      } else {
        scheduled := false;
        ReconcileExisting(k, labelName);
      }
    }

    /** The package loop of one chunk: every package gets the record and the
        dirty flag of its turn, the packages left without a record become
        the chunk's builds, in order and once each, and `maxBytes` is the
        largest of their sizes. Keys of other packages are not touched. */
    method PlanChunk(subdir: string, labelName: string, chunk: seq<string>, sizes: map<string, nat>)
      returns (jobs: seq<string>, maxBytes: nat)
      requires Valid()
      requires NoDuplicates(chunk)
      requires forall p | p in chunk :: p in sizes
      modifies this`allShards, this`dirty, this`tree, this`log
      ensures Valid()
      ensures forall p | p in chunk :: PlanDone(old(allShards), old(tree), old(dirty), allShards, tree, dirty, subdir, labelName, p, jobs)
      ensures forall p | p in jobs :: p in chunk
      ensures NoDuplicates(jobs)
      ensures IsMaxSize(jobs, sizes, maxBytes)
      ensures Untouched(old(allShards), old(tree), old(dirty), allShards, tree, dirty, ChunkKeys(subdir, chunk))
      ensures old(log) <= log
    {
      jobs := [];
      maxBytes := 0;
      for i := 0 to |chunk|
        invariant Valid()
        invariant PlanProgress(old(allShards), old(tree), old(dirty), allShards, tree, dirty, subdir, labelName, chunk, i, jobs)
        invariant IsMaxSize(jobs, sizes, maxBytes)
        invariant old(log) <= log
      {
        var pkg := chunk[i];
        ghost var s1, t1, d1, jobs1 := allShards, tree, dirty, jobs;
        var scheduled := PlanPackage(subdir, labelName, pkg);
        if scheduled {
          MaxSizeAppend(jobs, sizes, maxBytes, pkg);
          maxBytes := Max(maxBytes, sizes[pkg]);
          jobs := jobs + [pkg];
        }
        PlanStep(old(allShards), old(tree), old(dirty), s1, t1, d1, allShards, tree, dirty,
                 subdir, labelName, chunk, i, jobs1, jobs);
      }
      assert chunk[..|chunk|] == chunk;
      forall p | p in chunk
        ensures PlanDone(old(allShards), old(tree), old(dirty), allShards, tree, dirty, subdir, labelName, p, jobs)
      {
        var j :| 0 <= j < |chunk| && chunk[j] == p;
      }
    }

    /** `joblib.Parallel(...)(jobs)`: every build of the chunk, in order;
        when a build raises, some raising job is reported and nothing is
        returned. */
    method BuildAll(subdir: string, labelName: string, jobs: seq<string>, world: World)
      returns (built: seq<Shard>, failed: Option<string>)
      ensures failed.None? ==> (|built| == |jobs|
        && forall i | 0 <= i < |jobs| :: BuildShard(world, subdir, jobs[i], labelName) == Some(built[i]))
      ensures failed.Some? ==> failed.value in jobs && BuildShard(world, subdir, failed.value, labelName).None?
    {
      built := [];
      for i := 0 to |jobs|
        invariant |built| == i
        invariant forall j | 0 <= j < i :: BuildShard(world, subdir, jobs[j], labelName) == Some(built[j])
      {
        var shard := BuildShard(world, subdir, jobs[i], labelName);
        if shard.None? {
          return [], Some(jobs[i]);
        }
        built := built + [shard.value];
      }
      failed := None;
    }

    /** Stores the built records under their own keys and marks them dirty. */
    method MergeAll(built: seq<Shard>)
      requires Valid()
      modifies this`allShards, this`dirty
      ensures Valid()
      ensures allShards == MergeBuilt(old(allShards), built)
      ensures dirty == old(dirty) + BuiltKeys(built)
    {
      for i := 0 to |built|
        invariant allShards == MergeBuilt(old(allShards), built[..i])
        invariant dirty == old(dirty) + BuiltKeys(built[..i])
      {
        var shard := built[i];
        MergeBuiltStep(old(allShards), built, i);
        allShards := allShards[KeyOf(shard) := shard];
        dirty := dirty + {KeyOf(shard)};
      }
      assert built[..|built|] == built;
      MergeConsistent(loaded, old(allShards), tree, old(dirty), built);
    }

    /** The chunk's builds: the worker count (which raises on a zero maximum
        size), then every build, then the records merged. A failing build
        leaves the state untouched. */
    method BuildChunk(subdir: string, labelName: string, jobs: seq<string>, maxBytes: nat, world: World)
      returns (built: seq<Shard>, err: Option<SyncError>)
      requires Valid()
      modifies this`allShards, this`dirty
      ensures Valid()
      ensures maxBytes == 0 ==> err == Some(ZeroDivision)
      ensures err.Some? ==> allShards == old(allShards) && dirty == old(dirty)
      ensures err.Some? && maxBytes > 0 ==>
        err.value.BuildFailed? && err.value.pkg in jobs && err.value.subdir == subdir
        && BuildShard(world, subdir, err.value.pkg, labelName).None?
      ensures err.None? ==> (|built| == |jobs|
        && forall i | 0 <= i < |jobs| :: BuildShard(world, subdir, jobs[i], labelName) == Some(built[i]))
      ensures err.None? ==> allShards == MergeBuilt(old(allShards), built)
      ensures err.None? ==> dirty == old(dirty) + BuiltKeys(built)
    {
      if NJobs(maxBytes).None? {
        return [], Some(ZeroDivision);
      }
      var failed;
      built, failed := BuildAll(subdir, labelName, jobs, world);
      if failed.Some? {
        return [], Some(BuildFailed(subdir, failed.value));
      }
      MergeAll(built);
      err := None;
    }

    /** `_write_shards`: writes and stages the current file of every dirty
        key, in some order (`order`, each dirty key once), then makes one
        commit. */
    method WriteShards(ctx: FlushContext) returns (ghost order: seq<Key>)
      requires Valid()
      modifies this`tree, this`log
      ensures Valid()
      ensures forall k :: k in order <==> k in dirty
      ensures Distinct(order)
      ensures tree == WithFiles(old(tree), allShards, order)
      ensures log == old(log) + Adds(order) + [Commit(CommitMessage(ctx))]
    {
      var rest := dirty;
      var files := tree;
      var events := log;
      order := [];
      while rest != {}
        invariant rest <= dirty && Distinct(order)
        invariant forall k :: k in order <==> k in dirty && k !in rest
        invariant files == WithFiles(tree, allShards, order)
        invariant events == log + Adds(order)
        decreases rest
      {
        var k :| k in rest;
        var path := NewPath(k);
        if k in allShards {
          files := files[path := allShards[k]];
        }
        events := events + [Add(path)];
        rest := rest - {k};
        assert (order + [k])[..|order|] == order;
        assert Adds(order + [k]) == Adds(order) + [Add(path)];
        order := order + [k];
      }
      SavedByWrite(loaded, allShards, tree, dirty, order);
      tree := files;
      log := events + [Commit(CommitMessage(ctx))];
    }

    /** `_push_repo` with its retries; a failure is swallowed by every caller. */
    method PushRepo(world: World)
      modifies this`log, this`pushes
      ensures log == old(log) + [Push(world.push(old(pushes)))]
      ensures pushes == old(pushes) + 1
    {
      log := log + [Push(world.push(pushes))];
      pushes := pushes + 1;
    }

    /** A batch: commit the dirty shards, forget them, push. Every record
        that was dirty is then in its current file. */
    method Flush(ctx: FlushContext, world: World) returns (ghost order: seq<Key>)
      requires Valid()
      modifies this`tree, this`log, this`dirty, this`pushes
      ensures Valid() && dirty == {}
      ensures forall k :: k in order <==> k in old(dirty)
      ensures Distinct(order)
      ensures tree == WithFiles(old(tree), allShards, order)
      ensures log == old(log) + Adds(order) + [Commit(CommitMessage(ctx)), Push(world.push(old(pushes)))]
      ensures pushes == old(pushes) + 1
    {
      order := WriteShards(ctx);
      SavedByWrite(loaded, allShards, old(tree), dirty, order);
      dirty := {};
      PushRepo(world);
    }

    /** The package loop of one chunk and its builds. `jobs` are the
        packages built, `built` their records. It raises only when there are
        builds: with a division by zero exactly when all of them have size 0,
        and otherwise naming a build that raises. Unless it raised, every
        package not built that no build overwrote has the record of its
        turn, which carries the label; every built key holds a record built
        for it; and every package of the chunk is on record. */
    method RunChunk(labelName: string, subdir: string, chunk: seq<string>, sizes: map<string, nat>, world: World)
      returns (err: Option<SyncError>, ghost jobs: seq<string>, ghost built: seq<Shard>)
      requires Valid()
      requires NoDuplicates(chunk)
      requires forall p | p in chunk :: p in sizes
      modifies this`allShards, this`dirty, this`tree, this`log
      ensures Valid()
      ensures Kept(old(allShards), old(tree), allShards, tree, world)
      ensures forall p | p in jobs :: p in chunk
      ensures forall p | p in chunk ::
        (p in jobs <==> PlannedRecord(old(allShards), old(tree), Key(subdir, p), labelName).None?)
      ensures err.None? ==> (|built| == |jobs|
        && forall i | 0 <= i < |jobs| :: BuildShard(world, subdir, jobs[i], labelName) == Some(built[i]))
      ensures err.None? ==>
        forall p | p in chunk && p !in jobs && Key(subdir, p) !in BuiltKeys(built) ::
          PlannedRecord(old(allShards), old(tree), Key(subdir, p), labelName).Some? && Key(subdir, p) in allShards
          && allShards[Key(subdir, p)] == PlannedRecord(old(allShards), old(tree), Key(subdir, p), labelName).value
      ensures err.None? ==> forall k | k in BuiltKeys(built) :: k in allShards && allShards[k] in built && KeyOf(allShards[k]) == k
      ensures err.None? ==>
        forall p | p in chunk && p !in jobs && Key(subdir, p) !in BuiltKeys(built) ::
          Key(subdir, p) in allShards && labelName in allShards[Key(subdir, p)].labels
      ensures err.None? ==> forall p | p in chunk :: OnRecord(allShards, tree, world, labelName, subdir, p)
      ensures forall p | p in chunk && PlannedDirty(old(allShards), old(tree), Key(subdir, p), labelName) :: Key(subdir, p) in dirty
      ensures err.None? ==> BuiltKeys(built) <= dirty
      ensures err.Some? ==> jobs != []
      ensures err == Some(ZeroDivision) <==> jobs != [] && forall p | p in jobs :: sizes[p] == 0
      ensures err.Some? && err != Some(ZeroDivision) ==>
        err.value.BuildFailed? && err.value.subdir == subdir && err.value.pkg in jobs
        && BuildShard(world, subdir, err.value.pkg, labelName).None?
      ensures (exists p | p in jobs :: sizes[p] > 0) && (forall p | p in jobs :: BuildShard(world, subdir, p, labelName).Some?)
        ==> err.None?
      ensures old(log) <= log
    {
      var planJobs, maxBytes := PlanChunk(subdir, labelName, chunk, sizes);
      jobs := planJobs;
      ghost var planned, plannedTree, plannedDirty := allShards, tree, dirty;
      PlanKept(old(allShards), old(tree), old(dirty), allShards, tree, dirty, subdir, labelName, chunk, jobs, world);
      built := [];
      if planJobs != [] {
        var records;
        records, err := BuildChunk(subdir, labelName, planJobs, maxBytes, world);
        if err.Some? {
          return;
        }
        built := records;
        BuildKept(planned, tree, subdir, labelName, jobs, built, world);
        KeptTrans(old(allShards), old(tree), planned, plannedTree, allShards, tree, world);
      }
      err := None;
      RunChunkOnRecord(old(allShards), old(tree), old(dirty), planned, tree, plannedDirty, allShards,
                       subdir, labelName, chunk, jobs, built, world);
      RunChunkPlanned(old(allShards), old(tree), old(dirty), planned, tree, plannedDirty, allShards,
                      subdir, labelName, chunk, jobs, built);
    }

    /** The checkpoint after a chunk: read the clock, flush when more than 64
        keys are dirty or the first reading is past the limit, and report
        whether the last reading is past the limit. As written the
        checkpoint consumes two readings; with `corrected`, one reading
        decides both. `order` is the keys flushed. */
    method AfterChunk(ctx: FlushContext, world: World, timeLimit: int, corrected: bool)
      returns (timeUp: bool, ghost order: seq<Key>)
      requires Valid()
      modifies this`tree, this`log, this`dirty, this`pushes, this`clockReads
      ensures Valid() && allShards == old(allShards)
      ensures clockReads == old(clockReads) + Readings(corrected)
      ensures timeUp == Decide(|old(dirty)|, world, old(clockReads), timeLimit, corrected).stop
      ensures Decide(|old(dirty)|, world, old(clockReads), timeLimit, corrected).flush ==>
        && (forall k :: k in order <==> k in old(dirty)) && Distinct(order)
        && tree == WithFiles(old(tree), allShards, order)
        && log == old(log) + Adds(order) + [Commit(CommitMessage(ctx)), Push(world.push(old(pushes)))]
        && dirty == {} && pushes == old(pushes) + 1
      ensures !Decide(|old(dirty)|, world, old(clockReads), timeLimit, corrected).flush ==>
        tree == old(tree) && log == old(log) && dirty == old(dirty) && pushes == old(pushes)
      ensures |dirty| <= FlushThreshold && old(log) <= log
      ensures timeUp ==> TimeStopped(world, clockReads, timeLimit, corrected, dirty, log)
    {
      var decision := Decide(|dirty|, world, clockReads, timeLimit, corrected);
      clockReads := clockReads + Readings(corrected);
      order := [];
      if decision.flush {
        order := Flush(ctx, world);
      }
      timeUp := decision.stop;
    }

    /** One chunk: run it, then the checkpoint. */
    method ProcessChunk(labelName: string, subdir: string, ci: nat, total: nat, chunk: seq<string>,
                        sizes: map<string, nat>, world: World, timeLimit: int, corrected: bool)
      returns (stop: Option<Outcome>)
      requires Valid() && totalChunks.Some?
      requires NoDuplicates(chunk)
      requires forall p | p in chunk :: p in sizes
      modifies this`allShards, this`dirty, this`tree, this`log, this`clockReads, this`pushes, this`chunkIndex
      ensures Valid() && ContextSet() && chunkIndex == Some(ci)
      ensures Kept(old(allShards), old(tree), allShards, tree, world)
      ensures stop.None? ==> |dirty| <= FlushThreshold
      ensures stop.None? ==> forall p | p in chunk :: OnRecord(allShards, tree, world, labelName, subdir, p)
      ensures stop.Some? ==> stop.value.TimeUp? || stop.value.Failed?
      ensures stop.Some? && stop.value.Failed? ==>
        clockReads == old(clockReads) && exists p | p in chunk :: Raises(world, labelName, subdir, sizes, p, stop.value.error)
      ensures (stop.None? || stop == Some(TimeUp)) ==>
        clockReads == old(clockReads) + Readings(corrected)
        && (stop == Some(TimeUp) <==> world.clock(clockReads - 1) > timeLimit)
      ensures Paced(world, old(clockReads), clockReads, timeLimit, corrected, stop == Some(TimeUp))
      ensures stop == Some(TimeUp) ==> TimeStopped(world, clockReads, timeLimit, corrected, dirty, log)
      ensures old(log) <= log
    {
      chunkIndex := Some(ci);
      var err, jobs, built := RunChunk(labelName, subdir, chunk, sizes, world);
      if err.Some? {
        RaisedInChunk(world, labelName, subdir, sizes, chunk, jobs, err.value);
        return Some(Failed(err.value));
      }
      ghost var ran, ranTree := allShards, tree;
      stop := ChunkCheckpoint(FlushContext(ci, total, labelName, subdir), chunk, world, timeLimit, corrected);
      KeptTrans(old(allShards), old(tree), ran, ranTree, allShards, tree, world);
    }

    /** The checkpoint after a chunk that ran through, as its chunk sees it:
        the chunk's packages stay on record, and the chunk stops on time
        exactly when the checkpoint's last reading is past the limit. */
    method ChunkCheckpoint(ctx: FlushContext, chunk: seq<string>, world: World, timeLimit: int, corrected: bool)
      returns (stop: Option<Outcome>)
      requires Valid()
      requires forall p | p in chunk :: OnRecord(allShards, tree, world, ctx.labelName, ctx.subdir, p)
      modifies this`tree, this`log, this`dirty, this`pushes, this`clockReads
      ensures Valid() && allShards == old(allShards)
      ensures Kept(old(allShards), old(tree), allShards, tree, world)
      ensures stop == None || stop == Some(TimeUp)
      ensures stop.None? ==> |dirty| <= FlushThreshold
      ensures forall p | p in chunk :: OnRecord(allShards, tree, world, ctx.labelName, ctx.subdir, p)
      ensures clockReads == old(clockReads) + Readings(corrected)
      ensures stop == Some(TimeUp) <==> world.clock(clockReads - 1) > timeLimit
      ensures Paced(world, old(clockReads), clockReads, timeLimit, corrected, stop == Some(TimeUp))
      ensures stop == Some(TimeUp) ==> TimeStopped(world, clockReads, timeLimit, corrected, dirty, log)
      ensures old(log) <= log
    {
      CheckpointPaced(world, clockReads, timeLimit, corrected);
      var timeUp, order := AfterChunk(ctx, world, timeLimit, corrected);
      KeptByWrite(allShards, old(tree), order, world);
      KeptOnRecord(old(allShards), old(tree), allShards, tree, world);
      stop := if timeUp then Some(TimeUp) else None;
    }

    /** `ProcessChunk` as the `ci`-th step of the chunk loop begun at clock
        reading `start`: the checkpoints so far stay paced, and a chunk that
        carries on is one more checkpoint. */
    method ClockedChunk(labelName: string, subdir: string, ci: nat, total: nat, chunk: seq<string>,
                        sizes: map<string, nat>, world: World, timeLimit: int, corrected: bool, ghost start: nat)
      returns (stop: Option<Outcome>)
      requires Valid() && totalChunks.Some?
      requires NoDuplicates(chunk)
      requires forall p | p in chunk :: p in sizes
      requires Clocked(world, start, clockReads, ci, timeLimit, corrected)
      modifies this`allShards, this`dirty, this`tree, this`log, this`clockReads, this`pushes, this`chunkIndex
      ensures Valid() && ContextSet()
      ensures Kept(old(allShards), old(tree), allShards, tree, world)
      ensures stop.None? ==> |dirty| <= FlushThreshold && Clocked(world, start, clockReads, ci + 1, timeLimit, corrected)
      ensures stop.None? ==> forall p | p in chunk :: OnRecord(allShards, tree, world, labelName, subdir, p)
      ensures stop.Some? ==> stop.value.TimeUp? || stop.value.Failed?
      ensures stop.Some? && stop.value.Failed? ==> exists p :: Raises(world, labelName, subdir, sizes, p, stop.value.error)
      ensures Paced(world, start, clockReads, timeLimit, corrected, stop == Some(TimeUp))
      ensures stop == Some(TimeUp) ==> TimeStopped(world, clockReads, timeLimit, corrected, dirty, log)
      ensures old(log) <= log
    {
      ghost var reads0 := clockReads;
      stop := ProcessChunk(labelName, subdir, ci, total, chunk, sizes, world, timeLimit, corrected);
      ClockedStep(world, start, reads0, clockReads, ci, timeLimit, corrected, stop == Some(TimeUp), stop.None?);
    }

    /** The chunk loop of one (label, subdir) pair. */
    method ProcessChunks(labelName: string, subdir: string, total: nat, chunks: seq<seq<string>>,
                         sizes: map<string, nat>, world: World, timeLimit: int, corrected: bool)
      returns (stop: Option<Outcome>)
      requires Valid() && ContextSet() && |dirty| <= FlushThreshold && totalChunks.Some?
      requires forall j | 0 <= j < |chunks| :: NoDuplicates(chunks[j])
      requires forall j, p | 0 <= j < |chunks| && p in chunks[j] :: p in sizes
      modifies this`allShards, this`dirty, this`tree, this`log, this`clockReads, this`pushes, this`chunkIndex
      ensures Valid() && ContextSet()
      ensures Kept(old(allShards), old(tree), allShards, tree, world)
      ensures stop.None? ==> |dirty| <= FlushThreshold
      ensures stop.None? ==>
        forall j, p | 0 <= j < |chunks| && p in chunks[j] :: OnRecord(allShards, tree, world, labelName, subdir, p)
      ensures stop.Some? ==> stop.value.TimeUp? || stop.value.Failed?
      ensures stop.Some? && stop.value.Failed? ==> exists p :: Raises(world, labelName, subdir, sizes, p, stop.value.error)
      ensures stop.None? ==> Clocked(world, old(clockReads), clockReads, |chunks|, timeLimit, corrected)
      ensures stop.None? ==> clockReads == old(clockReads) + CheckpointsReadings(|chunks|, corrected)
      ensures Paced(world, old(clockReads), clockReads, timeLimit, corrected, stop == Some(TimeUp))
      ensures stop == Some(TimeUp) ==> TimeStopped(world, clockReads, timeLimit, corrected, dirty, log)
      ensures old(log) <= log
    {
      ghost var recorded: set<string> := {};
      for ci := 0 to |chunks|
        invariant Valid() && ContextSet() && |dirty| <= FlushThreshold
        invariant Kept(old(allShards), old(tree), allShards, tree, world)
        invariant forall p | p in recorded :: OnRecord(allShards, tree, world, labelName, subdir, p)
        invariant forall j, p | 0 <= j < ci && p in chunks[j] :: p in recorded
        invariant Clocked(world, old(clockReads), clockReads, ci, timeLimit, corrected)
        invariant old(log) <= log
      {
        ghost var before, beforeTree := allShards, tree;
        stop := ClockedChunk(labelName, subdir, ci, total, chunks[ci], sizes, world, timeLimit, corrected, old(clockReads));
        KeptTrans(old(allShards), old(tree), before, beforeTree, allShards, tree, world);
        if stop.Some? {
          return;
        }
        KeptOnRecord(before, beforeTree, allShards, tree, world);
        recorded := recorded + set p | p in chunks[ci];
      }
      ClockedInTime(world, old(clockReads), clockReads, |chunks|, timeLimit, corrected);
      return None;
    }

    /** One (label, subdir) pair of `update_shards`: fetch the listing and
        process its sorted package names in chunks of 64. The chunk count
        the commit messages announce is the source's `len // 64 + 1`, or
        `ceil(len / 64)` when corrected. `None` means carry on with the next
        pair. */
    method ProcessSubdir(labelName: string, subdir: string, world: World, timeLimit: int, corrected: bool)
      returns (stop: Option<Outcome>)
      requires Valid() && ContextSet() && |dirty| <= FlushThreshold
      modifies this`allShards, this`dirty, this`tree, this`log, this`clockReads, this`pushes, this`chunkIndex, this`totalChunks
      ensures Valid() && ContextSet()
      ensures Kept(old(allShards), old(tree), allShards, tree, world)
      ensures stop.None? ==> |dirty| <= FlushThreshold
      ensures stop.None? && world.fetch(labelName, subdir).Some? ==>
        forall p | p in world.fetch(labelName, subdir).value :: OnRecord(allShards, tree, world, labelName, subdir, p)
      ensures world.fetch(labelName, subdir).None? ==>
        stop.None? && allShards == old(allShards) && dirty == old(dirty) && tree == old(tree) && log == old(log)
        && clockReads == old(clockReads)
      ensures world.fetch(labelName, subdir).Some? ==>
        var count := |world.fetch(labelName, subdir).value|;
        totalChunks == Some(if corrected then TotalChunks(count) else TotalChunksAsWritten(count))
      ensures stop.Some? ==> stop.value.TimeUp? || stop.value.Failed?
      ensures stop.Some? && stop.value.Failed? ==> FailedAt(world, labelName, subdir, stop.value.error)
      ensures stop.None? ==> Clocked(world, old(clockReads), clockReads, PairCheckpoints(world, labelName, subdir), timeLimit, corrected)
      ensures stop.None? ==> clockReads == old(clockReads) + CheckpointsReadings(PairCheckpoints(world, labelName, subdir), corrected)
      ensures Paced(world, old(clockReads), clockReads, timeLimit, corrected, stop == Some(TimeUp))
      ensures stop == Some(TimeUp) ==> TimeStopped(world, clockReads, timeLimit, corrected, dirty, log)
      ensures old(log) <= log
    {
      var fetched := world.fetch(labelName, subdir);
      if fetched.None? {
        return None;
      }
      var sizes := fetched.value;
      var chunks := ChunkListing(sizes);
      var total := if corrected then TotalChunks(|sizes|) else TotalChunksAsWritten(|sizes|);
      totalChunks := Some(total);
      forall j | 0 <= j < |chunks| ensures NoDuplicates(chunks[j]) {
        SortedNoDuplicates(chunks[j]);
      }
      stop := ProcessChunks(labelName, subdir, total, chunks, sizes, world, timeLimit, corrected);
      if stop.None? {
        forall p | p in sizes ensures OnRecord(allShards, tree, world, labelName, subdir, p) {
          var j :| 0 <= j < |chunks| && p in chunks[j];
        }
      }
    }

    /** An owned subdir of the subdir loop of one label, after `n`
        checkpoints since clock reading `start`, with the shards
        `startShards` and the tree `startTree` at the start of the loop;
        carrying on it has run `m`, its own checkpoints included. */
    method VisitSubdir(labelName: string, index: nat, world: World, timeLimit: int, corrected: bool, ghost indices: set<nat>,
                       ghost n: nat, ghost m: nat, ghost start: nat, ghost startShards: map<Key, Shard>, ghost startTree: map<ShardPath, Shard>)
      returns (stop: Option<Outcome>)
      requires index < |Subdirs| && m == n + PairCheckpoints(world, labelName, Subdirs[index])
      requires Valid() && ContextSet() && |dirty| <= FlushThreshold
      requires Kept(startShards, startTree, allShards, tree, world) && SubdirsOnRecord(indices, labelName, allShards, tree, world)
      requires Clocked(world, start, clockReads, n, timeLimit, corrected)
      modifies this`allShards, this`dirty, this`tree, this`log, this`clockReads, this`pushes, this`chunkIndex, this`totalChunks
      ensures Valid() && ContextSet()
      ensures Kept(startShards, startTree, allShards, tree, world)
      ensures stop.None? ==> |dirty| <= FlushThreshold && SubdirsOnRecord(indices + {index}, labelName, allShards, tree, world)
      ensures stop.None? ==> Clocked(world, start, clockReads, m, timeLimit, corrected)
      ensures stop.Some? ==> stop.value.TimeUp? || stop.value.Failed?
      ensures stop.Some? && stop.value.Failed? ==> FailedAt(world, labelName, Subdirs[index], stop.value.error)
      ensures Paced(world, start, clockReads, timeLimit, corrected, stop == Some(TimeUp))
      ensures stop == Some(TimeUp) ==> TimeStopped(world, clockReads, timeLimit, corrected, dirty, log)
      ensures old(log) <= log
    {
      ghost var before, beforeTree, reads0 := allShards, tree, clockReads;
      stop := ProcessSubdir(labelName, Subdirs[index], world, timeLimit, corrected);
      KeptTrans(startShards, startTree, before, beforeTree, allShards, tree, world);
      ClockedRun(world, start, reads0, clockReads, n, PairCheckpoints(world, labelName, Subdirs[index]), m, timeLimit, corrected,
                 stop == Some(TimeUp), stop.None?);
      if stop.None? {
        SubdirsOnRecordStep(indices, index, labelName, before, beforeTree, allShards, tree, world);
      }
    }

    /** The `index`-th step of the subdir loop of one label: a subdir the
        rank does not own is skipped, an owned one is visited and joins
        `indices`. */
    method LabelStep(labelName: string, rank: int, nRanks: nat, index: nat, world: World, timeLimit: int, corrected: bool,
                     ghost indices: set<nat>, ghost start: nat, ghost startShards: map<Key, Shard>, ghost startTree: map<ShardPath, Shard>)
      returns (stop: Option<Outcome>, ghost indices': set<nat>)
      requires nRanks >= 1 && index < |Subdirs|
      requires Valid() && ContextSet() && |dirty| <= FlushThreshold
      requires Kept(startShards, startTree, allShards, tree, world)
      requires SubdirsVisited(indices, index, rank, nRanks) && SubdirsOnRecord(indices, labelName, allShards, tree, world)
      requires Clocked(world, start, clockReads, LabelCheckpoints(world, labelName, rank, nRanks, index), timeLimit, corrected)
      modifies this`allShards, this`dirty, this`tree, this`log, this`clockReads, this`pushes, this`chunkIndex, this`totalChunks
      ensures Valid() && ContextSet()
      ensures Kept(startShards, startTree, allShards, tree, world)
      ensures SubdirsVisited(indices', index + 1, rank, nRanks)
      ensures stop.None? ==> |dirty| <= FlushThreshold && SubdirsOnRecord(indices', labelName, allShards, tree, world)
      ensures stop.None? ==>
        Clocked(world, start, clockReads, LabelCheckpoints(world, labelName, rank, nRanks, index + 1), timeLimit, corrected)
      ensures stop.Some? ==> stop.value.TimeUp? || stop.value.Failed?
      ensures stop.Some? && stop.value.Failed? ==> index in indices' && FailedAt(world, labelName, Subdirs[index], stop.value.error)
      ensures Paced(world, start, clockReads, timeLimit, corrected, stop == Some(TimeUp))
      ensures stop == Some(TimeUp) ==> TimeStopped(world, clockReads, timeLimit, corrected, dirty, log)
      ensures old(log) <= log
    {
      SubdirsVisitedStep(indices, index, rank, nRanks);
      ghost var n := LabelCheckpoints(world, labelName, rank, nRanks, index);
      if !OwnsSubdir(index, rank, nRanks) {
        assert LabelCheckpoints(world, labelName, rank, nRanks, index + 1) == n;
        ClockedInTime(world, start, clockReads, n, timeLimit, corrected);
        return None, indices;
      }
      stop := VisitSubdir(labelName, index, world, timeLimit, corrected, indices,
                          n, LabelCheckpoints(world, labelName, rank, nRanks, index + 1), start, startShards, startTree);
      indices' := indices + {index};
    }

    /** The subdir loop of one label: the subdirs this rank owns, in order.
        `indices` are the subdirs visited. */
    method ProcessLabel(labelName: string, rank: int, nRanks: nat, world: World, timeLimit: int, corrected: bool)
      returns (stop: Option<Outcome>, ghost indices: set<nat>)
      requires nRanks >= 1
      requires Valid() && ContextSet() && |dirty| <= FlushThreshold
      modifies this`allShards, this`dirty, this`tree, this`log, this`clockReads, this`pushes, this`chunkIndex, this`totalChunks
      ensures Valid() && ContextSet()
      ensures Kept(old(allShards), old(tree), allShards, tree, world)
      ensures stop.None? ==> |dirty| <= FlushThreshold
      ensures forall i | i in indices :: i < |Subdirs| && OwnsSubdir(i, rank, nRanks)
      ensures stop.None? ==> forall i | 0 <= i < |Subdirs| && OwnsSubdir(i, rank, nRanks) :: i in indices
      ensures stop.None? ==>
        forall i, p | i in indices && i < |Subdirs| && world.fetch(labelName, Subdirs[i]).Some?
                      && p in world.fetch(labelName, Subdirs[i]).value ::
          OnRecord(allShards, tree, world, labelName, Subdirs[i], p)
      ensures stop.Some? ==> stop.value.TimeUp? || stop.value.Failed?
      ensures stop.Some? && stop.value.Failed? ==>
        exists i | i in indices :: i < |Subdirs| && FailedAt(world, labelName, Subdirs[i], stop.value.error)
      ensures stop.None? ==>
        Clocked(world, old(clockReads), clockReads, LabelCheckpoints(world, labelName, rank, nRanks, |Subdirs|), timeLimit, corrected)
      ensures Paced(world, old(clockReads), clockReads, timeLimit, corrected, stop == Some(TimeUp))
      ensures stop == Some(TimeUp) ==> TimeStopped(world, clockReads, timeLimit, corrected, dirty, log)
      ensures old(log) <= log
    {
      indices := {};
      for index := 0 to |Subdirs|
        invariant Valid() && ContextSet() && |dirty| <= FlushThreshold
        invariant Kept(old(allShards), old(tree), allShards, tree, world)
        invariant SubdirsVisited(indices, index, rank, nRanks)
        invariant SubdirsOnRecord(indices, labelName, allShards, tree, world)
        invariant Clocked(world, old(clockReads), clockReads, LabelCheckpoints(world, labelName, rank, nRanks, index), timeLimit, corrected)
        invariant old(log) <= log
      {
        stop, indices := LabelStep(labelName, rank, nRanks, index, world, timeLimit, corrected,
                                   indices, old(clockReads), old(allShards), old(tree));
        if stop.Some? {
          if stop.value.Failed? {
            assert index in indices && FailedAt(world, labelName, Subdirs[index], stop.value.error);
          }
          return;
        }
      }
      ClockedInTime(world, old(clockReads), clockReads, LabelCheckpoints(world, labelName, rank, nRanks, |Subdirs|), timeLimit, corrected);
      stop := None;
    }

    /** The trailing batch of `update_shards`: when keys are still dirty,
        write, commit and push them, with the message made from the loop
        variables as the loops left them (the last label, the last subdir of
        the list, and the chunk index and count last assigned); otherwise
        do nothing. */
    method FinalBatch(lastLabel: string, world: World) returns (ghost order: seq<Key>)
      requires Valid() && ContextSet()
      modifies this`tree, this`log, this`dirty, this`pushes
      ensures Valid() && dirty == {} && allShards == old(allShards)
      ensures Kept(old(allShards), old(tree), allShards, tree, world)
      ensures old(dirty) == {} ==> tree == old(tree) && log == old(log) && pushes == old(pushes)
      ensures old(dirty) != {} ==>
        && (forall k :: k in order <==> k in old(dirty)) && Distinct(order)
        && tree == WithFiles(old(tree), allShards, order)
        && log == old(log) + Adds(order)
             + [Commit(CommitMessage(FlushContext(chunkIndex.value, totalChunks.value, lastLabel, Subdirs[|Subdirs| - 1]))),
                Push(world.push(old(pushes)))]
        && pushes == old(pushes) + 1
    {
      order := [];
      if dirty != {} {
        var ctx := FlushContext(chunkIndex.value, totalChunks.value, lastLabel, Subdirs[|Subdirs| - 1]);
        order := Flush(ctx, world);
      }
      KeptByWrite(allShards, old(tree), order, world);
    }

    /** The label loop of `update_shards`: every label in order, and in
        each the subdirs this rank owns. `visited` are the (label, subdir
        index) pairs processed. */
    method ProcessLabels(labels: seq<string>, rank: int, nRanks: nat, world: World, timeLimit: int, corrected: bool)
      returns (stop: Option<Outcome>, ghost visited: set<(string, nat)>)
      requires nRanks >= 1
      requires Valid() && ContextSet() && |dirty| <= FlushThreshold
      modifies this`allShards, this`dirty, this`tree, this`log, this`clockReads, this`pushes, this`chunkIndex, this`totalChunks
      ensures Valid() && ContextSet()
      ensures Kept(old(allShards), old(tree), allShards, tree, world)
      ensures VisitedWithin(visited, labels, rank, nRanks)
      ensures stop.None? ==> VisitedAll(visited, labels, rank, nRanks) && VisitedOnRecord(visited, allShards, tree, world)
      ensures stop.Some? ==> stop.value.TimeUp? || stop.value.Failed?
      ensures stop.Some? && stop.value.Failed? ==> FailedIn(world, visited, stop.value.error)
      ensures stop.None? ==> Clocked(world, old(clockReads), clockReads, RunCheckpoints(world, labels, rank, nRanks), timeLimit, corrected)
      ensures Paced(world, old(clockReads), clockReads, timeLimit, corrected, stop == Some(TimeUp))
      ensures stop == Some(TimeUp) ==> TimeStopped(world, clockReads, timeLimit, corrected, dirty, log)
      ensures old(log) <= log
    {
      visited := {};
      for li := 0 to |labels|
        invariant Valid() && ContextSet() && |dirty| <= FlushThreshold
        invariant Kept(old(allShards), old(tree), allShards, tree, world)
        invariant VisitedWithin(visited, labels[..li], rank, nRanks) && VisitedAll(visited, labels[..li], rank, nRanks)
        invariant VisitedOnRecord(visited, allShards, tree, world)
        invariant Clocked(world, old(clockReads), clockReads, RunCheckpoints(world, labels[..li], rank, nRanks), timeLimit, corrected)
        invariant old(log) <= log
      {
        ghost var before, beforeTree, reads0 := allShards, tree, clockReads;
        ghost var indices;
        stop, indices := ProcessLabel(labels[li], rank, nRanks, world, timeLimit, corrected);
        KeptTrans(old(allShards), old(tree), before, beforeTree, allShards, tree, world);
        assert labels[..li + 1][..li] == labels[..li];
        ClockedRun(world, old(clockReads), reads0, clockReads, RunCheckpoints(world, labels[..li], rank, nRanks),
                   LabelCheckpoints(world, labels[li], rank, nRanks, |Subdirs|), RunCheckpoints(world, labels[..li + 1], rank, nRanks),
                   timeLimit, corrected, stop == Some(TimeUp), stop.None?);
        VisitedStep(visited, labels, li, indices, rank, nRanks, world, before, beforeTree, allShards, tree, stop.None?);
        visited := visited + set i | i in indices :: (labels[li], i);
        if stop.Some? {
          if stop.value.Failed? {
            ghost var i :| i in indices && i < |Subdirs| && FailedAt(world, labels[li], Subdirs[i], stop.value.error);
            assert (labels[li], i) in visited;
          }
          VisitedWithinGrows(visited, labels[..li + 1], labels, rank, nRanks);
          return;
        }
      }
      assert labels[..|labels|] == labels;
      ClockedInTime(world, old(clockReads), clockReads, RunCheckpoints(world, labels, rank, nRanks), timeLimit, corrected);
      stop := None;
    }

    /** The end of a completed `update_shards`: the trailing batch, after
        which the packages on record for `visited` still are, and nothing
        is lost since the shards `start` and the tree `startTree`. */
    method CompleteRun(lastLabel: string, world: World, ghost visited: set<(string, nat)>,
                       ghost start: map<Key, Shard>, ghost startTree: map<ShardPath, Shard>)
      requires Valid() && ContextSet()
      requires Kept(start, startTree, allShards, tree, world) && VisitedOnRecord(visited, allShards, tree, world)
      modifies this`tree, this`log, this`dirty, this`pushes
      ensures Valid() && dirty == {} && allShards == old(allShards)
      ensures Kept(start, startTree, allShards, tree, world) && VisitedOnRecord(visited, allShards, tree, world)
      ensures old(log) <= log
    {
      ghost var order := FinalBatch(lastLabel, world);
      KeptTrans(start, startTree, old(allShards), old(tree), allShards, tree, world);
      VisitedOnRecordKept(visited, old(allShards), old(tree), allShards, tree, world);
    }

    /** The label loop of `update_shards` with what its clock readings tell. */
    method TimedLabels(labels: seq<string>, rank: int, nRanks: nat, world: World, timeLimit: int, corrected: bool)
      returns (stop: Option<Outcome>, ghost visited: set<(string, nat)>)
      requires nRanks >= 1
      requires Valid() && ContextSet() && |dirty| <= FlushThreshold
      modifies this`allShards, this`dirty, this`tree, this`log, this`clockReads, this`pushes, this`chunkIndex, this`totalChunks
      ensures Valid() && ContextSet()
      ensures Kept(old(allShards), old(tree), allShards, tree, world)
      ensures VisitedWithin(visited, labels, rank, nRanks)
      ensures stop.None? ==> VisitedAll(visited, labels, rank, nRanks) && VisitedOnRecord(visited, allShards, tree, world)
      ensures stop.Some? ==> stop.value.TimeUp? || stop.value.Failed?
      ensures stop.Some? && stop.value.Failed? ==> FailedIn(world, visited, stop.value.error)
      ensures stop.None? ==> clockReads == old(clockReads) + CheckpointsReadings(RunCheckpoints(world, labels, rank, nRanks), corrected)
      ensures stop.None? && RunCheckpoints(world, labels, rank, nRanks) > 0 ==>
        world.clock(old(clockReads) + Readings(corrected) - 1) <= timeLimit
      ensures stop == Some(TimeUp) && world.clock(old(clockReads) + Readings(corrected) - 1) > timeLimit ==>
        clockReads == old(clockReads) + Readings(corrected)
      ensures Paced(world, old(clockReads), clockReads, timeLimit, corrected, stop == Some(TimeUp))
      ensures stop == Some(TimeUp) ==> TimeStopped(world, clockReads, timeLimit, corrected, dirty, log)
      ensures old(log) <= log
    {
      stop, visited := ProcessLabels(labels, rank, nRanks, world, timeLimit, corrected);
      RunClock(world, old(clockReads), clockReads, RunCheckpoints(world, labels, rank, nRanks), timeLimit, corrected,
               stop == Some(TimeUp), stop.None?);
    }

    /** `update_shards`: the label loop, then a last batch for the keys
        still dirty. Returns `TimeUp` for the source's `True`, `Completed`
        for its `False`. `corrected` runs the checkpoint with one clock
        reading and announces `ceil(len / 64)` chunks; otherwise both are as
        the source has them. Every record that differs from the records at
        the start is still dirty or on disk, and on completion nothing is
        dirty. It stops at the first checkpoint whose last reading is past
        the limit, and fails only on a visited listing with a package whose
        build raises or whose size is 0. */
    method UpdateShards(labels: seq<string>, rank: int, nRanks: nat, world: World, timeLimit: int, corrected: bool)
      returns (outcome: Outcome, ghost visited: set<(string, nat)>)
      requires nRanks >= 1
      modifies this
      ensures Valid() && loaded == old(allShards)
      ensures Saved(old(allShards), allShards, tree, dirty)
      ensures Kept(old(allShards), old(tree), allShards, tree, world)
      ensures outcome.Completed? ==> dirty == {}
      ensures outcome.TimeUp? ==> TimeStopped(world, clockReads, timeLimit, corrected, dirty, log)
      ensures VisitedWithin(visited, labels, rank, nRanks)
      ensures outcome.Completed? ==> VisitedAll(visited, labels, rank, nRanks)
      ensures outcome.Completed? ==> VisitedOnRecord(visited, allShards, tree, world)
      ensures outcome.Failed? ==> FailedIn(world, visited, outcome.error)
      ensures outcome.Completed? ==>
        clockReads == old(clockReads) + CheckpointsReadings(RunCheckpoints(world, labels, rank, nRanks), corrected)
      ensures Paced(world, old(clockReads), clockReads, timeLimit, corrected, outcome.TimeUp?)
      ensures outcome.Completed? && RunCheckpoints(world, labels, rank, nRanks) > 0 ==>
        world.clock(old(clockReads) + Readings(corrected) - 1) <= timeLimit
      ensures outcome.TimeUp? && world.clock(old(clockReads) + Readings(corrected) - 1) > timeLimit ==>
        clockReads == old(clockReads) + Readings(corrected)
      ensures old(log) <= log
    {
      dirty := {};
      chunkIndex := None;
      totalChunks := None;
      loaded := allShards;
      ghost var start, startTree := allShards, tree;
      var stop;
      stop, visited := TimedLabels(labels, rank, nRanks, world, timeLimit, corrected);
      if stop.Some? {
        outcome := stop.value;
        return;
      }
      var lastLabel := if labels == [] then "" else labels[|labels| - 1];
      CompleteRun(lastLabel, world, visited, start, startTree);
      outcome := Completed;
    }

    /** `upload_packages`: visits every record in some order; a selected
        record is re-hosted (`rehost` gives the new URL, `None` when
        `_make_release` raises), written to its current file, committed and
        pushed; the loop stops once `maxWrite` records are written. `order`
        is the keys written, in order. */
    method UploadPackages(rank: int, nRanks: nat, maxWrite: int, digest0: Key -> nat,
                          rehost: (Key, Shard) -> Option<string>, world: World)
      returns (numWritten: nat, err: Option<SyncError>, ghost order: seq<Key>)
      requires nRanks >= 1
      modifies this`allShards, this`tree, this`log, this`pushes
      ensures Distinct(order) && |order| == numWritten <= Max(maxWrite, 1)
      ensures forall i | 0 <= i < |order| :: Uploadable(order[i], old(allShards), rank, nRanks, digest0, rehost)
      ensures allShards == Rehosted(old(allShards), order, rehost)
      ensures tree == WithFiles(old(tree), allShards, order)
      ensures log == old(log) + UploadEvents(order, old(pushes), world)
      ensures pushes == old(pushes) + numWritten
      ensures err.None? && numWritten < maxWrite ==>
        forall k | k in old(allShards) && Selected(k, old(allShards)[k], rank, nRanks, digest0) :: k in order
      ensures err.Some? ==> (err.value.ReleaseFailed? && err.value.key !in order
        && err.value.key in old(allShards) && Selected(err.value.key, old(allShards)[err.value.key], rank, nRanks, digest0)
        && rehost(err.value.key, old(allShards)[err.value.key]).None?)
    {
      var st;
      st, numWritten, err, order := UploadLoop(Written(allShards, tree, log, pushes), rank, nRanks, maxWrite, digest0, rehost, world);
      ReplaySpec(Written(allShards, tree, log, pushes), order, rehost, world);
      allShards, tree, log, pushes := st.records, st.files, st.events, st.pushes;
    }
  }
}

=== FILE: text.dfy ===
/** String helpers shared by the model: substring search, Python's string
    ordering (by code point), sorting a set of strings, and the two
    `str.split` / `str.rsplit(sep, 1)` forms that `split_pkg` relies on. */
module Text {

  /** `sub in s` for Python strings: `sub` is a prefix of `s` or occurs in
      its tail. */
  predicate Contains(s: string, sub: string)
    decreases |s|
  {
    StartsWith(s, sub) || (|s| > 0 && Contains(s[1..], sub))
  }

  predicate StartsWith(s: string, prefix: string)
  {
    |prefix| <= |s| && s[..|prefix|] == prefix
  }

  /** `sub` occurs in `s` starting at position `i`. */
  predicate OccursAt(s: string, sub: string, i: nat)
  {
    i + |sub| <= |s| && s[i..i + |sub|] == sub
  }

  /** `sub` is found in `s` exactly when it occurs at some position. */
  lemma {:induction false} ContainsAt(s: string, sub: string)
    ensures Contains(s, sub) <==> exists i: nat | i <= |s| :: OccursAt(s, sub, i)
    decreases |s|
  {
    if |s| > 0 {
      ContainsAt(s[1..], sub);
      if Contains(s[1..], sub) {
        var i: nat :| i <= |s[1..]| && OccursAt(s[1..], sub, i);
        assert s[i + 1..i + 1 + |sub|] == s[1..][i..i + |sub|];
        assert OccursAt(s, sub, i + 1);
      }
      if exists i: nat | i <= |s| :: OccursAt(s, sub, i) {
        var i: nat :| i <= |s| && OccursAt(s, sub, i);
        if i > 0 {
          assert s[1..][i - 1..i - 1 + |sub|] == s[i..i + |sub|];
          assert OccursAt(s[1..], sub, i - 1);
        } else {
          assert s[..|sub|] == s[0..|sub|];
        }
      }
      if StartsWith(s, sub) {
        assert OccursAt(s, sub, 0);
      }
    } else {
      if exists i: nat | i <= |s| :: OccursAt(s, sub, i) {
        assert OccursAt(s, sub, 0);
        assert s[..|sub|] == s[0..|sub|];
      }
      if StartsWith(s, sub) {
        assert OccursAt(s, sub, 0);
      }
    }
  }

  /** `s` contains `sub` wherever it sits inside a larger string. */
  lemma ContainsInfix(a: string, s: string, b: string, sub: string)
    requires Contains(s, sub)
    ensures Contains(a + s + b, sub)
  {
    ContainsAt(s, sub);
    ContainsAt(a + s + b, sub);
    var i: nat :| i <= |s| && OccursAt(s, sub, i);
    assert (a + s + b)[|a| + i..|a| + i + |sub|] == s[i..i + |sub|];
    assert OccursAt(a + s + b, sub, |a| + i);
  }

  predicate EndsWith(s: string, suffix: string)
  {
    |suffix| <= |s| && s[|s| - |suffix|..] == suffix
  }

  // ---------------------------------------------------------------------
  // Python's `<` on str: lexicographic by code point.

  predicate StrLt(a: string, b: string)
  {
    if |a| == 0 then |b| > 0
    else if |b| == 0 then false
    else if a[0] != b[0] then a[0] < b[0]
    else StrLt(a[1..], b[1..])
  }

  lemma {:induction false} StrLtIrreflexive(a: string)
    ensures !StrLt(a, a)
  {
    if |a| > 0 {
      StrLtIrreflexive(a[1..]);
    }
  }

  lemma {:induction false} StrLtAsymmetric(a: string, b: string)
    requires StrLt(a, b)
    ensures !StrLt(b, a)
  {
    if |a| > 0 && |b| > 0 && a[0] == b[0] {
      StrLtAsymmetric(a[1..], b[1..]);
    }
  }

  lemma {:induction false} StrLtTransitive(a: string, b: string, c: string)
    requires StrLt(a, b) && StrLt(b, c)
    ensures StrLt(a, c)
  {
    if |a| > 0 && |b| > 0 && |c| > 0 && a[0] == b[0] && b[0] == c[0] {
      StrLtTransitive(a[1..], b[1..], c[1..]);
    }
  }

  lemma {:induction false} StrLtTotal(a: string, b: string)
    requires a != b
    ensures StrLt(a, b) || StrLt(b, a)
  {
    if |a| > 0 && |b| > 0 && a[0] == b[0] {
      assert a == [a[0]] + a[1..] && b == [b[0]] + b[1..];
      StrLtTotal(a[1..], b[1..]);
    }
  }

  /** Strictly increasing under Python's string order (so also free of duplicates). */
  predicate StrictlySorted(s: seq<string>)
  {
    forall i, j :: 0 <= i < j < |s| ==> StrLt(s[i], s[j])
  }

  /** `m` is the smallest string of `s`. */
  predicate IsLeast(m: string, s: set<string>)
  {
    m in s && forall y | y in s && y != m :: StrLt(m, y)
  }

  /** Every non-empty finite set of strings has a smallest element. */
  lemma {:induction false} LeastExists(s: set<string>)
    requires s != {}
    ensures exists m :: IsLeast(m, s)
    decreases |s|
  {
    var x :| x in s;
    if s != {x} {
      LeastExists(s - {x});
      var m :| IsLeast(m, s - {x});
      if StrLt(x, m) {
        forall y | y in s && y != x ensures StrLt(x, y) {
          if y != m {
            StrLtTransitive(x, m, y);
          }
        }
        assert IsLeast(x, s);
      } else {
        StrLtTotal(x, m);
        assert IsLeast(m, s);
      }
    } else {
      assert IsLeast(x, s);
    }
  }

  lemma LeastUnique(s: set<string>)
    ensures forall m, m' | IsLeast(m, s) && IsLeast(m', s) :: m == m'
  {
    forall m, m' | IsLeast(m, s) && IsLeast(m', s) ensures m == m' {
      if m != m' {
        StrLtAsymmetric(m, m');
      }
    }
  }

  /** Python's `sorted()` of a set of distinct strings: its elements in
      increasing order. */
  function SortedSet(s: set<string>): (r: seq<string>)
    ensures StrictlySorted(r)
    ensures forall x :: x in r <==> x in s
    ensures |r| == |s|
    decreases |s|
  {
    if s == {} then []
    else
      LeastExists(s);
      LeastUnique(s);
      var m :| IsLeast(m, s);
      var rest := SortedSet(s - {m});
      forall j | 0 <= j < |rest| ensures StrLt(m, rest[j]) {
        assert rest[j] in s - {m};
      }
      ConsSorted(m, rest);
      [m] + rest
  }

  /** A string below every element of a sorted sequence can go in front. */
  lemma ConsSorted(m: string, rest: seq<string>)
    requires StrictlySorted(rest)
    requires forall j | 0 <= j < |rest| :: StrLt(m, rest[j])
    ensures StrictlySorted([m] + rest)
  {
    var r := [m] + rest;
    forall i, j | 0 <= i < j < |r| ensures StrLt(r[i], r[j]) {
      assert r[j] == rest[j - 1];
      if i > 0 {
        assert r[i] == rest[i - 1];
      }
    }
  }

  // ---------------------------------------------------------------------
  // `str.split(sep)` and `str.rsplit(sep, 1)`.

  /** Joins `parts` with `c` between consecutive parts (Python's `c.join(parts)`). */
  function JoinWith(parts: seq<string>, c: char): string
  {
    if |parts| == 0 then ""
    else if |parts| == 1 then parts[0]
    else parts[0] + [c] + JoinWith(parts[1..], c)
  }

  /** Python's `s.split(c)` for a one-character separator. */
  function Split(s: string, c: char): (r: seq<string>)
    ensures |r| >= 1
    ensures JoinWith(r, c) == s
    ensures forall i | 0 <= i < |r| :: c !in r[i]
    decreases |s|
  {
    if c !in s then [s]
    else
      var i := IndexOf(s, c);
      assert s == s[..i] + [c] + s[i + 1..];
      [s[..i]] + Split(s[i + 1..], c)
  }

  /** The first position of `c` in `s`. */
  function IndexOf(s: string, c: char): (i: nat)
    requires c in s
    ensures i < |s| && s[i] == c && c !in s[..i]
  {
    if s[0] == c then 0 else IndexOf(s[1..], c) + 1
  }

  /** The last position of `c` in `s`. */
  function LastIndexOf(s: string, c: char): (i: nat)
    requires c in s
    ensures i < |s| && s[i] == c && c !in s[i + 1..]
  {
    if s[|s| - 1] == c then |s| - 1 else LastIndexOf(s[..|s| - 1], c)
  }

  /** Python's `s.rsplit(c, 1)`: one part when `c` is absent, otherwise the parts
      before and after the last `c`. */
  function RSplitOnce(s: string, c: char): (r: seq<string>)
    ensures 1 <= |r| <= 2
    ensures |r| == 1 <==> c !in s
    ensures |r| == 1 ==> r[0] == s
    ensures |r| == 2 ==> r[0] + [c] + r[1] == s && c !in r[1]
  {
    if c !in s then [s]
    else
      var i := LastIndexOf(s, c);
      assert s == s[..i] + [c] + s[i + 1..];
      [s[..i], s[i + 1..]]
  }

  lemma {:induction false} SplitTwo(p: string, q: string, c: char)
    requires c !in p && c !in q
    ensures Split(p + [c] + q, c) == [p, q]
  {
    var s := p + [c] + q;
    assert s[|p|] == c;
    var i := IndexOf(s, c);
    assert s[..i] == p;
    assert s[i + 1..] == q;
  }

  lemma {:induction false} RSplitOnceJoin(p: string, q: string, c: char)
    requires c !in q
    ensures RSplitOnce(p + [c] + q, c) == [p, q]
  {
    var s := p + [c] + q;
    assert s[|p|] == c;
    var i := LastIndexOf(s, c);
    assert s[..i] == p;
    assert s[i + 1..] == q;
  }

  // ---------------------------------------------------------------------
  // Decimal rendering of a natural number (Python's `f"{n}"` for n >= 0).

  function NatToString(n: nat): (r: string)
    ensures |r| >= 1
    ensures forall i | 0 <= i < |r| :: '0' <= r[i] <= '9'
  {
    if n < 10 then [Digit(n)] else NatToString(n / 10) + [Digit(n % 10)]
  }

  function Digit(d: nat): (c: char)
    requires d < 10
    ensures '0' <= c <= '9'
  {
    ['0', '1', '2', '3', '4', '5', '6', '7', '8', '9'][d]
  }
}

=== FILE: utils.dfy ===
/** The two helpers of `repodata_tools/utils.py` that the sync engine uses:
    `split_pkg`, which takes a `subdir/name-version-build.tar.bz2` path apart,
    and `chunk_iterable`, which cuts a sequence into fixed-size chunks. */
module Utils {
  import opened Wrappers
  import opened Text
  import opened Arith

  // ---------------------------------------------------------------------
  // split_pkg

  /** The four fields `split_pkg` returns. */
  datatype PkgParts = PkgParts(plat: string, name: string, version: string, build: string)

  /** Why `split_pkg` raises: a `RuntimeError` for the wrong extension, a
      `ValueError` from tuple unpacking otherwise. */
  datatype SplitError =
    | NotTarBz2           // the name does not end in ".tar.bz2"
    | NotTwoPathParts     // the stem does not split into exactly `plat/pkg_name`
    | NoBuildSeparator    // `pkg_name` has no '-'
    | NoVersionSeparator  // `name_ver` has no '-'

  const Extension := ".tar.bz2"

  /** The file name that a set of parts stands for. */
  function JoinPkg(p: PkgParts): string
  {
    p.plat + "/" + (p.name + "-" + p.version + "-" + p.build) + Extension
  }

  /** Parts `split_pkg` can return: no path separator anywhere, and no '-' in
      the version or the build (the name may contain '-'). */
  predicate WellFormed(p: PkgParts)
  {
    '/' !in p.plat && '/' !in p.name && '/' !in p.version && '/' !in p.build &&
    '-' !in p.version && '-' !in p.build
  }

  function SplitPkg(pkg: string): (r: Result<PkgParts, SplitError>)
    ensures !EndsWith(pkg, Extension) <==> r == Err(NotTarBz2)
    ensures r.Ok? ==> WellFormed(r.value) && JoinPkg(r.value) == pkg
  {
    if !EndsWith(pkg, Extension) then Err(NotTarBz2)
    else
      var stem := pkg[..|pkg| - |Extension|];
      StemExtension(pkg);
      SplitStem(stem)
  }

  /** A name ending in the extension is its stem followed by the extension. */
  lemma StemExtension(pkg: string)
    requires EndsWith(pkg, Extension)
    ensures pkg[..|pkg| - |Extension|] + Extension == pkg
  {
    assert pkg == pkg[..|pkg| - |Extension|] + pkg[|pkg| - |Extension|..];
  }

  /** `split_pkg` after the extension has been cut off. */
  function SplitStem(stem: string): (r: Result<PkgParts, SplitError>)
    ensures r.Ok? ==> WellFormed(r.value) && JoinPkg(r.value) == stem + Extension
    ensures r != Err(NotTarBz2)
  {
    var parts := Split(stem, '/');
    if |parts| != 2 then Err(NotTwoPathParts)
    else
      assert stem == parts[0] + "/" + parts[1];
      var nameVerBuild := RSplitOnce(parts[1], '-');
      if |nameVerBuild| != 2 then Err(NoBuildSeparator)
      else
        var nameVer := RSplitOnce(nameVerBuild[0], '-');
        if |nameVer| != 2 then Err(NoVersionSeparator)
        else
          var r := PkgParts(parts[0], nameVer[0], nameVer[1], nameVerBuild[1]);
          SplitPieces(parts[1], nameVer[0], nameVer[1], nameVerBuild[1]);
          Ok(r)
  }

  /** No '/' in `name-version-build` means none in any of its pieces. */
  lemma SplitPieces(whole: string, name: string, version: string, build: string)
    requires whole == name + "-" + version + "-" + build && '/' !in whole
    ensures '/' !in name && '/' !in version && '/' !in build
  {
  }

  /** Joining well-formed parts and splitting the result gives the parts back. */
  lemma SplitPkgJoin(p: PkgParts)
    requires WellFormed(p)
    ensures SplitPkg(JoinPkg(p)) == Ok(p)
  {
    var stem := p.plat + "/" + (p.name + "-" + p.version + "-" + p.build);
    assert JoinPkg(p) == stem + Extension;
    assert JoinPkg(p)[|JoinPkg(p)| - |Extension|..] == Extension;
    assert JoinPkg(p)[..|JoinPkg(p)| - |Extension|] == stem;
    SplitStemJoin(p);
  }

  /** The same without the extension: the stem of well-formed parts splits
      back into them. */
  lemma SplitStemJoin(p: PkgParts)
    requires WellFormed(p)
    ensures SplitStem(p.plat + "/" + (p.name + "-" + p.version + "-" + p.build)) == Ok(p)
  {
    var nameVer := p.name + "-" + p.version;
    var nameVerBuild := nameVer + "-" + p.build;
    assert p.name + "-" + p.version + "-" + p.build == nameVerBuild;
    assert '/' !in nameVerBuild;
    SplitTwo(p.plat, nameVerBuild, '/');
    RSplitOnceJoin(nameVer, p.build, '-');
    RSplitOnceJoin(p.name, p.version, '-');
  }

  /** `split_pkg` succeeds exactly on the names built from well-formed parts,
      and then returns those parts (which are therefore unique). */
  lemma SplitPkgSucceedsIff(pkg: string, p: PkgParts)
    ensures SplitPkg(pkg) == Ok(p) <==> WellFormed(p) && JoinPkg(p) == pkg
  {
    if WellFormed(p) && JoinPkg(p) == pkg {
      SplitPkgJoin(p);
    }
  }

  // ---------------------------------------------------------------------
  // chunk_iterable

  /** The chunks `chunk_iterable` yields for a chunk size `k >= 1`: full chunks
      of `k` items, then the remainder if any. */
  function Chunks<T>(s: seq<T>, k: nat): seq<seq<T>>
    requires k >= 1
    decreases |s|
  {
    if |s| == 0 then []
    else if |s| <= k then [s]
    else [s[..k]] + Chunks(s[k..], k)
  }

  function Flatten<T>(ss: seq<seq<T>>): seq<T>
  {
    if |ss| == 0 then [] else ss[0] + Flatten(ss[1..])
  }

  /** A chunk of exactly `k` items is followed by the chunks of the rest. */
  lemma ChunksFull<T>(s: seq<T>, k: nat)
    requires k >= 1 && |s| >= k
    ensures Chunks(s, k) == [s[..k]] + Chunks(s[k..], k)
  {
    if |s| == k {
      assert s[..k] == s;
    }
  }

  /** Concatenating the chunks gives back the input, in order. */
  lemma {:induction false} ChunksFlatten<T>(s: seq<T>, k: nat)
    requires k >= 1
    ensures Flatten(Chunks(s, k)) == s
    decreases |s|
  {
    if |s| > k {
      ChunksFlatten(s[k..], k);
      assert s == s[..k] + s[k..];
    }
  }

  /** Every chunk is non-empty and holds at most `k` items; every chunk but the
      last holds exactly `k`. */
  lemma {:induction false} ChunksShape<T>(s: seq<T>, k: nat)
    requires k >= 1
    ensures forall i | 0 <= i < |Chunks(s, k)| :: 0 < |Chunks(s, k)[i]| <= k
    ensures forall i | 0 <= i < |Chunks(s, k)| - 1 :: |Chunks(s, k)[i]| == k
    decreases |s|
  {
    if |s| > k {
      ChunksShape(s[k..], k);
      var r := Chunks(s, k);
      assert forall i | 1 <= i < |r| :: r[i] == Chunks(s[k..], k)[i - 1];
    }
  }

  /** An item is in the input exactly when it is in one of the chunks. */
  lemma {:induction false} ChunksMembers<T>(s: seq<T>, k: nat)
    requires k >= 1
    ensures forall i, x | 0 <= i < |Chunks(s, k)| && x in Chunks(s, k)[i] :: x in s
    ensures forall x | x in s :: exists i :: 0 <= i < |Chunks(s, k)| && x in Chunks(s, k)[i]
    decreases |s|
  {
    var r := Chunks(s, k);
    if |s| > k {
      ChunksMembers(s[k..], k);
      forall i, x | 0 <= i < |r| && x in r[i] ensures x in s {
        if i > 0 {
          assert r[i] == Chunks(s[k..], k)[i - 1];
          assert x in s[k..];
        } else {
          assert x in s[..k];
        }
      }
      forall x | x in s ensures exists i :: 0 <= i < |r| && x in r[i] {
        assert s == s[..k] + s[k..];
        if x in s[..k] {
          assert x in r[0];
        } else {
          var i :| 0 <= i < |Chunks(s[k..], k)| && x in Chunks(s[k..], k)[i];
          assert r[i + 1] == Chunks(s[k..], k)[i];
        }
      }
    } else if |s| > 0 {
      assert r[0] == s;
    }
  }

  /** There are `ceil(L / k)` chunks; in particular none for an empty input. */
  lemma {:induction false} ChunksCount<T>(s: seq<T>, k: nat)
    requires k >= 1
    ensures |Chunks(s, k)| == (|s| + k - 1) / k
    decreases |s|
  {
    if |s| > k {
      ChunksCount(s[k..], k);
      DivStep(|s| - 1, k);
    }
  }

  /** `chunk_iterable(iterable, chunk_size)`: pulls items one by one into a
      chunk of `max(chunk_size, 1)` items and yields it; when the items run
      out it yields the partial chunk if it is non-empty and stops. */
  method ChunkIterable<T>(items: seq<T>, chunkSize: int) returns (chunks: seq<seq<T>>)
    ensures chunks == Chunks(items, if chunkSize < 1 then 1 else chunkSize)
    ensures chunkSize <= 0 ==> chunks == Chunks(items, 1)
  {
    var k: nat := if chunkSize < 1 then 1 else chunkSize;
    var next := 0;  // how far the iterator has advanced
    chunks := [];
    while true
      invariant 0 <= next <= |items|
      invariant chunks + Chunks(items[next..], k) == Chunks(items, k)
      decreases |items| - next
    {
      var start := next;
      var chunk: seq<T> := [];
      var exhausted := false;
      var j := 0;
      while j < k && !exhausted
        invariant start <= next <= |items| && next - start == j <= k
        invariant chunk == items[start..next]
        invariant exhausted ==> next == |items| && j < k
        decreases k - j, if exhausted then 0 else 1
      {
        if next == |items| {
          exhausted := true;  // StopIteration
        } else {
          chunk := chunk + [items[next]];
          next := next + 1;
          j := j + 1;
        }
      }
      if exhausted {
        assert |items[start..]| < k && chunk == items[start..];
        if chunk != [] {
          chunks := chunks + [chunk];
        }
        return;
      }
      ChunksFull(items[start..], k);
      assert items[start..][k..] == items[next..];
      assert items[start..][..k] == chunk;
      assert Chunks(items[start..], k) == [chunk] + Chunks(items[next..], k);
      chunks := chunks + [chunk];
    }
  }
}

=== FILE: wrappers.dfy ===
/** Optional values and results with an error, used for the source's
    `None`-like inputs and for the exceptions it raises. */
module Wrappers {

  datatype Option<T> = None | Some(value: T)

  datatype Result<T, E> = Ok(value: T) | Err(error: E)
}
